=== FILE: README.md ===
# p-adic engine of padic-ts, in Dafny

This project models the arithmetic engine of padic-ts (`src/engine/`), which
turns rational numbers into p-adic expansions and back. It has three parts.

- **Integer helpers** (`helpers.ts`). These are:
  - absolute value and minimum;
  - gcd by Euclid's recursion;
  - trial-division primality;
  - prime factorisation into a prime-to-exponent map;
  - the signed exponent map of a ratio a/b, its sorted pair list, and the ratio with one prime removed;
  - the p-adic norm as text;
  - the brute-force modular inverse;
  - stripping every factor p from an integer;
  - the longest repeated non-overlapping substring, computed by a dynamic-programming table.
- **Ratio** (`Ratio.ts`). An immutable signed rational `sign * n / d`, with:
  - the sign folding of its constructor;
  - unreduced cross-multiplied arithmetic, `reduce`, and value equality;
  - the p-adic valuation, absolute value and distance;
  - the digit stepper `nextPadicRatio`/`toPadicExpansion`;
  - the Hensel digit extraction `toPadic` and its step list `toPadicSteps`.
- **Padic** (`Padic.ts`). A buffer of `2 * MAX_EXP` digits in which the digit of p^j sits in cell `j + MAX_EXP`. It provides:
  - base-p addition with carry;
  - the radix complement;
  - the Horner digit sum;
  - rational reconstruction by repeated self-addition;
  - printing and parsing.

Layout:

| file | module | what it holds |
|---|---|---|
| `wrappers.dfy` | `Wrappers` | one `Error` per exception, and `Result` |
| `arith.dfy` | `NumberTheory` | powers, divisibility, `Gcd` (the model of `gcdExtended`), Bezout, primes, and `Ord` (the exponent of p in x) |
| `text.dfy` | `Text` | decimal printing, `parseInt`, `split(' ')`, joining, trimming |
| `helpers.dfy` | `Helpers` | `helpers.ts` |
| `ratio.dfy` | `Ratios` | `Ratio.ts`, apart from `toPadic` and `toPadicSteps` |
| `padic.dfy` | `Padics` | `Padic.ts`, plus `toPadic` and `toPadicSteps` |

`toPadic` and `toPadicSteps` are placed in `Padics` for two reasons: they build Padic values, and Dafny modules cannot import each other in a cycle.

How each kind of source code is modelled:
- Ratio is a `datatype`, and its pure operations are functions. Its value is `Value()`, a `real`.
- Padic is a `class` whose `expansion` is an `array<int>`.
  - `add` and `toPadic` build fresh buffers.
  - `cmpt` writes the buffer it shares with its receiver, in place.
  - `convertToRatio` accumulates through that shared buffer as the source does.
- Loops in the source are methods with loop invariants. Each is proved against a specification function, for example:
  - `Added` and `Complemented`, the buffers that `add` and `cmpt` leave;
  - `WinVal`, the value of a window of digits;
  - `Multiple`, the accumulator after n summands;
  - `Tokens`, the printed tokens;
  - `Chain`, a list of steps each satisfying `orig = digit + p * next`.
- The limits `MAX_ARG`, `MAX_PRIME` and `MAX_APPROX` live in a constants file that is not part of this model. They are method parameters (`maxArg`, `maxPrime`, `maxApprox`).
- `MAX_EXP` is the constant 64, which gives the 128-cell buffers.

## Model

| member | source | states |
|---|---|---|
| Helpers.Abs | src/engine/helpers.ts:4-6 | the result is non-negative and is a or -a |
| Helpers.Min | src/engine/helpers.ts:11-13 | the result is at most both arguments and equals one of them |
| Helpers.IsPrime | src/engine/helpers.ts:21-32 | true exactly for primes: the four small primes directly, no n < 2 or even n, and then no odd divisor i with i*i <= n |
| Helpers.SmallPrimes | src/engine/helpers.ts:22-23 | 2, 3, 5 and 7 are prime |
| Helpers.NoLargeDivisor | src/engine/helpers.ts:27-30 | without a divisor below i, where i*i > n, n has no divisor at all between 2 and n |
| NumberTheory.Gcd | src/engine/helpers.ts:38-51 | the recursion on (b % a, a) returns a common divisor of a and b, which is 0 only when both are 0 |
| NumberTheory.GcdGreatest | src/engine/helpers.ts:38-51 | every common divisor of a and b divides the returned gcd, so it is the greatest one |
| NumberTheory.Bezout | src/engine/helpers.ts:38-51 | the coefficients the x/y updates aim at exist: a*x + b*y == gcd(a, b) |
| Helpers.NegExp | src/engine/helpers.ts:56-61 | the result is nonzero and not divisible by p, and b == p^ord_p(b) * result |
| Helpers.Strip | src/engine/Ratio.ts:365-368 | divides p out of x while it divides: x == p^e * y, e == ord_p(x), p does not divide y |
| Helpers.Factors | src/engine/helpers.ts:69-87 | {} when abs(n) < 2; otherwise every key is prime with exponent >= 1, and each prime's exponent is its order in abs(n) |
| Helpers.NoPrimeFactors | src/engine/helpers.ts:74 | below 2 in magnitude the empty map is the exact factorisation |
| Helpers.PushFactor | src/engine/helpers.ts:76-81 | each divisor trial division pushes is prime, and the pushed list times the remaining n stays abs(n) |
| Helpers.OrdOfProduct | src/engine/helpers.ts:76-81 | in a product of primes, a prime q occurs to the power of its count in the list |
| Helpers.TallyFactors | src/engine/helpers.ts:83-86 | grouping a prime list whose product is abs(n) by occurrence gives exactly the exponent of each prime in n |
| Helpers.RatioFactors | src/engine/helpers.ts:95-116 | each key is prime with a nonzero value, and every prime maps to ord_q(a) - ord_q(b), zero results left out |
| Helpers.ListingDone | src/engine/helpers.ts:127-134 | once every key is listed, the pairs hold exactly the primes with nonzero exponent |
| Helpers.RatioFactorsArray | src/engine/helpers.ts:124-136 | the pairs are in ascending order of the prime, each is (q, ord_q(a) - ord_q(b)) with a nonzero exponent, and every such prime appears |
| Helpers.RatioNormReconstruct | src/engine/helpers.ts:145-159 | num and denum are positive; outside p, num holds the positive exponents and denum the negative ones; p divides neither |
| Helpers.NormReconstructWhole | src/engine/helpers.ts:145-159 | when p is not a prime no factor is skipped, so num/denum is abs(a)/abs(b) |
| Helpers.NormReconstructZero | src/engine/helpers.ts:145-159 | for a = 0 the numerator is 1 |
| Helpers.NormReconstructValue | src/engine/helpers.ts:145-159 | num/denum is in lowest terms, and multiplying p^e back in (e the exponent of p) gives abs(a)/abs(b) |
| Helpers.RatioPrimeReconstruct | src/engine/helpers.ts:168-174 | [p, exponent of p in a/b], with 0 when p is not a key |
| Helpers.PadicNorm | src/engine/helpers.ts:203-222 | "0" for a == 0, "1" when p is not a factor, "1 / p^e" for a positive exponent e, and "p^-e" for a negative one |
| Helpers.JsRemNormalised | src/engine/Ratio.ts:400-403 | a truncating remainder, plus p when negative, is the Euclidean remainder |
| Helpers.ModInv | src/engine/helpers.ts:230-238 | on success, the least x in [1, b) with ((a % b) * x) % b == 1; on failure, "Impossible mod inv", and no such x exists for a >= 0 |
| Helpers.InverseExists | src/engine/helpers.ts:230-238 | when a % b is coprime to b >= 2, an inverse exists, so modInv cannot fail |
| Helpers.Cell | src/engine/helpers.ts:267-279 | a table cell is at most i and at most the gap j - i, and 0 on and below the diagonal |
| Helpers.CellRepeats | src/engine/helpers.ts:267-268 | a cell value c at (i, j) is a repeat of length c ending at i and at j that does not overlap |
| Helpers.RepeatWitness | src/engine/helpers.ts:263-281 | every non-overlapping repeat of length len has a table cell of value at least len |
| Helpers.ZeroTable | src/engine/helpers.ts:246-255 | a fresh (n+1) x (n+1) table of zeros |
| Helpers.FillRow | src/engine/helpers.ts:264-280 | filling row i keeps every filled cell equal to its definition, and keeps res_length the largest cell so far with index its row |
| Helpers.GetRepeatedSequence | src/engine/helpers.ts:244-293 | the result is "" or a substring occurring twice without overlap; no such repeat is longer; twice its length fits in str |
| Text.ParseInt | src/engine/Padic.ts:42 | a token of digits reads as their decimal value; the result is at most 0 after a leading '-' and at least 0 otherwise |
| Text.ParseIntOfInt | src/engine/Padic.ts:42 | parseInt reads back every integer as printed, followed by nothing or by a non-digit other than an 'x'/'X' after a lone 0 (the suffixes toString prints, "" and ".", are among them) |
| Text.Split | src/engine/Padic.ts:36 | split(' ') gives at least one piece, no piece holds a space, and joining the pieces with single spaces gives the text back |
| Text.SplitJoin | src/engine/Padic.ts:36 | split(' ') recovers the tokens that toString joined with single spaces |
| Text.TrimEnds | src/engine/Padic.ts:205 | the trimmed text neither starts nor ends with a space |
| Text.TrimPadded | src/engine/Padic.ts:205 | the trimmed text sits inside the original with only spaces before and after it |
| Text.TrimEmpty | src/engine/Padic.ts:205 | trim gives "" exactly when the text is all spaces |
| Text.TrimSpaced | src/engine/Padic.ts:203-205 | trimming "t1 t2 ... tn " leaves "t1 t2 ... tn" |
| Ratios.New | src/engine/Ratio.ts:26-46 | "Can't divide by 0." exactly when d == 0; otherwise it stores abs(n) and abs(d) and keeps the value sign*n/d |
| Ratios.Make | src/engine/Ratio.ts:31-44 | the sign folding gives a valid ratio of magnitudes abs(n), abs(d) and value sign*n/d |
| Ratios.SignFolding | src/engine/Ratio.ts:32-40 | folding the sign of n*d*sign into a +1/-1 sign keeps the value; zero is positive |
| Ratios.Ratio.GenerateFactors | src/engine/Ratio.ts:53-74 | each key is a prime with a nonzero value, and every prime maps to its exponent in n/d |
| Ratios.Ratio.Neg | src/engine/Ratio.ts:84-86 | same n and d, value negated |
| Ratios.Ratio.Abs | src/engine/Ratio.ts:92-94 | same n and d, sign +1, value abs(x) |
| Ratios.Ratio.Inverse | src/engine/Ratio.ts:100-102 | fails exactly when n == 0; otherwise it swaps n and d, keeps the sign, and the value times the original is 1 |
| Ratios.Ratio.Reduce | src/engine/Ratio.ts:108-111 | same value and sign, with n and d coprime |
| Ratios.ReducedUnique | src/engine/Ratio.ts:108-111 | two reduced ratios with the same value are identical |
| Ratios.Ratio.Clone | src/engine/Ratio.ts:117-119 | the copy equals the original |
| Ratios.Ratio.FactorsArray | src/engine/Ratio.ts:126-138 | ascending pairs (q, exponent of q in n/d) for exactly the primes with nonzero exponent |
| Ratios.Ratio.ReconstructWithoutPrime | src/engine/Ratio.ts:145-159 | a positive ratio in lowest terms whose numerator holds every prime other than the argument with a positive exponent in n/d and whose denominator holds those with a negative one; so for a prime argument and n, d != 0, times p^e it gives abs(n/d); for a non-prime argument it is abs(n/d); for n == 0 it is 1 over d without the prime |
| Ratios.Ratio.IsFactor | src/engine/Ratio.ts:166-168 | true exactly when the prime has a nonzero exponent in n/d |
| Ratios.Ratio.Factor | src/engine/Ratio.ts:175-180 | [prime, its exponent in n/d], with 0 when it is not a factor |
| Ratios.Ratio.Add | src/engine/Ratio.ts:190-194 | denominator d*b.d, not reduced; value x + y |
| Ratios.Ratio.Sub | src/engine/Ratio.ts:200-204 | denominator d*b.d, not reduced; value x - y |
| Ratios.Ratio.Mul | src/engine/Ratio.ts:210-214 | n*b.n over d*b.d, not reduced; value x * y |
| Ratios.Ratio.Div | src/engine/Ratio.ts:220-224 | fails exactly when b is zero; otherwise n*b.d over d*b.n, and the result times b is x |
| Ratios.Ratio.Distance | src/engine/Ratio.ts:231-233 | in lowest terms, with value abs(x - y) |
| Ratios.Ratio.Equals | src/engine/Ratio.ts:240-242 | equals holds exactly when the two ratios denote the same rational number |
| Ratios.ReducedTextIffSameValue | src/engine/Ratio.ts:240-242 | the reduced forms of two ratios print alike exactly when the ratios have the same value |
| Ratios.Ratio.ToString | src/engine/Ratio.ts:487-501 | the text is non-empty; it is "0" exactly for a zero numerator, and starts with '-' exactly for a nonzero negative ratio |
| Ratios.ToStringInjective | src/engine/Ratio.ts:487-501 | the text of a reduced ratio determines it |
| Ratios.FractionInjective | src/engine/Ratio.ts:495-499 | "n" / "n/d" printing is injective in (n, d) |
| Ratios.FractionHasSlash | src/engine/Ratio.ts:495-499 | a '/' is printed exactly when d != 1 |
| Ratios.Ratio.PadicValuation | src/engine/Ratio.ts:253-255 | ord_p(n) - ord_p(d) for a prime p, and 0 otherwise |
| Ratios.ValuationOfValue | src/engine/Ratio.ts:253-255 | ratios of equal value have equal valuations, so reduce does not change it |
| Ratios.Ratio.PadicAbs | src/engine/Ratio.ts:261-271 | reduced, with value abs(x)_p: 0 for zero, p^-v otherwise |
| Ratios.Ratio.PadicDistance | src/engine/Ratio.ts:278-280 | the p-adic absolute value of x - y |
| Ratios.Ratio.Matches | src/engine/Ratio.ts:294 | the test digit + p * newRatio equals this holds exactly when the candidate value i - p*k/d equals this |
| Ratios.CandidateValue | src/engine/Ratio.ts:294 | the ratio digit.add(pRatio.mul(newRatio)) has the candidate value |
| Ratios.Ratio.StepFound | src/engine/Ratio.ts:290-295 | a matching (i, k) gives a step with digit i in [0, p) and i + p * next == this |
| Ratios.Ratio.NextPadicRatio | src/engine/Ratio.ts:288-300 | on success, a step from this with digit in [0, p) and digit + p * next == this; on failure, no i in [0, p) and k in [0, d] matches |
| Ratios.Ratio.ToPadicExpansion | src/engine/Ratio.ts:318-327 | precision steps, chained: each starts where the previous ends and satisfies orig == digit + p * next |
| Ratios.ChainExtend | src/engine/Ratio.ts:323-324 | pushing a step that starts where the chain ends keeps a chain |
| Ratios.ChainTail | src/engine/Ratio.ts:321-325 | a chain without its first step is a chain from that step's next |
| Ratios.ChainValue | src/engine/Ratio.ts:318-327 | a chain of n steps from x means x == (digits read in base p) + p^n * (where it ends) |
| Ratios.DivStep | src/engine/Ratio.ts:424 | (orig - d) / p, reduced, is defined, lowest-terms, and orig == d + p * next |
| Ratios.StepOfDivision | src/engine/Ratio.ts:424 | for a digit in [0, p), the reduced next is coprime and the step holds |
| Padics.WinValBound | src/engine/Padic.ts:57-71 | with digits in [0, p), n digits hold a value in [0, p^n) |
| Padics.WinValUnique | src/engine/Padic.ts:98-114 | with digits in [0, p), the window value determines every digit of the window |
| Padics.Padic.constructor | src/engine/Padic.ts:14-24 | the fields are the arguments; the buffer is shared, not copied |
| Padics.Padic.Zero | src/engine/Padic.ts:14-24 | the default arguments: valuation 0 and a fresh buffer of 128 zeros |
| Padics.AddColumn | src/engine/Padic.ts:82-89 | one column of add: stores the column sum minus p and carries 1 when it exceeds p - 1, else stores it and carries 0, so the digits stored so far are the Added ones |
| Padics.Padic.Add | src/engine/Padic.ts:77-92 | a fresh number of the receiver's prime and precision, valuation min(v, b.v), buffer Added(...): the column sums on exponents v .. v+precision, those of exponent 64 and more not stored |
| Padics.AddedValue | src/engine/Padic.ts:81-90 | the written digits below exponent j plus the carry into j weigh exactly as much as the two operands |
| Padics.CarryBit | src/engine/Padic.ts:82-89 | with operand digits in [0, p) the carry stays in {0, 1} |
| Padics.AddedMod | src/engine/Padic.ts:81-90 | written digits are in [0, p), and the window is the operands' sum mod p^(precision+1), the last carry dropped |
| Padics.AddedCommutes | src/engine/Padic.ts:80-82 | swapping the operands builds the same buffer |
| Padics.CompColumn | src/engine/Padic.ts:104-111 | one column of cmpt: adds p - 1 - digit to the carry and stores it, less p when it exceeds p - 1, so the digits complemented so far are the Complemented ones |
| Padics.Padic.Cmpt | src/engine/Padic.ts:98-114 | returns a fresh number that shares the receiver's buffer, complemented in place on the exponents v .. v+precision that have cells |
| Padics.ComplementValue | src/engine/Padic.ts:103-112 | the complemented digits below j plus the carry into j are p^(j-lo) minus the original |
| Padics.CCarryBit | src/engine/Padic.ts:104-111 | with digits in [0, p) the complement carry stays in {0, 1} |
| Padics.ComplementMod | src/engine/Padic.ts:98-114 | written digits are in [0, p), and the window is the negation mod p^(precision+1) |
| Padics.ComplementInvolution | src/engine/Padic.ts:98-114 | complementing twice restores the buffer |
| Padics.Padic.Dsum | src/engine/Padic.ts:57-71 | -1 or Horner's value of the precision digits from min(v, 0); for non-negative digits, -1 only when that value exceeds 2^53 - 1 |
| Padics.TopDiffer | src/engine/Padic.ts:131-135 | the highest exponent at or below j whose cell differs from val (a missing cell differs from every val), or lo - 1 |
| Padics.ScanDown | src/engine/Padic.ts:130-135 | the scan loop stops at TopDiffer |
| Padics.Sparse | src/engine/Padic.ts:130-136 | the fl test: for val 0 it says the receiver looks like an integer; in general, a negative integer for p = val + 1 |
| Padics.MultipleValue | src/engine/Padic.ts:154-156 | after n summands the accumulator's digits are in [0, p) and it holds n * receiver mod p^(precision+1) |
| Padics.Padic.Search | src/engine/Padic.ts:129-156 | one pass: stop on an integer-like receiver or a negative-like accumulator, else (neither test passed) one more summand in a fresh buffer |
| Padics.Padic.Accumulate | src/engine/Padic.ts:127-157 | the accumulator is i times the receiver; it shares the receiver's buffer while i is 1; it stops at the first pass whose test passes: fl only on a negative-like accumulator with no earlier one, no fl within maxApprox only on an integer-like receiver, and i = maxApprox + 1 (or 1) when no test passed |
| Padics.Padic.Approximate | src/engine/Padic.ts:127-160 | Accumulate's first stop, then the complement on fl, which also changes the receiver when the buffer is still shared |
| Padics.Denominator | src/engine/Padic.ts:169-171 | count * p^max(0, -valuation) |
| Padics.Quotient | src/engine/Padic.ts:163-178 | "Rational reconstruction failed" past maxApprox or when dsum is negative; on success Ratio(+-x, count * p^max(0, -v)) with x dsum's value; success whenever count <= maxApprox, p >= 1 and the digits are non-negative with a value at most 2^53 - 1 |
| Padics.PastTheBuffer | src/engine/Padic.ts:130-151 | when the top exponent of the window has no cell, neither the integer test nor the negative test can pass |
| Padics.FirstStopUnique | src/engine/Padic.ts:126-156 | the search loop's stop (count and whether it complemented) is unique: two stops that both meet FirstStop are equal |
| Padics.Padic.ConvertToRatio | src/engine/Padic.ts:120-179 | "Rational reconstruction failed" past maxApprox or when dsum is negative; else Ratio(+-x, count * p^max(0, -v)), x the digit sum of count * receiver, negated if complemented; count and negative are the search loop's first stop (FirstStop), so the returned ratio is determined by the receiver; it succeeds whenever count <= maxApprox, p >= 1 and that digit sum has non-negative digits and is at most 2^53 - 1; and it fails whenever precision >= 2 and the window reaches past the buffer |
| Padics.Padic.ToArray | src/engine/Padic.ts:185-189 | precision digits from exponent min(v, 0) up, lowest first |
| Padics.Tokens | src/engine/Padic.ts:196-204 | one token per digit of the window, precision of them |
| Padics.TokensStep | src/engine/Padic.ts:198-203 | each pass appends the digit of exponent i, a '.' when i is 0 and v < 0, and a space |
| Padics.TokensAreTokens | src/engine/Padic.ts:198-204 | every token is non-empty and without spaces; only exponent 0 carries '.', and only when v < 0 |
| Padics.PrintedTokens | src/engine/Padic.ts:205 | trimming the printed text leaves the tokens joined by single spaces |
| Padics.PrintToken | src/engine/Padic.ts:199-203 | one pass of toString's loop appends the next token (the digit, with '.' after exponent 0 when v < 0) and a space |
| Padics.PrintTokens | src/engine/Padic.ts:198-204 | the loop prints every token of the window, highest exponent first, each followed by a space |
| Padics.Padic.ToString | src/engine/Padic.ts:195-206 | the tokens joined by single spaces, and "" for precision < 1 |
| Padics.DotIndex | src/engine/Padic.ts:39-41 | the index of the last chunk holding a '.', 0 when none does |
| Padics.ReadChunk | src/engine/Padic.ts:38-42 | one chunk of fromString: the valuation becomes its index when it holds '.', and its parseInt is appended |
| Padics.ParsedAt | src/engine/Padic.ts:42 | entry n of the parsed chunks is parseInt of chunk n |
| Padics.ReadChunks | src/engine/Padic.ts:35-43 | the valuation is DotIndex, and chunk n is parsed into arr[n] |
| Padics.PlaceDigits | src/engine/Padic.ts:45-48 | arr[n] goes into cell n + MAX_EXP of a fresh zero buffer, and every other cell is 0 |
| Padics.FromString | src/engine/Padic.ts:31-50 | the valuation is the dot index; chunk i, parsed, is in cell i + MAX_EXP; every other cell is 0 |
| Padics.ChunksOfTokens | src/engine/Padic.ts:36-37 | split and reverse of the printed text gives the tokens lowest exponent first |
| Padics.FromStringOfToString | src/engine/Padic.ts:31-50 | for a non-negative valuation, parsing the printed text gives valuation 0 and the digits of exponents 0 .. precision-1 |
| Padics.ToPadic | src/engine/Ratio.ts:335-412 | errors are raised in the source's order for the reduced a/b; on success prime and precision are clipped, the valuation is ord_p(a) - ord_p(b), digits are in [0, p) and placed between v and v+precision, and their value approximates a/b modulo p^(v+precision+1) |
| Padics.ExpandRatio | src/engine/Ratio.ts:364-411 | stripping p from b, then modInv, then the digit loop; the only failure is a missing inverse, and only for a non-prime p |
| Padics.Expand | src/engine/Ratio.ts:375-411 | the loop ends with valuation s + ord_p(a), digits placed in [0, p), and a0 == b * (digits) + a multiple of p^n |
| Padics.ExpandStep | src/engine/Ratio.ts:378-410 | one pass keeps the loop invariant or stops with the final state, and makes progress |
| Padics.NextDigit | src/engine/Ratio.ts:399-406 | the digit (a*b1) mod p goes to exponent i; digit*b comes off a, which stays divisible by p; the total is kept |
| Padics.HenselStep | src/engine/Ratio.ts:400-406 | with b1 the inverse of b mod p, a - ((a*b1) mod p) * b is divisible by p |
| Padics.OrdBelow | src/engine/Ratio.ts:341-343 | a value below 2^64 in magnitude has fewer than 64 factors p, so the digits stay inside the buffer |
| Padics.ChainPrefix | src/engine/Ratio.ts:428 | a prefix of a chain is a chain from the same start |
| Padics.PushStep | src/engine/Ratio.ts:424-426 | next is (orig - digit) / prime reduced, the step is pushed, and the list stays a chain |
| Padics.StepsOf | src/engine/Ratio.ts:420-427 | one step per digit, with that digit and a reduced next, forming a chain from x |
| Padics.Digits | src/engine/Ratio.ts:421 | toPadic(prime).toArray() at the default precision gives 63 digits, each in [0, p) |
| Padics.ValuationFits | src/engine/Padic.ts:185-189 | the valuation toPadic computes leaves room for 63 digits from min(v, 0) |
| Padics.ToPadicSteps | src/engine/Ratio.ts:419-429 | toPadic's errors pass through; on success, slice(0, precision) of a chain of 63 steps from x, each digit in [0, p) |

## Left out

- KaTeX rendering (`factorsKatex`, `toKatex`, `ratioFactorsKatex`) and `toFixed`: these are presentation and floating-point formatting, not arithmetic.
- `dsum`'s overflow test divides doubles. Padics.Padic.Dsum reads it as "the product leaves the exactly representable integers": it returns -1 when abs(sum * p) > 2^53 - 1, and does not reproduce float rounding.
- JavaScript numbers: all arithmetic is on unbounded integers. Nothing models the precision lost above 2^53, for example `a * b1` in toPadic for a large a.
- Padics.ToPadic: requires maxArg < 2^64. The limits of the constants file are not part of this model; this bound keeps every digit inside the 128-cell buffer.
- `toPadic`'s `Number.isInteger` checks: integer inputs always pass them, so they are not modelled.
- The `b === 0` check of `toPadic` is not modelled: after `reduce`, b is at least 1, so it can never fire.
- `isPrime`'s `Math.sqrt(n)` bound is modelled as `i * i <= n`.
- Ratio.ts imports `gcd` and `modInverse` from helpers.ts, which exports neither; it has `gcdExtended` and `modInv`. The model takes them to be those two: `reduce`'s gcd is NumberTheory.Gcd (the gcd `gcdExtended` returns) and `toPadic`'s inverse is Helpers.ModInv.
- Helpers.GetRepeatedSequence: the text is a sequence of Unicode characters, while JavaScript's `length`, indexing and `charAt` work on UTF-16 code units. The two agree on text inside the Basic Multilingual Plane; outside it they differ (for "😀😁" JavaScript finds the repeated high surrogate "\uD83D", the model finds "").
- `gcdExtended`'s x/y updates use float division and their results are discarded; only the returned gcd is modelled (NumberTheory.Gcd).
- Text.ParseInt: models only an optional '-' followed by decimal digits. JavaScript's `parseInt` also skips leading white space (tab, newline and the other Unicode white space), accepts a leading '+', and reads a "0x"/"0X" prefix as hexadecimal; the model reads such tokens as 0 ("+5", "\t5" and "0x1F" give 0 where JavaScript gives 5, 5 and 31). A token without digits, where `parseInt` gives NaN, also reads as 0. Padics.FromString therefore differs from `fromString` on such tokens; the tokens `toString` prints are digits with an optional '-' or '.', where the two agree (Text.ParseIntOfInt).
- Helpers.ModInv: the result for a negative a is modelled (JavaScript `%` never yields 1 there, so it fails). Nothing is claimed about inverses of negative a.
- `nextPadicRatio`'s search only covers next values -k/d with 0 <= k <= d. Ratios.Ratio.NextPadicRatio states what is found and, on failure, that no candidate matched. It does not claim that a digit always exists.
- Padics.ToPadicSteps: does not state that the step digits equal `toArray`'s digits one for one, only that each is in [0, p) and that the steps form a chain (Padics.StepsOf carries the per-digit equality).
- Cloning (`clone()` in `toPadicExpansion` and `toPadicSteps`): a Ratio is an immutable value, so a clone is the value itself.
- Padics.Padic.Add, Padics.Padic.Cmpt: a column whose cell lies past the buffer (exponent 64 or more in a fresh 128-cell buffer) is not stored. JavaScript grows the array and stores NaN there, or a real column sum when the operand came from `fromString` with more than 64 tokens; the model's later reads see a missing cell, which only the scans of `convertToRatio` read, and they treat it as differing, as they treat NaN.
- Padics.Padic.Add, Padics.Padic.Cmpt, Padics.Padic.ConvertToRatio: require the window to start at exponent -64 or above. Below that JavaScript reads `undefined` and every column becomes NaN, which integers cannot hold.
- Padics.Padic.Dsum, Padics.Padic.ToArray, Padics.Padic.ToString, Padics.Padic.ConvertToRatio: require the digit window min(v, 0) .. min(v, 0) + precision - 1 to lie inside the 128 cells. Past them JavaScript reads `undefined` and the sum or text holds NaN. `toPadic`'s results always meet this.
- `convertToRatio` and `cmpt` alias the receiver's buffer. Padics.Padic.Cmpt and Padics.Padic.Approximate state which buffer is changed. Later aliasing between the results of separate calls is not tracked.
- Padics.Padic.ConvertToRatio: the two stop checks of each pass are a method of their own (Padics.Padic.Search). Its `count` and `negative` out-parameters are ghost: they name the source's `i` and `fl` for the contract.
- The `factors` field that the Ratio constructor fills is not stored: Ratios.Ratio.GenerateFactors computes it when asked, and the methods that read it call it.
- `fromString`/`toString` round trip: for a negative valuation, `fromString` records the position of the '.' token rather than the valuation `toString` printed. Padics.FromStringOfToString covers non-negative valuations only, where the source reproduces the digits of exponents 0 .. precision-1 with valuation 0 (so a positive valuation is not recovered).

=== FILE: arith.dfy ===
/**
 * Integer facts the p-adic engine relies on: powers, divisibility, primes,
 * the gcd computed by Euclid's recursion, Bezout coefficients, Euclid's lemma,
 * and the p-adic order of an integer (how many times p divides it).
 */
module NumberTheory {

  /** b^e for a natural exponent. */
  function Pow(b: int, e: nat): (r: int)
    ensures b >= 1 ==> r >= 1
    decreases e
  {
    if e == 0 then 1 else
      var r' := Pow(b, e - 1);
      assert b >= 1 ==> b * r' >= 1 by {
        if b >= 1 {
          MulAtLeast(b, r', 1, 1);
        }
      }
      b * r'
  }

  lemma MulAtLeast(x: int, y: int, lx: int, ly: int)
    requires lx >= 0 && ly >= 0 && x >= lx && y >= ly
    ensures x * y >= lx * ly
  {
    assert x * y - lx * ly == (x - lx) * y + lx * (y - ly);
    assert (x - lx) * y >= 0;
    assert lx * (y - ly) >= 0;
  }

  lemma {:induction false} PowAdd(b: int, e1: nat, e2: nat)
    ensures Pow(b, e1 + e2) == Pow(b, e1) * Pow(b, e2)
    decreases e1
  {
    if e1 > 0 {
      PowAdd(b, e1 - 1, e2);
      assert Pow(b, e1 + e2) == b * Pow(b, e1 - 1 + e2);
      assert b * (Pow(b, e1 - 1) * Pow(b, e2)) == (b * Pow(b, e1 - 1)) * Pow(b, e2);
    }
  }

  lemma {:induction false} PowMonotone(b: int, e1: nat, e2: nat)
    requires b >= 1 && e1 <= e2
    ensures Pow(b, e1) <= Pow(b, e2)
    decreases e2
  {
    if e1 < e2 {
      PowMonotone(b, e1, e2 - 1);
      MulAtLeast(b, Pow(b, e2 - 1), 1, Pow(b, e2 - 1));
    }
  }

  lemma {:induction false} PowBaseMonotone(b1: int, b2: int, e: nat)
    requires 1 <= b1 <= b2
    ensures Pow(b1, e) <= Pow(b2, e)
    decreases e
  {
    if e > 0 {
      PowBaseMonotone(b1, b2, e - 1);
      MulAtLeast(b2, Pow(b2, e - 1), b1, Pow(b1, e - 1));
    }
  }

  /** d divides x; zero divides only zero. */
  predicate Divides(d: int, x: int)
  {
    if d == 0 then x == 0 else x % d == 0
  }

  ghost predicate Prime(n: int)
  {
    n >= 2 && forall k :: 2 <= k < n ==> !Divides(k, n)
  }

  /** Euclidean division is unique: any q, r with x == m*q + r and 0 <= r < |m| are x / m and x % m. */
  lemma DivModUnique(x: int, m: int, q: int, r: int)
    requires m != 0 && x == m * q + r && 0 <= r < (if m < 0 then -m else m)
    ensures x / m == q && x % m == r
  {
    var q', r' := x / m, x % m;
    var am := if m < 0 then -m else m;
    assert m * q' + r' == x;
    assert m * (q - q') == r' - r;
    assert -am < r' - r < am;
    MulBelowMagnitude(m, q - q');
  }

  /** A multiple of m whose magnitude is below |m| is zero. */
  lemma MulBelowMagnitude(m: int, k: int)
    requires m != 0 && -(if m < 0 then -m else m) < m * k < (if m < 0 then -m else m)
    ensures k == 0
  {
    var am, ak := if m < 0 then -m else m, if k < 0 then -k else k;
    assert am * ak == (if m * k < 0 then -(m * k) else m * k);
    MulAtLeast(am, ak, am, if k == 0 then 0 else 1);
  }

  lemma DividesMul(d: int, k: int)
    ensures Divides(d, d * k)
  {
    if d != 0 {
      DivModUnique(d * k, d, k, 0);
    }
  }

  /** For a nonzero divisor, divisibility means x is an exact multiple. */
  lemma DividesExact(d: int, x: int)
    requires d != 0
    ensures Divides(d, x) <==> x == d * (x / d)
  {
    if x == d * (x / d) {
      DividesMul(d, x / d);
    }
  }

  lemma DividesLinear(d: int, x: int, q: int, y: int)
    requires Divides(d, x) && Divides(d, y)
    ensures Divides(d, x * q + y)
  {
    if d != 0 {
      DividesExact(d, x);
      DividesExact(d, y);
      var a, b := x / d, y / d;
      assert x * q + y == d * (a * q + b) by {
        assert x * q == (d * a) * q == d * (a * q);
      }
      DividesMul(d, a * q + b);
    }
  }

  lemma DividesTrans(a: int, b: int, c: int)
    requires Divides(a, b) && Divides(b, c)
    ensures Divides(a, c)
  {
    if b != 0 {
      DividesExact(b, c);
      DividesLinear(a, b, c / b, 0);
      assert c == b * (c / b) + 0;
    }
  }

  lemma DividesLe(d: int, x: int)
    requires d > 0 && x > 0 && Divides(d, x)
    ensures d <= x
  {
    DividesExact(d, x);
    var q := x / d;
    assert q >= 0;
    assert q != 0;
    MulAtLeast(d, q, d, 1);
  }

  /**
   * Greatest common divisor by Euclid's recursion on (b % a, a).
   * The result divides both arguments and is zero only when both are.
   */
  function Gcd(a: nat, b: nat): (g: nat)
    ensures Divides(g, a) && Divides(g, b)
    ensures g == 0 <==> a == 0 && b == 0
    decreases a
  {
    if a == 0 then
      b
    else
      var g := Gcd(b % a, a);
      assert b == a * (b / a) + b % a;
      DividesLinear(g, a, b / a, b % a);
      g
  }

  /** Every common divisor of a and b divides Gcd(a, b). */
  lemma {:induction false} GcdGreatest(a: nat, b: nat, c: int)
    requires Divides(c, a) && Divides(c, b)
    ensures Divides(c, Gcd(a, b))
    decreases a
  {
    if a != 0 {
      assert b % a == a * -(b / a) + b;
      DividesLinear(c, a, -(b / a), b);
      GcdGreatest(b % a, a, c);
    }
  }

  /** Bezout coefficients: the gcd is an integer combination of its arguments. */
  lemma {:induction false} Bezout(a: nat, b: nat) returns (x: int, y: int)
    ensures a * x + b * y == Gcd(a, b)
    decreases a
  {
    if a == 0 {
      x, y := 0, 1;
    } else {
      var x', y' := Bezout(b % a, a);
      var q, r := b / a, b % a;
      assert b == a * q + r;
      x, y := y' - q * x', x';
      assert r * x' + a * y' == Gcd(a, b);
      BezoutStep(a, b, q, r, x', y');
    }
  }

  lemma BezoutStep(a: int, b: int, q: int, r: int, x': int, y': int)
    requires b == a * q + r
    ensures a * (y' - q * x') + b * x' == r * x' + a * y'
  {
    assert a * (y' - q * x') == a * y' - (a * q) * x';
    assert b * x' == (a * q) * x' + r * x';
  }

  /** A prime that does not divide a is coprime to it. */
  lemma GcdWithPrime(a: nat, p: int)
    requires Prime(p) && !Divides(p, a)
    ensures Gcd(a, p) == 1
  {
    var g := Gcd(a, p);
    DividesLe(g, p);
    assert g != p;
    assert !(2 <= g < p);
  }

  /** If a divides b * c and shares no factor with b, it divides c. */
  lemma CoprimeDivides(a: nat, b: nat, c: int)
    requires Gcd(a, b) == 1 && Divides(a, b * c)
    ensures Divides(a, c)
  {
    var x, y := Bezout(a, b);
    Distribute(a, b, c, x, y);
    DividesMul(a, x * c);
    DividesLinear(a, b * c, y, a * (x * c));
  }

  lemma Distribute(a: int, b: int, c: int, x: int, y: int)
    requires a * x + b * y == 1
    ensures (b * c) * y + a * (x * c) == c
  {
    calc {
      a * (x * c) + (b * c) * y;
      (a * x) * c + (b * y) * c;
      (a * x + b * y) * c;
    }
  }

  /** Euclid's lemma. */
  lemma Euclid(p: int, a: nat, b: nat)
    requires Prime(p) && Divides(p, a * b)
    ensures Divides(p, a) || Divides(p, b)
  {
    if !Divides(p, a) {
      GcdWithPrime(a, p);
      assert Gcd(p, a) == 1 by {
        GcdGreatest(p, a, Gcd(a, p));
        GcdGreatest(a, p, Gcd(p, a));
        DividesLe(Gcd(p, a), 1);
      }
      CoprimeDivides(p, a, b);
    }
  }

  lemma DivStrictlySmaller(x: int, p: int)
    requires p >= 2 && x != 0 && x % p == 0
    ensures x == p * (x / p) && x / p != 0
    ensures (if x / p < 0 then -(x / p) else x / p) < (if x < 0 then -x else x)
  {
    DividesExact(p, x);
    var q := x / p;
    if q > 0 {
      MulAtLeast(p, q, 2, 1);
      assert p * q == q + (p - 1) * q;
      MulAtLeast(p - 1, q, 1, 1);
    } else if q < 0 {
      MulAtLeast(p, -q, 2, 1);
      assert p * -q == -q + (p - 1) * -q;
      MulAtLeast(p - 1, -q, 1, 1);
    }
  }

  /** The p-adic order of a nonzero integer: how many times p divides it. */
  function Ord(p: int, x: int): nat
    requires p >= 2 && x != 0
    decreases if x < 0 then -x else x
  {
    if x % p == 0 then
      DivStrictlySmaller(x, p);
      1 + Ord(p, x / p)
    else
      0
  }

  /** The part of a nonzero x left once every factor p is divided out. */
  function PFree(p: int, x: int): int
    requires p >= 2 && x != 0
    decreases if x < 0 then -x else x
  {
    if x % p == 0 then
      DivStrictlySmaller(x, p);
      PFree(p, x / p)
    else
      x
  }

  /** x splits into p^Ord(p, x) times a part that p does not divide. */
  lemma {:induction false} OrdSplit(p: int, x: int)
    requires p >= 2 && x != 0
    ensures PFree(p, x) != 0 && PFree(p, x) % p != 0
    ensures x == Pow(p, Ord(p, x)) * PFree(p, x)
    decreases if x < 0 then -x else x
  {
    if x % p == 0 {
      DivStrictlySmaller(x, p);
      var y := x / p;
      OrdSplit(p, y);
      var e, u := Ord(p, y), PFree(p, y);
      assert Ord(p, x) == e + 1 && PFree(p, x) == u;
      PowStep(p, y, e, u);
    } else {
      assert Ord(p, x) == 0 && PFree(p, x) == x;
    }
  }

  lemma PowStep(p: int, y: int, e: nat, u: int)
    requires y == Pow(p, e) * u
    ensures p * y == Pow(p, e + 1) * u
  {
    assert p * (Pow(p, e) * u) == (p * Pow(p, e)) * u;
  }

  /** The split of OrdSplit is unique. */
  lemma {:induction false} OrdOfSplit(p: int, e: nat, u: int)
    requires p >= 2 && u != 0 && u % p != 0
    ensures Pow(p, e) * u != 0
    ensures Ord(p, Pow(p, e) * u) == e && PFree(p, Pow(p, e) * u) == u
    decreases e
  {
    if e > 0 {
      OrdOfSplit(p, e - 1, u);
      var x := Pow(p, e) * u;
      var y := Pow(p, e - 1) * u;
      PowStep(p, y, e - 1, u);
      DividesMul(p, y);
      DivModUnique(x, p, y, 0);
    } else {
      assert Pow(p, e) * u == u;
    }
  }

  /** The exponent of p does not depend on the sign. */
  lemma OrdNeg(p: int, x: int)
    requires p >= 2 && x != 0
    ensures Ord(p, -x) == Ord(p, x)
  {
    OrdSplit(p, x);
    var e, u := Ord(p, x), PFree(p, x);
    NegDivisible(u, p);
    NegFactor(x, Pow(p, e), u);
    OrdOfSplit(p, e, -u);
  }

  lemma NegDivisible(u: int, p: int)
    requires p >= 1 && u % p != 0
    ensures (-u) % p != 0
  {
    if (-u) % p == 0 {
      var q := (-u) / p;
      assert -u == p * q;
      DivModUnique(u, p, -q, 0);
    }
  }

  lemma NegFactor(x: int, m: int, u: int)
    requires x == m * u
    ensures -x == m * (-u)
  {
  }

  /** A positive multiple of a nonzero u is at least as large as the multiplier. */
  lemma MagnitudeOfMultiple(m: int, u: int, x: int)
    requires m >= 1 && u != 0 && x == m * u
    ensures m <= (if x < 0 then -x else x)
  {
    var au := if u < 0 then -u else u;
    assert m * au == (if x < 0 then -x else x);
    MulAtLeast(m, au, m, 1);
  }

  lemma Rearrange4(a: int, b: int, c: int, d: int)
    ensures (a * b) * (c * d) == (a * c) * (b * d)
  {
  }

  lemma MulPositiveRight(m: int, k: int)
    requires m > 0 && m * k > 0
    ensures k > 0
  {
  }

  /** p^Ord(p, x) never exceeds |x|. */
  lemma OrdBound(p: int, x: int)
    requires p >= 2 && x != 0
    ensures Pow(p, Ord(p, x)) <= (if x < 0 then -x else x)
  {
    OrdSplit(p, x);
    var e, u := Ord(p, x), PFree(p, x);
    var m := Pow(p, e);
    MagnitudeOfMultiple(m, u, x);
  }

  /** For prime p the order of a product is the sum of the orders. */
  lemma OrdMul(p: int, a: int, b: int)
    requires Prime(p) && a > 0 && b > 0
    ensures a * b > 0 && Ord(p, a * b) == Ord(p, a) + Ord(p, b)
  {
    MulAtLeast(a, b, 1, 1);
    OrdSplit(p, a);
    OrdSplit(p, b);
    var ea, eb, u, w := Ord(p, a), Ord(p, b), PFree(p, a), PFree(p, b);
    MulPositiveRight(Pow(p, ea), u);
    MulPositiveRight(Pow(p, eb), w);
    MulAtLeast(u, w, 1, 1);
    if (u * w) % p == 0 {
      Euclid(p, u, w);
    }
    PowAdd(p, ea, eb);
    Rearrange4(Pow(p, ea), u, Pow(p, eb), w);
    OrdOfSplit(p, ea + eb, u * w);
  }

  /** A prime q has order 1 at itself and order 0 at every other prime. */
  lemma OrdOfPrime(p: int, q: int)
    requires Prime(p) && Prime(q)
    ensures Ord(p, q) == if p == q then 1 else 0
  {
    if p == q {
      DivModUnique(q, q, 1, 0);
      DivModUnique(1, q, 0, 1);
    } else if p < q {
      assert !Divides(p, q);
    } else {
      DivModUnique(q, p, 0, q);
    }
  }

  /** Every n >= 2 has a prime divisor. */
  lemma {:induction false} PrimeDivisor(n: int) returns (q: int)
    requires n >= 2
    ensures Prime(q) && Divides(q, n)
    decreases n
  {
    if Prime(n) {
      q := n;
      DivModUnique(n, n, 1, 0);
    } else {
      var k :| 2 <= k < n && Divides(k, n);
      q := PrimeDivisor(k);
      DividesTrans(q, k, n);
    }
  }

  /** A prime divisor of a nonzero x occurs in it at least once. */
  lemma OrdOfDivisor(p: int, x: int)
    requires p >= 2 && x != 0 && Divides(p, x)
    ensures Ord(p, x) >= 1
  {
  }

  lemma OrdOfOne(p: int)
    requires p >= 2
    ensures Ord(p, 1) == 0
  {
    DivModUnique(1, p, 0, 1);
  }

  /** The order of a prime power at a prime. */
  lemma {:induction false} OrdOfPrimePower(q: int, r: int, e: nat)
    requires Prime(q) && Prime(r)
    ensures Pow(r, e) >= 1 && Ord(q, Pow(r, e)) == if q == r then e else 0
  {
    if e == 0 {
      OrdOfOne(q);
    } else {
      OrdOfPrimePower(q, r, e - 1);
      OrdMul(q, r, Pow(r, e - 1));
      OrdOfPrime(q, r);
    }
  }

  /** Unique factorisation: positive integers with the same order at every prime are equal. */
  lemma {:induction false} EqualByOrders(x: int, y: int)
    requires x >= 1 && y >= 1
    requires forall q :: Prime(q) ==> Ord(q, x) == Ord(q, y)
    ensures x == y
    decreases x
  {
    if x == 1 {
      if y >= 2 {
        var q := PrimeDivisor(y);
        OrdOfDivisor(q, y);
        OrdOfOne(q);
        assert false;
      }
    } else {
      var q := PrimeDivisor(x);
      OrdOfDivisor(q, x);
      assert y % q == 0;
      DividesExact(q, x);
      DividesExact(q, y);
      var x', y' := x / q, y / q;
      MulPositiveRight(q, x');
      MulPositiveRight(q, y');
      forall r | Prime(r) ensures Ord(r, x') == Ord(r, y') {
        OrdMul(r, q, x');
        OrdMul(r, q, y');
      }
      DivStrictlySmaller(x, q);
      EqualByOrders(x', y');
    }
  }

  /** Positive integers that share no prime have gcd 1. */
  lemma CoprimeByOrders(x: int, y: int)
    requires x >= 1 && y >= 1
    requires forall q :: Prime(q) ==> Ord(q, x) == 0 || Ord(q, y) == 0
    ensures Gcd(x, y) == 1
  {
    var g := Gcd(x, y);
    if g >= 2 {
      var q := PrimeDivisor(g);
      DividesTrans(q, g, x);
      DividesTrans(q, g, y);
      OrdOfDivisor(q, x);
      OrdOfDivisor(q, y);
      assert false;
    }
    if g == 0 {
      assert false;
    }
  }
}

=== FILE: helpers.dfy ===
/**
 * The integer helpers of the engine (src/engine/helpers.ts): absolute value and
 * minimum, trial-division primality and factorisation, the signed prime-exponent
 * map of a ratio a/b, the p-adic norm as text, the brute-force modular inverse,
 * stripping a prime out of an integer, and the longest repeated
 * non-overlapping substring.
 */
module Helpers {
  import opened NumberTheory
  import opened Text
  import opened Wrappers

  function Abs(a: int): (r: nat)
    ensures r == a || r == -a
  {
    if a >= 0 then a else -a
  }

  function Min(a: int, b: int): (r: int)
    ensures r <= a && r <= b && (r == a || r == b)
  {
    if a < b then a else b
  }

  /** The exponent of p in |x|; zero has no factors, as factors(0) is empty. */
  function Mult(p: int, x: int): nat
    requires p >= 2
  {
    if x == 0 then 0 else Ord(p, Abs(x))
  }

  /** The exponent a prime-to-exponent map gives q, 0 when q is not a key. */
  function Exp(m: map<int, int>, q: int): int
  {
    if q in m then m[q] else 0
  }

  //------------------
  // Primality
  //------------------

  lemma OddHasNoEvenDivisor(n: int, k: int)
    requires n % 2 == 1 && k >= 2 && k % 2 == 0
    ensures !Divides(k, n)
  {
    if Divides(k, n) {
      DividesExact(k, n);
      DividesExact(2, k);
      assert n == 2 * ((k / 2) * (n / k));
      DividesMul(2, (k / 2) * (n / k));
      assert false;
    }
  }

  /** Past an odd i that does not divide the odd n, the next odd candidate is i + 2. */
  lemma NoDivisorExtend(n: int, i: int)
    requires n % 2 == 1 && 3 <= i && i % 2 == 1 && n % i != 0
    requires forall k :: 2 <= k < i ==> !Divides(k, n)
    ensures forall k :: 2 <= k < i + 2 ==> !Divides(k, n)
  {
    OddHasNoEvenDivisor(n, i + 1);
  }

  /** A divisor at or above i of n < i*i leaves a cofactor below i. */
  lemma SmallCofactor(n: int, k: int, i: int)
    requires 2 <= i && 2 <= k < n && Divides(k, n) && i <= k && n < i * i
    ensures 2 <= n / k < i && Divides(n / k, n)
  {
    DividesExact(k, n);
    var m := n / k;
    assert n == k * m;
    if m < 2 {
      MulAtLeast(k, 1 - m, 0, 0);
      assert false;
    }
    if m >= i {
      MulAtLeast(k, m, i, i);
      assert false;
    }
    DividesMul(m, k);
    assert m * k == n;
  }

  /** isPrime: 2, 3, 5 and 7 directly; no n below 2 and no even n; otherwise no odd divisor i with i*i <= n. */
  method IsPrime(n: int) returns (b: bool)
    ensures b <==> Prime(n)
  {
    if n == 2 || n == 3 || n == 5 || n == 7 {
      SmallPrimes(n);
      return true;
    } else if n < 2 || n % 2 == 0 {
      if n >= 2 {
        assert Divides(2, n);
      }
      return false;
    }
    var i := 3;
    while i * i <= n
      invariant 3 <= i && i % 2 == 1
      invariant forall k :: 2 <= k < i ==> !Divides(k, n)
    {
      if n % i == 0 {
        MulAtLeast(i, i, 3, i);
        assert Divides(i, n);
        return false;
      }
      NoDivisorExtend(n, i);
      i := i + 2;
    }
    NoLargeDivisor(n, i);
    return true;
  }

  lemma SmallPrimes(n: int)
    requires n == 2 || n == 3 || n == 5 || n == 7
    ensures Prime(n)
  {
    forall k | 2 <= k < n ensures !Divides(k, n) {
      DivModUnique(n, k, n / k, n % k);
    }
  }

  /** With no divisor below i and n < i*i, n has no divisor from i on either. */
  lemma NoLargeDivisor(n: int, i: int)
    requires 2 <= i && n < i * i && forall k :: 2 <= k < i ==> !Divides(k, n)
    ensures forall k :: 2 <= k < n ==> !Divides(k, n)
  {
    forall k | i <= k < n ensures !Divides(k, n) {
      if Divides(k, n) {
        SmallCofactor(n, k, i);
        assert false;
      }
    }
  }

  //------------------
  // Stripping a prime
  //------------------

  /** Divides every factor p out of x: x == p^e * y with p not dividing y. */
  method Strip(x: int, p: int) returns (y: int, e: nat)
    requires x != 0 && p >= 2
    ensures e == Ord(p, x) && y == PFree(p, x)
    ensures y != 0 && y % p != 0 && x == Pow(p, e) * y
  {
    y, e := x, 0;
    while y % p == 0
      invariant y != 0 && x == Pow(p, e) * y
      invariant Ord(p, x) == e + Ord(p, y) && PFree(p, x) == PFree(p, y)
      decreases if y < 0 then -y else y
    {
      DivStrictlySmaller(y, p);
      MulShift(Pow(p, e), p, y / p);
      y := y / p;
      e := e + 1;
    }
  }

  /** negExp: b with every factor p divided out (the loop never ends for b == 0). */
  method NegExp(b: int, p: int) returns (r: int)
    requires b != 0 && p >= 2
    ensures r != 0 && r % p != 0
    ensures b == Pow(p, Ord(p, b)) * r
  {
    var e;
    r, e := Strip(b, p);
  }

  lemma MulAssoc(x: int, y: int, z: int)
    ensures x * (y * z) == (x * y) * z
  {
  }

  lemma MulShift(a: int, p: int, q: int)
    ensures a * (p * q) == (p * a) * q
  {
  }

  //------------------
  // Factorisation
  //------------------

  /** How often q occurs in s. */
  function Count(s: seq<int>, q: int): nat
  {
    if s == [] then 0 else Count(s[..|s| - 1], q) + (if s[|s| - 1] == q then 1 else 0)
  }

  function Product(s: seq<int>): int
  {
    if s == [] then 1 else Product(s[..|s| - 1]) * s[|s| - 1]
  }

  /** Grouping pushed factors by occurrence, as the reduce in factors does. */
  function Tally(s: seq<int>): map<int, int>
  {
    if s == [] then map[] else
      var m := Tally(s[..|s| - 1]);
      var x := s[|s| - 1];
      m[x := Exp(m, x) + 1]
  }

  ghost predicate AllPrime(s: seq<int>)
  {
    forall j :: 0 <= j < |s| ==> Prime(s[j])
  }

  lemma {:induction false} TallyCounts(s: seq<int>)
    ensures forall q :: Exp(Tally(s), q) == Count(s, q)
    ensures forall q :: q in Tally(s) <==> q in s
    ensures forall q :: q in Tally(s) ==> Tally(s)[q] >= 1
  {
    if s != [] {
      var init := s[..|s| - 1];
      TallyCounts(init);
      assert forall q :: q in s <==> q in init || q == s[|s| - 1] by {
        assert s == init + [s[|s| - 1]];
      }
    }
  }

  /** For a list of primes and a prime q, the order of q in their product is how often q occurs. */
  lemma {:induction false} OrdOfProduct(s: seq<int>, q: int)
    requires AllPrime(s) && Prime(q)
    ensures Product(s) > 0 && Ord(q, Product(s)) == Count(s, q)
  {
    if s == [] {
      assert Product(s) == 1;
    } else {
      var init, x := s[..|s| - 1], s[|s| - 1];
      assert AllPrime(init) by {
        forall j | 0 <= j < |init| ensures Prime(init[j]) {
          assert init[j] == s[j];
        }
      }
      OrdOfProduct(init, q);
      assert Prime(x);
      OrdMul(q, Product(init), x);
      OrdOfPrime(q, x);
    }
  }

  ghost predicate NoDivisorBelow(k: int, i: int)
  {
    forall d :: 2 <= d < i ==> !Divides(d, k)
  }

  /** A divisor i of k with no smaller divisor of k above 1 is prime. */
  lemma LeastDivisorIsPrime(k: int, i: int)
    requires i >= 2 && Divides(i, k) && NoDivisorBelow(k, i)
    ensures Prime(i)
  {
    forall d | 2 <= d < i ensures !Divides(d, i) {
      if Divides(d, i) {
        DividesTrans(d, i, k);
        assert false;
      }
    }
  }

  lemma NoDivisorBelowQuotient(k: int, i: int, j: int)
    requires i >= 2 && k == i * (k / i) && NoDivisorBelow(k, j)
    ensures NoDivisorBelow(k / i, j)
  {
    forall d | 2 <= d < j ensures !Divides(d, k / i) {
      if Divides(d, k / i) {
        DividesMul(k / i, i);
        assert (k / i) * i == k;
        DividesTrans(d, k / i, k);
        assert false;
      }
    }
  }

  /**
   * factors: trial division of |n| by 2, 3, 4, ... pushing each divisor found,
   * then grouping by occurrence. The result maps each prime of |n| to its exponent.
   */
  method Factors(n: int) returns (m: map<int, int>)
    ensures Abs(n) < 2 ==> m == map[]
    ensures forall q :: q in m ==> Prime(q) && m[q] >= 1
    ensures forall q :: Prime(q) ==> Exp(m, q) == Mult(q, n)
  {
    var k := n;
    if k < 0 {
      k := Abs(k);
    }
    var facs := [];
    if k < 2 {
      m := map[];
      NoPrimeFactors(n);
      return;
    }
    var i := 2;
    while i <= k
      invariant 2 <= i && 1 <= k
      invariant Product(facs) * k == Abs(n)
      invariant AllPrime(facs)
      invariant NoDivisorBelow(k, i)
      decreases k - i
    {
      while k % i == 0
        invariant 1 <= k
        invariant Product(facs) * k == Abs(n)
        invariant AllPrime(facs)
        invariant NoDivisorBelow(k, i)
        decreases k
      {
        PushFactor(facs, k, i, Abs(n));
        facs := facs + [i];
        k := k / i;
      }
      NoDivisorNext(k, i);
      i := i + 1;
    }
    if k >= 2 {
      DividesMul(k, 1);
      assert false;
    }
    m := Tally(facs);
    TallyFactors(facs, n);
  }

  /** Below 2 in magnitude there is no prime factor. */
  lemma NoPrimeFactors(n: int)
    requires Abs(n) < 2
    ensures forall q :: Prime(q) ==> Exp(map[], q) == Mult(q, n)
  {
    forall q | Prime(q) ensures Exp(map[], q) == Mult(q, n) {
      if n != 0 {
        DivModUnique(1, q, 0, 1);
      }
    }
  }

  /** One pass of the inner loop of factors: the least divisor i is a prime, pushed, and divided out. */
  lemma PushFactor(facs: seq<int>, k: int, i: int, total: int)
    requires 2 <= i && 1 <= k && k % i == 0 && Product(facs) * k == total
    requires AllPrime(facs) && NoDivisorBelow(k, i)
    ensures 1 <= k / i < k && Product(facs + [i]) * (k / i) == total
    ensures AllPrime(facs + [i]) && NoDivisorBelow(k / i, i)
  {
    LeastDivisorIsPrime(k, i);
    DivStrictlySmaller(k, i);
    NoDivisorBelowQuotient(k, i, i);
    assert Product(facs + [i]) == Product(facs) * i by {
      assert (facs + [i])[..|facs|] == facs;
    }
    MulAssoc(Product(facs), i, k / i);
  }

  lemma NoDivisorNext(k: int, i: int)
    requires i >= 2 && k % i != 0 && NoDivisorBelow(k, i)
    ensures NoDivisorBelow(k, i + 1)
  {
  }

  /** The tally of a list of primes whose product is |n| holds the exponent of every prime in n. */
  lemma TallyFactors(facs: seq<int>, n: int)
    requires AllPrime(facs) && Product(facs) == Abs(n)
    ensures forall q :: q in Tally(facs) ==> Prime(q) && Tally(facs)[q] >= 1
    ensures forall q :: Prime(q) ==> Exp(Tally(facs), q) == Mult(q, n)
  {
    TallyCounts(facs);
    forall q | q in Tally(facs) ensures Prime(q) {
      var j :| 0 <= j < |facs| && facs[j] == q;
    }
    forall q | Prime(q) ensures Exp(Tally(facs), q) == Mult(q, n) {
      OrdOfProduct(facs, q);
    }
  }

  //------------------
  // Factors of a ratio
  //------------------

  /** ratioFactors: each prime's exponent in a minus its exponent in b, zero results dropped. */
  method RatioFactors(a: int, b: int) returns (r: map<int, int>)
    ensures forall q :: q in r ==> Prime(q) && r[q] != 0
    ensures forall q :: Prime(q) ==> Exp(r, q) == Mult(q, a) - Mult(q, b)
  {
    var fa := Factors(a);
    var fb := Factors(b);
    var uniq := fa.Keys + fb.Keys;
    var todo := uniq;
    r := map[];
    while todo != {}
      invariant todo <= uniq
      invariant forall q :: q in r ==> q in uniq - todo && r[q] == Exp(fa, q) - Exp(fb, q) != 0
      invariant forall q :: q in uniq - todo && Exp(fa, q) - Exp(fb, q) != 0 ==> q in r
      decreases todo
    {
      ghost var some := Pick(todo);
      var key :| key in todo;
      var counter := 0;
      if key in fa {
        counter := counter + fa[key];
      }
      if key in fb {
        counter := counter - fb[key];
      }
      if counter != 0 {
        r := r[key := counter];
      }
      todo := todo - {key};
    }
  }

  lemma EmptyByMembers(s: set<int>)
    requires forall y :: y !in s
    ensures s == {}
  {
    assert forall y :: y in s <==> y in {};
  }

  /** Some element of a non-empty set. */
  lemma Pick(s: set<int>) returns (x: int)
    requires s != {}
    ensures x in s
  {
    assert !(forall y :: y !in s) by {
      if forall y :: y !in s {
        EmptyByMembers(s);
      }
    }
    x :| x in s;
  }

  /** The first components of a list of pairs. */
  function PairKeys(s: seq<(int, int)>): set<int>
  {
    set i | 0 <= i < |s| :: s[i].0
  }

  lemma {:induction false} MinExists(s: set<int>) returns (k: int)
    requires s != {}
    ensures k in s && forall j :: j in s ==> k <= j
    decreases |s|
  {
    var x := Pick(s);
    if s == {x} {
      k := x;
    } else {
      var k' := MinExists(s - {x});
      k := if x < k' then x else k';
      assert forall j :: j in s ==> j == x || j in s - {x};
    }
  }

  predicate Ascending(r: seq<(int, int)>)
  {
    forall i, j :: 0 <= i < j < |r| ==> r[i].0 < r[j].0
  }

  lemma PairKeysAppend(r: seq<(int, int)>, key: int, v: int)
    ensures PairKeys(r + [(key, v)]) == PairKeys(r) + {key}
  {
    var r' := r + [(key, v)];
    assert r'[|r|].0 == key;
    forall q | q in PairKeys(r) ensures q in PairKeys(r') {
      var i :| 0 <= i < |r| && r[i].0 == q;
      assert r'[i].0 == q;
    }
  }

  /** The state of the listing loop: r lists the keys of facs outside todo, in ascending order. */
  ghost predicate Listing(r: seq<(int, int)>, todo: set<int>, facs: map<int, int>)
  {
    && todo <= facs.Keys
    && Ascending(r)
    && (forall i :: 0 <= i < |r| ==> r[i].0 in facs && r[i].1 == facs[r[i].0])
    && (forall i, q :: 0 <= i < |r| && q in todo ==> r[i].0 < q)
    && facs.Keys == todo + PairKeys(r)
  }

  lemma ListingStep(r: seq<(int, int)>, todo: set<int>, facs: map<int, int>, key: int)
    requires Listing(r, todo, facs) && key in todo && forall j :: j in todo ==> key <= j
    ensures Listing(r + [(key, facs[key])], todo - {key}, facs)
  {
    var r' := r + [(key, facs[key])];
    PairKeysAppend(r, key, facs[key]);
    forall i, j | 0 <= i < j < |r'| ensures r'[i].0 < r'[j].0 {
      if j == |r| {
        assert r'[i] == r[i];
      }
    }
    forall i, q | 0 <= i < |r'| && q in todo - {key} ensures r'[i].0 < q {
      if i < |r| {
        assert r'[i] == r[i];
      }
    }
  }

  lemma ListingDone(r: seq<(int, int)>, facs: map<int, int>, a: int, b: int)
    requires Listing(r, {}, facs)
    requires forall q :: q in facs ==> Prime(q) && facs[q] != 0
    requires forall q :: Prime(q) ==> Exp(facs, q) == Mult(q, a) - Mult(q, b)
    ensures forall i :: 0 <= i < |r| ==> Prime(r[i].0) && r[i].1 == Mult(r[i].0, a) - Mult(r[i].0, b) != 0
    ensures forall q :: Prime(q) && Mult(q, a) != Mult(q, b) ==> q in PairKeys(r)
  {
    forall i | 0 <= i < |r| ensures Prime(r[i].0) && r[i].1 == Mult(r[i].0, a) - Mult(r[i].0, b) != 0 {
      assert Exp(facs, r[i].0) == facs[r[i].0];
    }
    forall q | Prime(q) && Mult(q, a) != Mult(q, b) ensures q in PairKeys(r) {
      assert Exp(facs, q) != 0;
    }
  }

  /**
   * ratioFactorsArray: the pairs of ratioFactors in ascending order of the prime
   * (the order in which JavaScript enumerates integer keys).
   */
  method RatioFactorsArray(a: int, b: int) returns (r: seq<(int, int)>)
    ensures Ascending(r)
    ensures forall i :: 0 <= i < |r| ==> Prime(r[i].0) && r[i].1 == Mult(r[i].0, a) - Mult(r[i].0, b) != 0
    ensures forall q :: Prime(q) && Mult(q, a) != Mult(q, b) ==> q in PairKeys(r)
  {
    var facs := RatioFactors(a, b);
    var todo := facs.Keys;
    r := [];
    while todo != {}
      invariant Listing(r, todo, facs)
      decreases todo
    {
      ghost var least := MinExists(todo);
      var key :| key in todo && forall j :: j in todo ==> key <= j;
      ListingStep(r, todo, facs, key);
      r := r + [(key, facs[key])];
      todo := todo - {key};
    }
    ListingDone(r, facs, a, b);
  }

  /** ratioPrimeReconstruct: [p, exponent of p in a/b], the exponent 0 when p is not a factor. */
  method RatioPrimeReconstruct(a: int, b: int, p: int) returns (pair: (int, int))
    ensures pair.0 == p
    ensures pair.1 == if Prime(p) then Mult(p, a) - Mult(p, b) else 0
  {
    var ratioFacs := RatioFactors(a, b);
    if p in ratioFacs {
      return (p, ratioFacs[p]);
    }
    return (p, 0);
  }

  /**
   * padicNorm: |a/b|_p as text: "0" for a == 0, "1" when p is not a factor,
   * "1 / p^e" for a positive exponent e and "p^|e|" for a negative one.
   */
  method PadicNorm(a: int, b: int, p: int) returns (s: string)
    ensures a == 0 ==> s == "0"
    ensures a != 0 && !Prime(p) ==> s == "1"
    ensures a != 0 && Prime(p) ==>
      var e := Mult(p, a) - Mult(p, b);
      s == if e == 0 then "1" else if e > 0 then "1 / " + NatToString(Pow(p, e)) else NatToString(Pow(p, -e))
  {
    if a == 0 {
      return "0";
    }
    var factors := RatioFactors(a, b);
    if p !in factors {
      return "1";
    }
    var factor := factors[p];
    var res := Pow(p, Abs(factor));
    if factor > 0 {
      return "1 / " + NatToString(res);
    } else {
      return NatToString(res);
    }
  }

  function Max0(e: int): nat
  {
    if e > 0 then e else 0
  }

  /** The exponent of the prime q in a/b. */
  function RatioExp(q: int, a: int, b: int): int
    requires q >= 2
  {
    Mult(q, a) - Mult(q, b)
  }

  /**
   * ratioNormReconstruct: the factorisation of a/b with the prime p left out,
   * multiplied back into a numerator (positive exponents) and a denominator
   * (negative exponents).
   */
  method RatioNormReconstruct(a: int, b: int, p: int) returns (num: int, denum: int)
    ensures num >= 1 && denum >= 1
    ensures forall q :: Prime(q) ==> Ord(q, num) == if q == p then 0 else Max0(RatioExp(q, a, b))
    ensures forall q :: Prime(q) ==> Ord(q, denum) == if q == p then 0 else Max0(-RatioExp(q, a, b))
  {
    var ratioFacs := RatioFactorsArray(a, b);
    num, denum := 1, 1;
    forall q | Prime(q) ensures Ord(q, 1) == 0 {
      OrdOfOne(q);
    }
    for idx := 0 to |ratioFacs|
      invariant num >= 1 && denum >= 1
      invariant forall q :: Prime(q) ==>
        Ord(q, num) == if q != p && q in PairKeys(ratioFacs[..idx]) then Max0(RatioExp(q, a, b)) else 0
      invariant forall q :: Prime(q) ==>
        Ord(q, denum) == if q != p && q in PairKeys(ratioFacs[..idx]) then Max0(-RatioExp(q, a, b)) else 0
    {
      var factor := ratioFacs[idx];
      var key, e := factor.0, factor.1;
      assert ratioFacs[..idx + 1] == ratioFacs[..idx] + [factor];
      PairKeysAppend(ratioFacs[..idx], key, e);
      assert key !in PairKeys(ratioFacs[..idx]) by {
        forall i | 0 <= i < idx ensures ratioFacs[..idx][i].0 != key {
          assert ratioFacs[i].0 < ratioFacs[idx].0;
        }
      }
      if key != p {
        var power := Pow(key, Abs(e));
        forall q | Prime(q)
          ensures Ord(q, power) == if q == key then Abs(e) else 0
        {
          OrdOfPrimePower(q, key, Abs(e));
        }
        if e > 0 {
          forall q | Prime(q) ensures num * power >= 1 && Ord(q, num * power) == Ord(q, num) + Ord(q, power) {
            OrdMul(q, num, power);
          }
          num := num * power;
        } else {
          forall q | Prime(q) ensures denum * power >= 1 && Ord(q, denum * power) == Ord(q, denum) + Ord(q, power) {
            OrdMul(q, denum, power);
          }
          denum := denum * power;
        }
      }
    }
  }

  lemma OrdOfProduct3(q: int, x: int, y: int, z: int)
    requires Prime(q) && x >= 1 && y >= 1 && z >= 1
    ensures x * y * z >= 1 && Ord(q, x * y * z) == Ord(q, x) + Ord(q, y) + Ord(q, z)
  {
    OrdMul(q, x, y);
    OrdMul(q, x * y, z);
  }

  /**
   * Multiplying p^e back in, for the exponent e of p in a/b, turns num/denum
   * into |a|/|b|; and num/denum is in lowest terms.
   */
  lemma NormReconstructValue(a: int, b: int, p: int, num: int, denum: int)
    requires a != 0 && b != 0 && Prime(p) && num >= 1 && denum >= 1
    requires forall q :: Prime(q) ==> Ord(q, num) == if q == p then 0 else Max0(RatioExp(q, a, b))
    requires forall q :: Prime(q) ==> Ord(q, denum) == if q == p then 0 else Max0(-RatioExp(q, a, b))
    ensures Gcd(num, denum) == 1
    ensures Abs(a) * denum * Pow(p, Max0(-RatioExp(p, a, b))) == num * Pow(p, Max0(RatioExp(p, a, b))) * Abs(b)
  {
    CoprimeByOrders(num, denum);
    var e := RatioExp(p, a, b);
    var left := Abs(a) * denum * Pow(p, Max0(-e));
    var right := num * Pow(p, Max0(e)) * Abs(b);
    OrdersAgree(a, b, p, num, denum, e, left, right);
    EqualByOrders(left, right);
  }

  /** Both sides of NormReconstructValue's equation have the same order at every prime. */
  lemma OrdersAgree(a: int, b: int, p: int, num: int, denum: int, e: int, left: int, right: int)
    requires a != 0 && b != 0 && Prime(p) && num >= 1 && denum >= 1 && e == RatioExp(p, a, b)
    requires forall q :: Prime(q) ==> Ord(q, num) == if q == p then 0 else Max0(RatioExp(q, a, b))
    requires forall q :: Prime(q) ==> Ord(q, denum) == if q == p then 0 else Max0(-RatioExp(q, a, b))
    requires left == Abs(a) * denum * Pow(p, Max0(-e)) && right == num * Pow(p, Max0(e)) * Abs(b)
    ensures left >= 1 && right >= 1
    ensures forall q :: Prime(q) ==> Ord(q, left) == Ord(q, right)
  {
    var lo, hi := Pow(p, Max0(-e)), Pow(p, Max0(e));
    OrdOfProduct3(p, Abs(a), denum, lo);
    OrdOfProduct3(p, num, hi, Abs(b));
    forall q | Prime(q)
      ensures Ord(q, left) == Ord(q, right)
    {
      OrdOfProduct3(q, Abs(a), denum, lo);
      OrdOfProduct3(q, num, hi, Abs(b));
      OrdOfPrimePower(q, p, Max0(-e));
      OrdOfPrimePower(q, p, Max0(e));
    }
  }

  /**
   * When p is not a prime no factor is skipped, so num / denum is |a| / |b|.
   */
  lemma NormReconstructWhole(a: int, b: int, p: int, num: int, denum: int)
    requires a != 0 && b != 0 && !Prime(p) && num >= 1 && denum >= 1
    requires forall q :: Prime(q) ==> Ord(q, num) == if q == p then 0 else Max0(RatioExp(q, a, b))
    requires forall q :: Prime(q) ==> Ord(q, denum) == if q == p then 0 else Max0(-RatioExp(q, a, b))
    ensures Abs(a) * denum == num * Abs(b)
  {
    MulAtLeast(Abs(a), denum, 1, 1);
    MulAtLeast(num, Abs(b), 1, 1);
    forall q | Prime(q)
      ensures Ord(q, Abs(a) * denum) == Ord(q, num * Abs(b))
    {
      OrdMul(q, Abs(a), denum);
      OrdMul(q, num, Abs(b));
    }
    EqualByOrders(Abs(a) * denum, num * Abs(b));
  }

  /** With a = 0 there is no factor in the numerator. */
  lemma NormReconstructZero(b: int, p: int, num: int)
    requires num >= 1
    requires forall q :: Prime(q) ==> Ord(q, num) == if q == p then 0 else Max0(RatioExp(q, 0, b))
    ensures num == 1
  {
    forall q | Prime(q)
      ensures Ord(q, num) == Ord(q, 1)
    {
      OrdOfOne(q);
    }
    EqualByOrders(num, 1);
  }

  //------------------
  // Modular inverse
  //------------------

  /**
   * JavaScript's %, which truncates toward zero: the remainder takes the sign
   * of the dividend. Only positive moduli occur here.
   */
  function JsRem(x: int, m: int): (r: int)
    requires m >= 1
    ensures -m < r < m
    ensures x >= 0 ==> r == x % m
    ensures x < 0 ==> r <= 0
  {
    if x >= 0 then x % m else -((-x) % m)
  }

  /** Adding m to a negative JavaScript remainder gives the Euclidean one. */
  lemma JsRemNormalised(x: int, m: int)
    requires m >= 1
    ensures (if JsRem(x, m) < 0 then JsRem(x, m) + m else JsRem(x, m)) == x % m
  {
    if x < 0 {
      var q, s := (-x) / m, (-x) % m;
      assert -x == m * q + s;
      if s == 0 {
        DivModUnique(x, m, -q, 0);
      } else {
        DivModUnique(x, m, -q - 1, m - s);
      }
    }
  }

  /**
   * modInv: the least x in [1, b) with ((a % b) * x) % b == 1 under JavaScript's
   * %, found by trying every candidate; "Impossible mod inv" when there is none.
   * A negative a never finds one, its remainders being at most 0.
   */
  method ModInv(a: int, b: int) returns (r: Result<int>)
    ensures r.Success? ==> a >= 0 && b >= 2 && 1 <= r.value < b && ((a % b) * r.value) % b == 1
    ensures r.Success? ==> forall y :: 1 <= y < r.value ==> ((a % b) * y) % b != 1
    ensures r.Failure? ==> r.error == ImpossibleModInverse
    ensures r.Failure? && a >= 0 && b >= 1 ==> forall y :: 1 <= y < b ==> ((a % b) * y) % b != 1
  {
    if b < 1 {
      // the candidate loop does not run at all
      return Failure(ImpossibleModInverse);
    }
    var a' := JsRem(a, b);
    var x := 1;
    while x < b
      invariant 1 <= x <= b
      invariant a >= 0 ==> forall y :: 1 <= y < x ==> ((a % b) * y) % b != 1
    {
      if a < 0 {
        MulAtLeast(-a', x, 0, 0);
      }
      if JsRem(a' * x, b) == 1 {
        return Success(x);
      }
      x := x + 1;
    }
    return Failure(ImpossibleModInverse);
  }

  /** An inverse modulo b >= 2 exists exactly when a mod b is coprime to b. */
  lemma InverseExists(a: nat, b: nat) returns (y: int)
    requires b >= 2 && Gcd(a % b, b) == 1
    ensures 1 <= y < b && ((a % b) * y) % b == 1
  {
    var u := a % b;
    var x, z := Bezout(u, b);
    y := x % b;
    assert x == b * (x / b) + y;
    assert u * x == b * (u * (x / b)) + u * y;
    assert u * y == b * (-z - u * (x / b)) + 1;
    DivModUnique(u * y, b, -z - u * (x / b), 1);
    DivModUnique(u * 0, b, 0, 0);
  }

  //------------------
  // Longest repeated non-overlapping substring
  //------------------

  /** str[i..i+len] occurs again at j, after it ends. */
  predicate RepeatsAt(str: string, i: int, j: int, len: int)
  {
    0 <= i && 0 <= len && i + len <= j && j + len <= |str| && str[i..i + len] == str[j..j + len]
  }

  /**
   * The table cell LCSRe[i][j]: the length of the common suffix of str[..i] and
   * str[..j], restarted at 0 whenever it would grow past the gap j - i.
   */
  function Cell(str: string, i: nat, j: nat): (c: nat)
    requires i <= |str| && j <= |str|
    ensures c <= i && (i < j ==> c <= j - i) && (j <= i ==> c == 0)
  {
    if i == 0 || j <= i then 0
    else if str[i - 1] == str[j - 1] && Cell(str, i - 1, j - 1) < j - i then Cell(str, i - 1, j - 1) + 1
    else 0
  }

  /** A nonzero cell is a repeat ending at i and at j. */
  lemma {:induction false} CellRepeats(str: string, i: nat, j: nat)
    requires i < j <= |str|
    ensures RepeatsAt(str, i - Cell(str, i, j), j - Cell(str, i, j), Cell(str, i, j))
  {
    var c := Cell(str, i, j);
    if c > 0 {
      CellRepeats(str, i - 1, j - 1);
      assert str[i - c..i] == str[i - c..i - 1] + [str[i - 1]];
      assert str[j - c..j] == str[j - c..j - 1] + [str[j - 1]];
    }
  }

  /**
   * Along a run of m matching characters from (i, j), the diagonal reaches the
   * gap j - i somewhere, or its last cell is at least m.
   */
  lemma {:induction false} RunReaches(str: string, i: nat, j: nat, m: nat) returns (t: nat)
    requires i + m <= j && j + m <= |str| && str[i..i + m] == str[j..j + m]
    ensures t <= m
    ensures Cell(str, i + t, j + t) == j - i || (t == m && Cell(str, i + m, j + m) >= m)
    decreases m
  {
    if m == 0 {
      t := 0;
    } else {
      assert str[i..i + (m - 1)] == str[i..i + m][..m - 1];
      assert str[j..j + (m - 1)] == str[j..j + m][..m - 1];
      t := RunReaches(str, i, j, m - 1);
      if Cell(str, i + t, j + t) != j - i {
        // then t == m - 1, and the run goes on by one more cell
        assert str[i + m - 1] == str[i..i + m][m - 1];
        t := m;
      }
    }
  }

  /** Every repeat of length len is witnessed by some cell of value at least len. */
  lemma RepeatWitness(str: string, i: int, j: int, len: int) returns (a: nat, b: nat)
    requires RepeatsAt(str, i, j, len)
    ensures 1 <= a < b <= |str| || len <= 0
    ensures len <= 0 || Cell(str, a, b) >= len
  {
    if len <= 0 {
      a, b := 0, 0;
    } else {
      var t := RunReaches(str, i, j, len);
      a, b := i + t, j + t;
    }
  }

  /** A bound on every cell bounds every repeat. */
  lemma NoLongerRepeat(str: string, bound: int)
    requires 0 <= bound
    requires forall x, y :: 0 <= x <= |str| && 0 <= y <= |str| ==> Cell(str, x, y) <= bound
    ensures forall i, j, len :: RepeatsAt(str, i, j, len) ==> len <= bound
  {
    forall i, j, len | RepeatsAt(str, i, j, len) ensures len <= bound {
      var a, b := RepeatWitness(str, i, j, len);
    }
  }

  /** A fresh size x size table of zeros, as the two initialising loops leave it. */
  method ZeroTable(size: nat) returns (table: array2<int>)
    ensures fresh(table) && table.Length0 == size && table.Length1 == size
    ensures forall x, y :: 0 <= x < size && 0 <= y < size ==> table[x, y] == 0
  {
    table := new int[size, size];
    for a := 0 to size
      invariant forall x, y :: 0 <= x < a && 0 <= y < size ==> table[x, y] == 0
    {
      for b := 0 to size
        invariant forall x, y :: 0 <= x < a && 0 <= y < size ==> table[x, y] == 0
        invariant forall y :: 0 <= y < b ==> table[a, y] == 0
      {
        table[a, b] := 0;
      }
    }
  }

  /** Table rows below i hold their cells; the others are still zero. */
  ghost predicate FilledBelow(str: string, table: array2<int>, i: int)
    reads table
    requires table.Length0 == |str| + 1 && table.Length1 == |str| + 1
  {
    forall x, y :: 0 <= x <= |str| && 0 <= y <= |str| ==>
      table[x, y] == if x < i then Cell(str, x, y) else 0
  }

  /** resLength is the largest cell of the rows below i, reached at (index, best). */
  ghost predicate LargestBelow(str: string, i: int, resLength: int, index: int, best: int)
  {
    0 <= index < i && 0 <= resLength &&
    (forall x, y :: 0 <= x < i && x <= |str| && 0 <= y <= |str| ==> Cell(str, x, y) <= resLength) &&
    (resLength > 0 ==> 1 <= index < best <= |str| && Cell(str, index, best) == resLength)
  }

  /** A bound on the cells before (i, j) that also covers cell (i, j) covers the cells before (i, j + 1). */
  lemma BoundExtend(str: string, i: nat, j: nat, bound: int, bound': int)
    requires i <= |str| && j <= |str| && bound <= bound' && Cell(str, i, j) <= bound'
    requires forall x, y :: 0 <= x <= i && 0 <= y <= |str| && (x < i || y < j) ==> Cell(str, x, y) <= bound
    ensures forall x, y :: 0 <= x <= i && 0 <= y <= |str| && (x < i || y < j + 1) ==> Cell(str, x, y) <= bound'
  {
  }

  /**
   * One pass of the inner loop of getRepeatedSequence: row i of the table,
   * for j from i + 1 to n, raising the maximum where a cell exceeds it.
   */
  method FillRow(str: string, table: array2<int>, i: nat, resLength: int, index: int, ghost best: int)
    returns (resLength': int, index': int, ghost best': int)
    requires table.Length0 == |str| + 1 && table.Length1 == |str| + 1 && 1 <= i <= |str|
    requires FilledBelow(str, table, i) && LargestBelow(str, i, resLength, index, best)
    modifies table
    ensures FilledBelow(str, table, i + 1) && LargestBelow(str, i + 1, resLength', index', best')
  {
    var n := |str|;
    resLength', index', best' := resLength, index, best;
    for j := i + 1 to n + 1
      invariant forall x, y :: 0 <= x <= n && 0 <= y <= n ==>
        table[x, y] == if x < i || (x == i && y < j) then Cell(str, x, y) else 0
      invariant forall x, y :: 0 <= x <= i && 0 <= y <= n && (x < i || y < j) ==> Cell(str, x, y) <= resLength'
      invariant 0 <= index' <= i && 0 <= resLength'
      invariant resLength' > 0 ==> 1 <= index' < best' <= n && Cell(str, index', best') == resLength'
    {
      var cell := if str[i - 1] == str[j - 1] && table[i - 1, j - 1] < j - i then table[i - 1, j - 1] + 1 else 0;
      assert cell == Cell(str, i, j);
      label Before:
      table[i, j] := cell;
      forall x, y | 0 <= x <= n && 0 <= y <= n
        ensures table[x, y] == if x < i || (x == i && y < j + 1) then Cell(str, x, y) else 0
      {
        if x != i || y != j {
          assert table[x, y] == old@Before(table[x, y]);
        }
      }
      ghost var before := resLength';
      if cell > resLength' {
        resLength' := cell;
        index' := if i > index' then i else index';
        best' := j;
      }
      BoundExtend(str, i, j, before, resLength');
    }
  }

  /**
   * getRepeatedSequence: fills the (n+1) x (n+1) table row by row, keeping the
   * largest cell and the row it ends in, then copies that many characters
   * ending there. The result is a longest substring that occurs twice without
   * overlapping, "" when there is none.
   */
  method GetRepeatedSequence(str: string) returns (res: string)
    ensures res == "" || exists i, j :: RepeatsAt(str, i, j, |res|) && res == str[i..i + |res|]
    ensures forall i, j, len :: RepeatsAt(str, i, j, len) ==> len <= |res|
    ensures 2 * |res| <= |str|
  {
    var n := |str|;
    var table := ZeroTable(n + 1);
    res := "";
    var resLength := 0;
    var index := 0;
    ghost var best := 0;
    for i := 1 to n + 1
      invariant FilledBelow(str, table, i) && LargestBelow(str, i, resLength, index, best)
    {
      resLength, index, best := FillRow(str, table, i, resLength, index, best);
    }
    if resLength > 0 {
      for k := index - resLength + 1 to index + 1
        invariant res == str[index - resLength..k - 1]
      {
        res := res + [str[k - 1]];
      }
    }
    NoLongerRepeat(str, resLength);
    if resLength > 0 {
      CellRepeats(str, index, best);
    }
  }
}

=== FILE: padic.dfy ===
/**
 * The Padic class of the engine (src/engine/Padic.ts) and the conversion
 * from a Ratio (Ratio.toPadic, Ratio.toPadicSteps). A p-adic number is a
 * digit buffer of 2 * MAX_EXP cells: the digit of p^j sits in cell
 * j + MAX_EXP, `valuation` is the exponent of the lowest digit and
 * `precision` the number of digits the operations look at.
 */
module Padics {
  import opened NumberTheory
  import opened Text
  import opened Wrappers
  import opened Helpers
  import opened Ratios

  /** Offset of exponent 0 in a digit buffer. */
  const MAX_EXP: int := 64

  /** Length of a digit buffer, 2 * MAX_EXP. */
  const SIZE: int := 128

  /** The precision toPadic uses when none is given. */
  const DEFAULT_PRECISION: int := 64

  /** 2^53 - 1, the largest integer a JavaScript number holds exactly. */
  const MAX_SAFE: int := 9007199254740991

  //------------------
  // Digit windows
  //------------------

  /** The digit of p^j in buffer e; cells outside the buffer read as 0. */
  function Digit(e: seq<int>, j: int): int
  {
    if 0 <= j + MAX_EXP < |e| then e[j + MAX_EXP] else 0
  }

  /** The digits of exponents lo .. hi-1 read as a number in base p, lowest first. */
  function WinVal(e: seq<int>, p: int, lo: int, hi: int): int
    decreases hi - lo
  {
    if hi <= lo then 0 else Digit(e, lo) + p * WinVal(e, p, lo + 1, hi)
  }

  /** Every digit of exponents lo .. hi-1 is in [0, p). */
  predicate DigitsIn(e: seq<int>, p: int, lo: int, hi: int)
  {
    forall j :: lo <= j < hi ==> 0 <= Digit(e, j) < p
  }

  /** Every digit of exponents lo .. hi-1 is at least 0. */
  predicate NonNeg(e: seq<int>, lo: int, hi: int)
  {
    forall j :: lo <= j < hi ==> 0 <= Digit(e, j)
  }

  /** The exponents lo .. lo+k, inclusive, have cells in a buffer of SIZE cells (vacuous when k < 0). */
  predicate Fits(lo: int, k: int)
  {
    k < 0 || (-MAX_EXP <= lo && lo + k < MAX_EXP)
  }

  /** The exponents from lo up do not start below the buffer (vacuous when k < 0). */
  predicate Anchored(lo: int, k: int)
  {
    k < 0 || -MAX_EXP <= lo
  }

  /** Extending a window by its top digit adds that digit times p^(hi - lo). */
  lemma {:induction false} WinValTop(e: seq<int>, p: int, lo: int, hi: int)
    requires lo <= hi
    ensures WinVal(e, p, lo, hi + 1) == WinVal(e, p, lo, hi) + Digit(e, hi) * Pow(p, hi - lo)
    decreases hi - lo
  {
    if lo < hi {
      WinValTop(e, p, lo + 1, hi);
      var w, dh, q := WinVal(e, p, lo + 1, hi), Digit(e, hi), Pow(p, hi - (lo + 1));
      assert WinVal(e, p, lo + 1, hi + 1) == w + dh * q;
      assert Pow(p, hi - lo) == p * q;
      ScaleSum(p, w, dh, q);
    }
  }

  lemma ScaleSum(p: int, w: int, d: int, q: int)
    ensures p * (w + d * q) == p * w + d * (p * q)
  {
  }

  /** With digits in [0, p), a window of n digits holds a value in [0, p^n). */
  lemma {:induction false} WinValBound(e: seq<int>, p: int, lo: int, hi: int)
    requires p >= 2 && lo <= hi && DigitsIn(e, p, lo, hi)
    ensures 0 <= WinVal(e, p, lo, hi) < Pow(p, hi - lo)
    decreases hi - lo
  {
    if lo < hi {
      WinValBound(e, p, lo + 1, hi);
      var d, w, m := Digit(e, lo), WinVal(e, p, lo + 1, hi), Pow(p, hi - (lo + 1));
      assert WinVal(e, p, lo, hi) == d + p * w;
      assert Pow(p, hi - lo) == p * m;
      DigitStep(p, d, w, m);
    }
  }

  /** A digit below p plus p times a value below m stays below p * m. */
  lemma DigitStep(p: int, d: int, w: int, m: int)
    requires p >= 1 && 0 <= d < p && 0 <= w < m
    ensures 0 <= d + p * w < p * m
  {
    MulAtLeast(p, m - 1 - w, 0, 0);
    MulAtLeast(p, w, 0, 0);
    assert p * m == p * (m - 1 - w) + p * w + p;
  }

  /** With digits in [0, p), the window value determines every digit of the window. */
  lemma {:induction false} WinValUnique(e1: seq<int>, e2: seq<int>, p: int, lo: int, hi: int)
    requires p >= 2 && lo <= hi && DigitsIn(e1, p, lo, hi) && DigitsIn(e2, p, lo, hi)
    requires WinVal(e1, p, lo, hi) == WinVal(e2, p, lo, hi)
    ensures forall j :: lo <= j < hi ==> Digit(e1, j) == Digit(e2, j)
    decreases hi - lo
  {
    if lo < hi {
      var w1, w2 := WinVal(e1, p, lo + 1, hi), WinVal(e2, p, lo + 1, hi);
      DivModUnique(WinVal(e1, p, lo, hi), p, w1, Digit(e1, lo));
      DivModUnique(WinVal(e2, p, lo, hi), p, w2, Digit(e2, lo));
      WinValUnique(e1, e2, p, lo + 1, hi);
    }
  }

  /** Replacing the digit of exponent j shifts the window value by the difference times p^(j - lo). */
  lemma {:induction false} WinValUpdate(e: seq<int>, p: int, lo: int, hi: int, j: int, v: int)
    requires lo <= j < hi && 0 <= j + MAX_EXP < |e|
    ensures WinVal(e[j + MAX_EXP := v], p, lo, hi) == WinVal(e, p, lo, hi) + (v - Digit(e, j)) * Pow(p, j - lo)
    decreases hi - lo
  {
    var e' := e[j + MAX_EXP := v];
    if lo == j {
      WinValFrame(e, e', p, lo + 1, hi);
    } else {
      WinValUpdate(e, p, lo + 1, hi, j, v);
      var w, delta, q := WinVal(e, p, lo + 1, hi), v - Digit(e, j), Pow(p, j - (lo + 1));
      assert Digit(e', lo) == Digit(e, lo);
      assert WinVal(e', p, lo + 1, hi) == w + delta * q;
      assert Pow(p, j - lo) == p * q;
      ScaleSum(p, w, delta, q);
    }
  }

  /** Buffers that agree on a window have the same window value. */
  lemma {:induction false} WinValFrame(e1: seq<int>, e2: seq<int>, p: int, lo: int, hi: int)
    requires forall j :: lo <= j < hi ==> Digit(e1, j) == Digit(e2, j)
    ensures WinVal(e1, p, lo, hi) == WinVal(e2, p, lo, hi)
    decreases hi - lo
  {
    if lo < hi {
      WinValFrame(e1, e2, p, lo + 1, hi);
    }
  }

  /** With nonnegative digits and p >= 1, dropping low digits never increases the value. */
  lemma {:induction false} WinValSuffix(e: seq<int>, p: int, lo: int, m: int, hi: int)
    requires p >= 1 && lo <= m <= hi && NonNeg(e, lo, hi)
    ensures 0 <= WinVal(e, p, m, hi) <= WinVal(e, p, lo, hi)
    decreases m - lo
  {
    if lo < m {
      WinValSuffix(e, p, lo + 1, m, hi);
      MulAtLeast(p, WinVal(e, p, lo + 1, hi), 1, WinVal(e, p, lo + 1, hi));
    } else {
      WinValNonNeg(e, p, m, hi);
    }
  }

  lemma {:induction false} WinValNonNeg(e: seq<int>, p: int, lo: int, hi: int)
    requires p >= 1 && NonNeg(e, lo, hi)
    ensures WinVal(e, p, lo, hi) >= 0
    decreases hi - lo
  {
    if lo < hi {
      WinValNonNeg(e, p, lo + 1, hi);
      MulAtLeast(p, WinVal(e, p, lo + 1, hi), 0, 0);
    }
  }

  //------------------
  // Addition with carry (Padic.add)
  //------------------

  /** The carry into exponent j when a and b are added digit by digit from exponent lo. */
  function Carry(a: seq<int>, b: seq<int>, p: int, lo: int, j: int): int
    decreases j - lo
  {
    if j <= lo then 0
    else
      var s := Carry(a, b, p, lo, j - 1) + Digit(a, j - 1) + Digit(b, j - 1);
      if s > p - 1 then 1 else 0
  }

  /** The digit add writes at exponent j: the column sum, less p when it carries. */
  function SumDigit(a: seq<int>, b: seq<int>, p: int, lo: int, j: int): int
  {
    var s := Carry(a, b, p, lo, j) + Digit(a, j) + Digit(b, j);
    if s > p - 1 then s - p else s
  }

  /** The buffer add builds: the column digits on exponents lo .. hi-1 of a fresh zero buffer. */
  function Added(a: seq<int>, b: seq<int>, p: int, lo: int, hi: int): (r: seq<int>)
    ensures |r| == SIZE
  {
    seq(SIZE, m => if lo <= m - MAX_EXP < hi then SumDigit(a, b, p, lo, m - MAX_EXP) else 0)
  }

  /** One pass of add: write the column digit of exponent i into r and return the carry into i + 1. */
  method AddColumn(r: array<int>, a: array<int>, b: array<int>, ghost ea: seq<int>, ghost eb: seq<int>,
                   p: int, lo: int, i: int, c: int) returns (c': int)
    requires r != a && r != b && r.Length == SIZE && a.Length >= SIZE && b.Length >= SIZE
    requires ea == a[..] && eb == b[..] && lo <= i && 0 <= i + MAX_EXP < SIZE
    requires c == Carry(ea, eb, p, lo, i)
    requires forall m :: 0 <= m < SIZE ==>
      r[m] == if lo <= m - MAX_EXP < i then SumDigit(ea, eb, p, lo, m - MAX_EXP) else 0
    modifies r
    ensures c' == Carry(ea, eb, p, lo, i + 1)
    ensures forall m :: 0 <= m < SIZE ==>
      r[m] == if lo <= m - MAX_EXP < i + 1 then SumDigit(ea, eb, p, lo, m - MAX_EXP) else 0
  {
    c' := c + a[i + MAX_EXP] + b[i + MAX_EXP];
    if c' > p - 1 {
      r[i + MAX_EXP] := c' - p;
      c' := 1;
    } else {
      r[i + MAX_EXP] := c';
      c' := 0;
    }
  }

  /** Once the pass has reached hi or the end of the fresh buffer, it holds the column digits of lo .. hi-1. */
  lemma AddedAfter(r: seq<int>, a: seq<int>, b: seq<int>, p: int, lo: int, i: int, hi: int)
    requires |r| == SIZE && lo <= i <= hi && (i == hi || i + MAX_EXP >= SIZE)
    requires forall m :: 0 <= m < SIZE ==>
      r[m] == if lo <= m - MAX_EXP < i then SumDigit(a, b, p, lo, m - MAX_EXP) else 0
    ensures r == Added(a, b, p, lo, hi)
  {
  }

  lemma ColumnStep(w: int, sd: int, c': int, c: int, da: int, db: int, p: int, q: int)
    requires sd + p * c' == c + da + db
    ensures w + sd * q + c' * (p * q) == w + c * q + da * q + db * q
  {
    assert sd * q + c' * (p * q) == (sd + p * c') * q;
  }

  /**
   * Column addition is exact once the carry is counted: the digits written
   * below exponent j plus the carry into j weigh as much as the two operands.
   */
  lemma {:induction false} AddedValue(a: seq<int>, b: seq<int>, p: int, lo: int, hi: int, j: int)
    requires -MAX_EXP <= lo <= j <= hi <= MAX_EXP
    ensures WinVal(Added(a, b, p, lo, hi), p, lo, j) + Carry(a, b, p, lo, j) * Pow(p, j - lo)
         == WinVal(a, p, lo, j) + WinVal(b, p, lo, j)
    decreases j - lo
  {
    if lo < j {
      var r := Added(a, b, p, lo, hi);
      AddedValue(a, b, p, lo, hi, j - 1);
      WinValTop(r, p, lo, j - 1);
      WinValTop(a, p, lo, j - 1);
      WinValTop(b, p, lo, j - 1);
      var q := Pow(p, j - 1 - lo);
      assert Pow(p, j - lo) == p * q;
      assert Digit(r, j - 1) == SumDigit(a, b, p, lo, j - 1);
      ColumnStep(WinVal(r, p, lo, j - 1), SumDigit(a, b, p, lo, j - 1), Carry(a, b, p, lo, j),
        Carry(a, b, p, lo, j - 1), Digit(a, j - 1), Digit(b, j - 1), p, q);
    }
  }

  /** With operand digits in [0, p) the carry is 0 or 1. */
  lemma {:induction false} CarryBit(a: seq<int>, b: seq<int>, p: int, lo: int, j: int)
    requires p >= 1 && DigitsIn(a, p, lo, j) && DigitsIn(b, p, lo, j)
    ensures 0 <= Carry(a, b, p, lo, j) <= 1
    decreases j - lo
  {
    if lo < j {
      CarryBit(a, b, p, lo, j - 1);
    }
  }

  /**
   * add on digits in [0, p): every written digit is in [0, p), and the window
   * holds the sum of the operand windows modulo p^(hi - lo), the last carry dropped.
   */
  lemma AddedMod(a: seq<int>, b: seq<int>, p: int, lo: int, hi: int)
    requires p >= 2 && -MAX_EXP <= lo <= hi <= MAX_EXP
    requires DigitsIn(a, p, lo, hi) && DigitsIn(b, p, lo, hi)
    ensures DigitsIn(Added(a, b, p, lo, hi), p, lo, hi)
    ensures WinVal(Added(a, b, p, lo, hi), p, lo, hi) == (WinVal(a, p, lo, hi) + WinVal(b, p, lo, hi)) % Pow(p, hi - lo)
  {
    var r := Added(a, b, p, lo, hi);
    AddedDigits(a, b, p, lo, hi);
    AddedValue(a, b, p, lo, hi, hi);
    CarryBit(a, b, p, lo, hi);
    WinValBound(r, p, lo, hi);
    DivModUnique(WinVal(a, p, lo, hi) + WinVal(b, p, lo, hi), Pow(p, hi - lo), Carry(a, b, p, lo, hi), WinVal(r, p, lo, hi));
  }

  /** Each digit add writes is a column sum modulo p, so it lies in [0, p). */
  lemma AddedDigits(a: seq<int>, b: seq<int>, p: int, lo: int, hi: int)
    requires p >= 2 && -MAX_EXP <= lo <= hi <= MAX_EXP
    requires DigitsIn(a, p, lo, hi) && DigitsIn(b, p, lo, hi)
    ensures DigitsIn(Added(a, b, p, lo, hi), p, lo, hi)
  {
    var r := Added(a, b, p, lo, hi);
    forall j | lo <= j < hi
      ensures 0 <= Digit(r, j) < p
    {
      assert Digit(r, j) == SumDigit(a, b, p, lo, j);
      CarryBit(a, b, p, lo, j);
    }
  }

  lemma {:induction false} CarrySymmetric(a: seq<int>, b: seq<int>, p: int, lo: int, j: int)
    ensures Carry(a, b, p, lo, j) == Carry(b, a, p, lo, j)
    decreases j - lo
  {
    if lo < j {
      CarrySymmetric(a, b, p, lo, j - 1);
    }
  }

  /** add is commutative: swapping the operands builds the same buffer. */
  lemma AddedCommutes(a: seq<int>, b: seq<int>, p: int, lo: int, hi: int)
    ensures Added(a, b, p, lo, hi) == Added(b, a, p, lo, hi)
  {
    forall m | 0 <= m < SIZE
      ensures Added(a, b, p, lo, hi)[m] == Added(b, a, p, lo, hi)[m]
    {
      CarrySymmetric(a, b, p, lo, m - MAX_EXP);
      assert SumDigit(a, b, p, lo, m - MAX_EXP) == SumDigit(b, a, p, lo, m - MAX_EXP);
    }
  }

  //------------------
  // Radix complement (Padic.cmpt)
  //------------------

  /** The carry into exponent j when the digits p-1-d are added to 1, from exponent lo. */
  function CCarry(e: seq<int>, p: int, lo: int, j: int): int
    decreases j - lo
  {
    if j <= lo then 1
    else
      var s := CCarry(e, p, lo, j - 1) + (p - 1) - Digit(e, j - 1);
      if s > p - 1 then 1 else 0
  }

  /** The digit cmpt writes at exponent j. */
  function CompDigit(e: seq<int>, p: int, lo: int, j: int): int
  {
    var s := CCarry(e, p, lo, j) + (p - 1) - Digit(e, j);
    if s > p - 1 then s - p else s
  }

  /** Once the pass has reached hi or the end of the buffer, the buffer is complemented on lo .. hi-1. */
  lemma ComplementedAfter(a: seq<int>, e: seq<int>, p: int, lo: int, i: int, hi: int)
    requires |a| == |e| && lo <= i <= hi && (i == hi || i + MAX_EXP >= |e|)
    requires forall m :: 0 <= m < |a| ==>
      a[m] == if lo <= m - MAX_EXP < i then CompDigit(e, p, lo, m - MAX_EXP) else e[m]
    ensures a == Complemented(e, p, lo, hi)
  {
  }

  /** One pass of cmpt: complement the digit of exponent i in place and return the carry into i + 1. */
  method CompColumn(a: array<int>, ghost e: seq<int>, p: int, p1: int, lo: int, i: int, c: int) returns (c': int)
    requires p1 == p - 1 && lo <= i && 0 <= i + MAX_EXP < a.Length && |e| == a.Length
    requires c == CCarry(e, p, lo, i)
    requires forall m :: 0 <= m < a.Length ==>
      a[m] == if lo <= m - MAX_EXP < i then CompDigit(e, p, lo, m - MAX_EXP) else e[m]
    modifies a
    ensures c' == CCarry(e, p, lo, i + 1)
    ensures forall m :: 0 <= m < a.Length ==>
      a[m] == if lo <= m - MAX_EXP < i + 1 then CompDigit(e, p, lo, m - MAX_EXP) else e[m]
  {
    c' := c + p1 - a[i + MAX_EXP];
    if c' > p1 {
      a[i + MAX_EXP] := c' - p;
      c' := 1;
    } else {
      a[i + MAX_EXP] := c';
      c' := 0;
    }
  }

  /** The buffer after cmpt: complemented digits on exponents lo .. hi-1, other cells untouched. */
  function Complemented(e: seq<int>, p: int, lo: int, hi: int): (r: seq<int>)
    ensures |r| == |e|
  {
    seq(|e|, m requires 0 <= m < |e| => if lo <= m - MAX_EXP < hi then CompDigit(e, p, lo, m - MAX_EXP) else e[m])
  }

  /** The complemented digits below exponent j plus the carry into j make p^(j - lo) minus the original value. */
  lemma {:induction false} ComplementValue(e: seq<int>, p: int, lo: int, hi: int, j: int)
    requires -MAX_EXP <= lo <= j <= hi && hi + MAX_EXP <= |e|
    ensures WinVal(Complemented(e, p, lo, hi), p, lo, j) + CCarry(e, p, lo, j) * Pow(p, j - lo)
         == Pow(p, j - lo) - WinVal(e, p, lo, j)
    decreases j - lo
  {
    if lo < j {
      var r := Complemented(e, p, lo, hi);
      ComplementValue(e, p, lo, hi, j - 1);
      WinValTop(r, p, lo, j - 1);
      WinValTop(e, p, lo, j - 1);
      var q := Pow(p, j - 1 - lo);
      assert Pow(p, j - lo) == p * q;
      assert Digit(r, j - 1) == CompDigit(e, p, lo, j - 1);
      ComplementStep(WinVal(r, p, lo, j - 1), CompDigit(e, p, lo, j - 1), CCarry(e, p, lo, j),
        CCarry(e, p, lo, j - 1), Digit(e, j - 1), p, q, WinVal(e, p, lo, j - 1));
    }
  }

  lemma ComplementStep(w: int, cd: int, c': int, c: int, d: int, p: int, q: int, we: int)
    requires cd + p * c' == c + (p - 1) - d
    requires w + c * q == q - we
    ensures w + cd * q + c' * (p * q) == p * q - (we + d * q)
  {
    assert cd * q + c' * (p * q) == (cd + p * c') * q;
    assert (c + (p - 1) - d) * q == c * q + p * q - q - d * q;
  }

  /** With digits in [0, p) the complement carry is 0 or 1. */
  lemma {:induction false} CCarryBit(e: seq<int>, p: int, lo: int, j: int)
    requires p >= 1 && DigitsIn(e, p, lo, j)
    ensures 0 <= CCarry(e, p, lo, j) <= 1
    decreases j - lo
  {
    if lo < j {
      CCarryBit(e, p, lo, j - 1);
    }
  }

  /**
   * cmpt on digits in [0, p): the written digits are in [0, p) and the window
   * holds p^(hi - lo) minus the original window, modulo p^(hi - lo): its negation.
   */
  lemma ComplementMod(e: seq<int>, p: int, lo: int, hi: int)
    requires p >= 2 && -MAX_EXP <= lo <= hi && hi + MAX_EXP <= |e| && DigitsIn(e, p, lo, hi)
    ensures DigitsIn(Complemented(e, p, lo, hi), p, lo, hi)
    ensures WinVal(Complemented(e, p, lo, hi), p, lo, hi) == (Pow(p, hi - lo) - WinVal(e, p, lo, hi)) % Pow(p, hi - lo)
  {
    var r := Complemented(e, p, lo, hi);
    forall j | lo <= j < hi
      ensures 0 <= Digit(r, j) < p
    {
      assert Digit(r, j) == CompDigit(e, p, lo, j);
      CCarryBit(e, p, lo, j);
    }
    ComplementValue(e, p, lo, hi, hi);
    CCarryBit(e, p, lo, hi);
    WinValBound(r, p, lo, hi);
    DivModUnique(Pow(p, hi - lo) - WinVal(e, p, lo, hi), Pow(p, hi - lo), CCarry(e, p, lo, hi), WinVal(r, p, lo, hi));
  }

  /** Complementing twice restores a buffer whose window digits are in [0, p). */
  lemma ComplementInvolution(e: seq<int>, p: int, lo: int, hi: int)
    requires p >= 2 && -MAX_EXP <= lo <= hi && hi + MAX_EXP <= |e| && DigitsIn(e, p, lo, hi)
    ensures Complemented(Complemented(e, p, lo, hi), p, lo, hi) == e
  {
    var c1 := Complemented(e, p, lo, hi);
    var c2 := Complemented(c1, p, lo, hi);
    var big := Pow(p, hi - lo);
    ComplementMod(e, p, lo, hi);
    ComplementMod(c1, p, lo, hi);
    WinValBound(e, p, lo, hi);
    var w := WinVal(e, p, lo, hi);
    if w == 0 {
      DivModUnique(big, big, 1, 0);
      DivModUnique(big, big, 1, 0);
    } else {
      DivModUnique(big - w, big, 0, big - w);
      DivModUnique(w, big, 0, w);
    }
    assert WinVal(c2, p, lo, hi) == w;
    WinValUnique(c2, e, p, lo, hi);
    forall m | 0 <= m < |e|
      ensures c2[m] == e[m]
    {
      if lo <= m - MAX_EXP < hi {
        assert Digit(c2, m - MAX_EXP) == Digit(e, m - MAX_EXP);
      }
    }
  }

  //------------------
  // The Padic class
  //------------------

  /**
   * A p-adic number. Copies made by the constructor share the digit buffer:
   * the engine passes arrays by reference.
   */
  class Padic {
    var prime: int
    var precision: int
    var valuation: int
    var expansion: array<int>

    /** new Padic(prime, precision, valuation, expansion): the buffer is shared, not copied. */
    constructor (prime: int, precision: int, valuation: int, expansion: array<int>)
      ensures this.prime == prime && this.precision == precision && this.valuation == valuation
      ensures this.expansion == expansion
    {
      this.prime := prime;
      this.precision := precision;
      this.valuation := valuation;
      this.expansion := expansion;
    }

    /** new Padic(prime, precision) with the default arguments: valuation 0 and a fresh buffer of zeros. */
    constructor Zero(prime: int, precision: int)
      ensures this.prime == prime && this.precision == precision && valuation == 0
      ensures fresh(expansion) && expansion[..] == seq(SIZE, _ => 0)
    {
      this.prime := prime;
      this.precision := precision;
      valuation := 0;
      expansion := new int[SIZE](_ => 0);
    }

    /** The lowest exponent toString, toArray and dsum read: min(valuation, 0). */
    function Low(): int
      reads this
    {
      Min(valuation, 0)
    }

    /** The value dsum computes: the precision digits from exponent Low() up, in base prime. */
    function Horner(): int
      reads this, expansion
    {
      WinVal(expansion[..], prime, Low(), Low() + precision)
    }

    /**
     * add: a fresh number of the receiver's prime and precision whose buffer
     * holds the column sums of the two operands on exponents v .. v+precision,
     * v the smaller valuation, and zeros elsewhere. A column of exponent 64 or
     * more has no cell in the fresh buffer and is not stored.
     */
    method Add(b: Padic) returns (result: Padic)
      requires expansion.Length >= SIZE && b.expansion.Length >= SIZE
      requires Anchored(Min(valuation, b.valuation), precision)
      ensures fresh(result) && fresh(result.expansion)
      ensures result.prime == prime && result.precision == precision
      ensures result.valuation == Min(valuation, b.valuation)
      ensures result.expansion[..] == Added(expansion[..], b.expansion[..], prime, result.valuation,
        result.valuation + Max0(precision + 1))
    {
      ghost var ea, eb := expansion[..], b.expansion[..];
      var c := 0;
      result := new Padic.Zero(prime, precision);
      result.valuation := Min(valuation, b.valuation);
      var lo := result.valuation;
      ghost var hi := lo + Max0(precision + 1);
      var i := lo;
      while i <= precision + lo && i + MAX_EXP < SIZE
        invariant lo <= i <= hi
        invariant result.prime == prime && result.precision == precision && result.valuation == lo
        invariant fresh(result.expansion) && result.expansion.Length == SIZE
        invariant ea == expansion[..] && eb == b.expansion[..]
        invariant c == Carry(ea, eb, prime, lo, i)
        invariant forall m :: 0 <= m < SIZE ==>
          result.expansion[m] == if lo <= m - MAX_EXP < i then SumDigit(ea, eb, prime, lo, m - MAX_EXP) else 0
      {
        c := AddColumn(result.expansion, expansion, b.expansion, ea, eb, prime, lo, i, c);
        i := i + 1;
      }
      AddedAfter(result.expansion[..], ea, eb, prime, lo, i, hi);
    }

    /**
     * cmpt: complements the digits of exponents valuation .. valuation+precision
     * in place, through a new number that shares the receiver's buffer, and
     * returns that number. A column past the end of the buffer is not stored.
     */
    method Cmpt() returns (pa: Padic)
      requires Anchored(valuation, precision)
      modifies expansion
      ensures fresh(pa) && pa.expansion == expansion
      ensures pa.prime == prime && pa.precision == precision && pa.valuation == valuation
      ensures expansion[..] == Complemented(old(expansion[..]), prime, valuation, valuation + Max0(precision + 1))
    {
      ghost var e := expansion[..];
      var c := 1;
      var p1 := prime - 1;
      pa := new Padic(prime, precision, valuation, expansion);
      pa.valuation := valuation;
      var lo := valuation;
      ghost var hi := lo + Max0(precision + 1);
      var i := lo;
      while i <= precision + lo && i + MAX_EXP < expansion.Length
        invariant lo <= i <= hi
        invariant pa.expansion == expansion && pa.prime == prime && pa.precision == precision && pa.valuation == lo
        invariant c == CCarry(e, prime, lo, i)
        invariant forall m :: 0 <= m < expansion.Length ==>
          expansion[m] == if lo <= m - MAX_EXP < i then CompDigit(e, prime, lo, m - MAX_EXP) else e[m]
      {
        c := CompColumn(pa.expansion, e, prime, p1, lo, i, c);
        i := i + 1;
      }
      ComplementedAfter(expansion[..], e, prime, lo, i, hi);
    }

    /**
     * dsum: Horner's rule over the precision digits from exponent min(valuation, 0),
     * highest first. A step whose product leaves the exactly representable
     * integers ends the sum with the sentinel -1.
     */
    method Dsum() returns (sum: int)
      requires expansion.Length >= SIZE && Fits(Low(), precision - 1)
      ensures sum == -1 || sum == Horner()
      ensures prime >= 1 && NonNeg(expansion[..], Low(), Low() + precision) && sum == -1 ==> Horner() > MAX_SAFE
      ensures prime >= 1 && NonNeg(expansion[..], Low(), Low() + precision) && Horner() <= MAX_SAFE ==> sum == Horner()
    {
      ghost var e := expansion[..];
      var t := Min(valuation, 0);
      ghost var hi := t + precision;
      sum := 0;
      var i := precision - 1 + t;
      while i >= t
        invariant i <= precision - 1 + t
        invariant precision > 0 ==> t - 1 <= i
        invariant precision <= 0 ==> i == precision - 1 + t
        invariant sum == WinVal(e, prime, i + 1, hi)
      {
        var r := sum;
        sum := sum * prime;
        if r != 0 && Abs(sum) > MAX_SAFE {
          if prime >= 1 && NonNeg(e, t, hi) {
            WinValNonNeg(e, prime, i + 1, hi);
            MulAtLeast(prime, r, 1, 0);
            assert WinVal(e, prime, i, hi) == Digit(e, i) + prime * r;
            WinValSuffix(e, prime, t, i, hi);
            assert Horner() == WinVal(e, prime, t, hi);
          }
          sum := -1;
          break;
        }
        sum := sum + expansion[i + MAX_EXP];
        i := i - 1;
      }
      if prime >= 1 && NonNeg(e, t, hi) {
        WinValNonNeg(e, prime, t, hi);
      }
    }

    /** toArray: the precision digits from exponent min(valuation, 0) up, lowest first. */
    function ToArray(): (r: seq<int>)
      reads this, expansion
      requires expansion.Length >= SIZE && Fits(Low(), precision - 1)
      ensures |r| == Max0(precision)
      ensures forall k :: 0 <= k < |r| ==> r[k] == Digit(expansion[..], Low() + k)
    {
      var start := Low() + MAX_EXP;
      if precision <= 0 then [] else expansion[start..start + precision]
    }

    /** toString: the tokens of Tokens, joined by single spaces; "" when precision < 1. */
    method ToString() returns (s: string)
      requires expansion.Length >= SIZE && Fits(Low(), precision - 1)
      ensures precision >= 1 ==> s == Join(Tokens(expansion[..], valuation, precision))
      ensures precision < 1 ==> s == ""
    {
      var str := PrintTokens(expansion, valuation, precision);
      s := Trim(str);
      if precision >= 1 {
        PrintedTokens(expansion[..], valuation, precision, str);
      }
    }

    /**
     * convertToRatio, with MAX_APPROX as maxApprox: adds the receiver to an
     * accumulator that starts as the receiver itself (sharing its buffer)
     * until the receiver looks like a small integer or the accumulator like a
     * small negative one; complements the accumulator in the second case; and
     * returns its digit sum over count * p^max(0, -valuation). `count` is the
     * number of summands and `negative` whether the accumulator was complemented.
     * When the window reaches past the buffer, no test passes and it fails.
     */
    method ConvertToRatio(maxApprox: int) returns (r: Result<Ratio>, ghost count: int, ghost negative: bool)
      requires expansion.Length >= SIZE && Anchored(valuation, precision) && Fits(Low(), precision - 1)
      modifies expansion
      ensures 1 <= count && (count <= maxApprox + 1 || count == 1)
      ensures negative ==> count <= maxApprox
      ensures IntegerLike(old(expansion[..]), valuation, precision) ==> count == 1 && !negative
      ensures !negative && count <= maxApprox ==> IntegerLike(old(expansion[..]), valuation, precision)
      ensures negative ==> NegativeLike(Summed(old(expansion[..]), prime, valuation, precision, count), valuation, precision, prime)
      ensures NoNegativeBefore(old(expansion[..]), prime, valuation, precision, count)
      ensures FirstStop(old(expansion[..]), prime, valuation, precision, maxApprox, count, negative)
      ensures expansion[..] == if count == 1 && negative
        then Complemented(old(expansion[..]), prime, valuation, valuation + Max0(precision + 1))
        else old(expansion[..])
      ensures r.Failure? ==> r.error == ReconstructionFailed || (r.error == DivisionByZero && prime == 0)
      ensures count > maxApprox ==> r == Failure(ReconstructionFailed)
      ensures r.Success? ==>
        var x := Numerator(old(expansion[..]), prime, valuation, precision, count, negative);
        count <= maxApprox && x >= 0 && count * Pow(prime, Max0(-valuation)) != 0 &&
        r.value == Make(if negative then -x else x, count * Pow(prime, Max0(-valuation)), 1)
      ensures (count <= maxApprox && prime >= 1 &&
        NonNeg(Final(old(expansion[..]), prime, valuation, precision, count, negative), Low(), Low() + precision) &&
        Numerator(old(expansion[..]), prime, valuation, precision, count, negative) <= MAX_SAFE) ==> r.Success?
      ensures precision >= 2 && valuation + precision - 1 + MAX_EXP >= expansion.Length ==>
        r == Failure(ReconstructionFailed)
    {
      ghost var e := expansion[..];
      var padic, i, fl := Approximate(maxApprox);
      count, negative := i, fl;
      ghost var after := expansion[..];
      if precision >= 2 && valuation + precision - 1 + MAX_EXP >= expansion.Length {
        PastTheBuffer(e, prime, valuation, precision, count);
      }
      r := Quotient(padic, i, fl, maxApprox, e);
      assert expansion[..] == after;
    }

    /**
     * The first half of convertToRatio: the search loop, then the complement
     * of the accumulator when it stopped on a small negative integer. The
     * receiver's buffer is complemented too when the two still share it.
     */
    method Approximate(maxApprox: int) returns (padic: Padic, count: int, negative: bool)
      requires expansion.Length >= SIZE && Anchored(valuation, precision)
      modifies expansion
      ensures 1 <= count && (count <= maxApprox + 1 || count == 1)
      ensures negative ==> count <= maxApprox
      ensures IntegerLike(old(expansion[..]), valuation, precision) ==> count == 1 && !negative
      ensures !negative && count <= maxApprox ==> IntegerLike(old(expansion[..]), valuation, precision)
      ensures negative ==> NegativeLike(Summed(old(expansion[..]), prime, valuation, precision, count), valuation, precision, prime)
      ensures NoNegativeBefore(old(expansion[..]), prime, valuation, precision, count)
      ensures expansion[..] == if count == 1 && negative
        then Complemented(old(expansion[..]), prime, valuation, valuation + Max0(precision + 1))
        else old(expansion[..])
      ensures padic.prime == prime && padic.precision == precision && padic.valuation == valuation
      ensures padic.expansion.Length >= SIZE
      ensures padic.expansion[..] == if negative
        then Complemented(Summed(old(expansion[..]), prime, valuation, precision, count), prime, valuation, valuation + Max0(precision + 1))
        else Summed(old(expansion[..]), prime, valuation, precision, count)
    {
      ghost var e := expansion[..];
      ghost var lo, hi := valuation, valuation + Max0(precision + 1);
      var i, fl;
      padic, i, fl := Accumulate(maxApprox);
      count, negative := i, fl;
      ghost var acc := Summed(e, prime, valuation, precision, i);
      assert padic.expansion[..] == acc;
      if fl {
        padic := padic.Cmpt();
        if i == 1 {
          assert acc == e;
        } else {
          assert expansion[..] == e;
        }
      }
    }

    /**
     * The search loop of convertToRatio. It returns the accumulator, the
     * number i of summands in it, and fl: whether it stopped on a small
     * negative integer. The accumulator shares the receiver's buffer while i is 1.
     */
    method Accumulate(maxApprox: int) returns (padic: Padic, i: int, fl: bool)
      requires expansion.Length >= SIZE && Anchored(valuation, precision)
      ensures padic.prime == prime && padic.precision == precision && padic.valuation == valuation
      ensures padic.expansion.Length >= SIZE
      ensures padic.expansion[..] == Summed(expansion[..], prime, valuation, precision, i)
      ensures i == 1 ==> padic.expansion == expansion
      ensures i > 1 ==> fresh(padic.expansion)
      ensures 1 <= i && (i <= maxApprox + 1 || i == 1)
      ensures fl ==> i <= maxApprox
      ensures fl ==> NegativeLike(Summed(expansion[..], prime, valuation, precision, i), valuation, precision, prime)
      ensures IntegerLike(expansion[..], valuation, precision) ==> i == 1 && !fl
      ensures !fl && i <= maxApprox ==> IntegerLike(expansion[..], valuation, precision)
      ensures NoNegativeBefore(expansion[..], prime, valuation, precision, i)
    {
      ghost var e := expansion[..];
      fl := false;
      padic := new Padic(prime, precision, valuation, expansion);
      var p1 := prime - 1;
      i := 1;
      while i <= maxApprox
        invariant 1 <= i && (i <= maxApprox + 1 || i == 1)
        invariant !fl
        invariant !IntegerLike(e, valuation, precision) || i == 1
        invariant padic.prime == prime && padic.precision == precision && padic.valuation == valuation
        invariant padic.expansion.Length >= SIZE
        invariant padic.expansion[..] == Summed(e, prime, valuation, precision, i)
        invariant i == 1 ==> padic.expansion == expansion
        invariant i > 1 ==> fresh(padic.expansion)
        invariant expansion[..] == e
        invariant NoNegativeBefore(e, prime, valuation, precision, i)
        decreases maxApprox - i
      {
        var stop;
        padic, stop, fl := Search(padic, p1, i);
        if stop {
          break;
        }
        NoNegativeStep(e, prime, valuation, precision, i);
        i := i + 1;
      }
    }

    /**
     * One pass of the search loop of convertToRatio: stop (fl false) when the
     * receiver looks like an integer, stop (fl true) when the accumulator looks
     * like a negative one, and otherwise add the receiver to the accumulator.
     */
    method Search(padic: Padic, p1: int, ghost i: int) returns (padic': Padic, stop: bool, fl: bool)
      requires expansion.Length >= SIZE && Anchored(valuation, precision) && p1 == prime - 1 && i >= 1
      requires padic.prime == prime && padic.precision == precision && padic.valuation == valuation
      requires padic.expansion.Length >= SIZE
      requires padic.expansion[..] == Summed(expansion[..], prime, valuation, precision, i)
      ensures stop ==> padic' == padic
      ensures stop && !fl ==> IntegerLike(expansion[..], valuation, precision)
      ensures stop && fl ==> !IntegerLike(expansion[..], valuation, precision)
      ensures stop && fl ==> NegativeLike(padic.expansion[..], valuation, precision, prime)
      ensures !stop ==> !fl && !IntegerLike(expansion[..], valuation, precision)
      ensures !stop ==> !NegativeLike(padic.expansion[..], valuation, precision, prime)
      ensures !stop ==> fresh(padic'.expansion)
      ensures !stop ==> padic'.prime == prime && padic'.precision == precision && padic'.valuation == valuation
      ensures !stop ==> padic'.expansion.Length >= SIZE
      ensures !stop ==> padic'.expansion[..] == Summed(expansion[..], prime, valuation, precision, i + 1)
    {
      padic' := padic;
      // is the receiver integer-like?
      fl := Sparse(expansion, valuation, precision, 0);
      if fl {
        fl := false;
        return padic', true, fl;
      }
      // is the accumulator negative-like?
      fl := Sparse(padic.expansion, valuation, precision, p1);
      if fl {
        return padic', true, fl;
      }
      // add the receiver to the accumulator
      padic' := padic.Add(this);
      stop := false;
    }
  }

  //------------------
  // Printing and parsing
  //------------------

  /** The token toString prints for exponent j: the digit, followed by '.' for exponent 0 when the valuation is negative. */
  function Token(e: seq<int>, v: int, j: int): string
  {
    IntToString(Digit(e, j)) + (if j == 0 && v < 0 then "." else "")
  }

  /** The tokens toString prints, exponent precision-1+t first and exponent t last, t = min(v, 0). */
  function Tokens(e: seq<int>, v: int, k: int): (ts: seq<string>)
    ensures |ts| == Max0(k)
  {
    seq(Max0(k), n => Token(e, v, Min(v, 0) + k - 1 - n))
  }

  /** One pass of toString: append the digit of exponent i, a '.' after exponent 0 when v < 0, and a space. */
  method PrintToken(a: array<int>, ghost e: seq<int>, v: int, k: int, i: int, str: string) returns (str': string)
    requires e == a[..] && -MAX_EXP <= i && i + MAX_EXP < a.Length
    requires Min(v, 0) <= i <= Min(v, 0) + k - 1
    requires str == Spaced(Tokens(e, v, k)[..Min(v, 0) + k - 1 - i])
    ensures str' == Spaced(Tokens(e, v, k)[..Min(v, 0) + k - i])
  {
    TokensStep(e, v, k, Min(v, 0) + k - 1 - i, str);
    ghost var digit := IntToString(Digit(e, i));
    assert a[i + MAX_EXP] == Digit(e, i);
    str' := str + IntToString(a[i + MAX_EXP]);
    if i == 0 && v < 0 {
      str' := str' + ".";
    }
    str' := str' + " ";
    assert str' == str + digit + (if i == 0 && v < 0 then "." else "") + " ";
  }

  /** toString's loop: every token, from exponent precision-1+t down to t, followed by a space. */
  method PrintTokens(a: array<int>, v: int, k: int) returns (str: string)
    requires a.Length >= SIZE && Fits(Min(v, 0), k - 1)
    ensures k >= 1 ==> str == Spaced(Tokens(a[..], v, k)[..k])
    ensures k < 1 ==> str == ""
  {
    ghost var e := a[..];
    str := "";
    var t := Min(v, 0);
    var i := k - 1 + t;
    while i >= t
      invariant i <= k - 1 + t
      invariant k > 0 ==> t - 1 <= i
      invariant k <= 0 ==> i == k - 1 + t
      invariant str == Spaced(Tokens(e, v, k)[..k - 1 + t - i])
    {
      str := PrintToken(a, e, v, k, i, str);
      i := i - 1;
    }
  }

  lemma TokensStep(e: seq<int>, v: int, k: int, n: int, before: string)
    requires 0 <= n < k && before == Spaced(Tokens(e, v, k)[..n])
    ensures var j := Min(v, 0) + k - 1 - n;
      Spaced(Tokens(e, v, k)[..n + 1]) == before + IntToString(Digit(e, j)) + (if j == 0 && v < 0 then "." else "") + " "
  {
    var ts := Tokens(e, v, k);
    SpacedSnoc(ts, n);
    var j := Min(v, 0) + k - 1 - n;
    assert ts[n] == Token(e, v, j);
  }

  /** Trimming the text once every token is printed leaves the tokens joined by single spaces. */
  lemma PrintedTokens(e: seq<int>, v: int, k: int, str: string)
    requires k >= 1 && str == Spaced(Tokens(e, v, k)[..k])
    ensures Trim(str) == Join(Tokens(e, v, k))
  {
    var ts := Tokens(e, v, k);
    assert ts[..k] == ts;
    TokensAreTokens(e, v, k);
    TrimSpaced(ts);
  }

  lemma SpacedSnoc(ts: seq<string>, n: int)
    requires 0 <= n < |ts|
    ensures Spaced(ts[..n + 1]) == Spaced(ts[..n]) + ts[n] + " "
  {
    assert ts[..n + 1][..n] == ts[..n];
  }

  /**
   * toString prints exactly precision tokens, none empty or holding a space;
   * the token of exponent 0 carries a '.' exactly when the valuation is negative,
   * and no other token does.
   */
  lemma TokensAreTokens(e: seq<int>, v: int, k: int)
    ensures forall n :: 0 <= n < |Tokens(e, v, k)| ==> IsToken(Tokens(e, v, k)[n])
    ensures forall n :: 0 <= n < |Tokens(e, v, k)| ==>
      ('.' in Tokens(e, v, k)[n] <==> v < 0 && Min(v, 0) + k - 1 - n == 0)
  {
    forall n | 0 <= n < |Tokens(e, v, k)|
      ensures IsToken(Tokens(e, v, k)[n])
      ensures '.' in Tokens(e, v, k)[n] <==> v < 0 && Min(v, 0) + k - 1 - n == 0
    {
      var j := Min(v, 0) + k - 1 - n;
      var d := IntToString(Digit(e, j));
      assert Tokens(e, v, k)[n] == Token(e, v, j);
      if j == 0 && v < 0 {
        assert Tokens(e, v, k)[n] == d + ".";
        assert (d + ".")[|d|] == '.';
      } else {
        assert d + "" == d;
      }
    }
  }

  /** The chunks fromString reads: the string split at ' ', lowest exponent first. */
  function Chunks(str: string): seq<string>
  {
    Reversed(Split(str))
  }

  /** The valuation fromString records: the index of the last chunk holding a '.', 0 when none does. */
  function DotIndex(cs: seq<string>): (v: nat)
    ensures v == 0 || (v < |cs| && '.' in cs[v])
    ensures forall i :: v < i < |cs| ==> '.' !in cs[i]
  {
    if cs == [] then 0
    else if '.' in cs[|cs| - 1] then |cs| - 1
    else DotIndex(cs[..|cs| - 1])
  }

  /**
   * fromString: valuation is the index of the last chunk holding a '.', and
   * chunk i, parsed, lands in cell i + MAX_EXP of a zero buffer, which grows
   * past 2 * MAX_EXP cells when there are more than MAX_EXP chunks.
   */
  method FromString(str: string, prime: int, precision: int) returns (x: Padic)
    ensures fresh(x) && fresh(x.expansion)
    ensures x.prime == prime && x.precision == precision && x.valuation == DotIndex(Chunks(str))
    ensures x.expansion.Length == if MAX_EXP + |Chunks(str)| > SIZE then MAX_EXP + |Chunks(str)| else SIZE
    ensures forall m :: 0 <= m < x.expansion.Length ==>
      x.expansion[m] == if MAX_EXP <= m < MAX_EXP + |Chunks(str)| then ParseInt(Chunks(str)[m - MAX_EXP]) else 0
  {
    var chunks := Reversed(Split(str));
    var valuation, arr := ReadChunks(chunks);
    var expansion := PlaceDigits(arr);
    x := new Padic(prime, precision, valuation, expansion);
  }

  /** The first loop of fromString: the valuation and the parsed chunks. */
  method ReadChunks(chunks: seq<string>) returns (valuation: nat, arr: seq<int>)
    ensures valuation == DotIndex(chunks)
    ensures |arr| == |chunks| && forall n :: 0 <= n < |arr| ==> arr[n] == ParseInt(chunks[n])
  {
    valuation := 0;
    arr := [];
    var i := 0;
    while i < |chunks|
      invariant 0 <= i <= |chunks|
      invariant valuation == DotIndex(chunks[..i]) && arr == Parsed(chunks[..i])
    {
      valuation, arr := ReadChunk(chunks, i, valuation, arr);
      i := i + 1;
    }
    assert chunks[..|chunks|] == chunks;
    ParsedAt(chunks);
  }

  /** One pass of the first loop of fromString: chunk i moves the valuation when it holds a '.', and is parsed onto arr. */
  method ReadChunk(chunks: seq<string>, i: nat, valuation: nat, arr: seq<int>) returns (valuation': nat, arr': seq<int>)
    requires i < |chunks| && valuation == DotIndex(chunks[..i]) && arr == Parsed(chunks[..i])
    ensures valuation' == DotIndex(chunks[..i + 1]) && arr' == Parsed(chunks[..i + 1])
  {
    DotIndexStep(chunks, i);
    assert chunks[..i + 1][..i] == chunks[..i];
    valuation' := valuation;
    if '.' in chunks[i] {
      valuation' := i;
    }
    arr' := arr + [ParseInt(chunks[i])];
  }

  /** The chunks, each read by parseInt. */
  function Parsed(cs: seq<string>): (r: seq<int>)
    ensures |r| == |cs|
  {
    if cs == [] then [] else Parsed(cs[..|cs| - 1]) + [ParseInt(cs[|cs| - 1])]
  }

  lemma {:induction false} ParsedAt(cs: seq<string>)
    ensures forall n :: 0 <= n < |cs| ==> Parsed(cs)[n] == ParseInt(cs[n])
  {
    if cs != [] {
      var init := cs[..|cs| - 1];
      ParsedAt(init);
      assert forall n :: 0 <= n < |init| ==> init[n] == cs[n];
    }
  }

  lemma DotIndexStep(chunks: seq<string>, i: nat)
    requires i < |chunks|
    ensures DotIndex(chunks[..i + 1]) == if '.' in chunks[i] then i else DotIndex(chunks[..i])
  {
    assert chunks[..i + 1][..i] == chunks[..i];
  }

  /** The second loop of fromString: digit n of arr in cell n + MAX_EXP of a zero buffer. */
  method PlaceDigits(arr: seq<int>) returns (expansion: array<int>)
    ensures fresh(expansion)
    ensures expansion.Length == if MAX_EXP + |arr| > SIZE then MAX_EXP + |arr| else SIZE
    ensures forall m :: 0 <= m < expansion.Length ==>
      expansion[m] == if MAX_EXP <= m < MAX_EXP + |arr| then arr[m - MAX_EXP] else 0
  {
    expansion := new int[if MAX_EXP + |arr| > SIZE then MAX_EXP + |arr| else SIZE](_ => 0);
    var i := 0;
    while i < |arr|
      invariant 0 <= i <= |arr|
      invariant forall m :: 0 <= m < expansion.Length ==>
        expansion[m] == if MAX_EXP <= m < MAX_EXP + i then arr[m - MAX_EXP] else 0
    {
      expansion[i + MAX_EXP] := arr[i];
      i := i + 1;
    }
  }

  /**
   * Printing a number of nonnegative valuation and parsing the text back gives
   * valuation 0 and, in cells MAX_EXP .. MAX_EXP+precision-1, the digits of
   * exponents 0 .. precision-1; every other cell is 0.
   */
  lemma FromStringOfToString(e: seq<int>, v: int, k: int)
    requires v >= 0 && k >= 1
    ensures |Chunks(Join(Tokens(e, v, k)))| == k
    ensures DotIndex(Chunks(Join(Tokens(e, v, k)))) == 0
    ensures forall j :: 0 <= j < k ==> ParseInt(Chunks(Join(Tokens(e, v, k)))[j]) == Digit(e, j)
  {
    var ts := Tokens(e, v, k);
    ChunksOfTokens(e, v, k);
    var cs := Chunks(Join(ts));
    forall j | 0 <= j < k
      ensures ParseInt(cs[j]) == Digit(e, j) && '.' !in cs[j]
    {
      assert cs[j] == ts[k - 1 - j];
      ChunkOfToken(e, v, k, j);
    }
    NoDot(cs);
  }

  /** Splitting the printed text gives the tokens back, lowest exponent first. */
  lemma ChunksOfTokens(e: seq<int>, v: int, k: int)
    requires k >= 1
    ensures Chunks(Join(Tokens(e, v, k))) == Reversed(Tokens(e, v, k))
  {
    TokensAreTokens(e, v, k);
    SplitJoin(Tokens(e, v, k));
  }

  /** For v >= 0, the token printed for exponent j is the bare digit, which parses back. */
  lemma ChunkOfToken(e: seq<int>, v: int, k: int, j: int)
    requires v >= 0 && 0 <= j < k
    ensures Tokens(e, v, k)[k - 1 - j] == IntToString(Digit(e, j))
    ensures ParseInt(IntToString(Digit(e, j))) == Digit(e, j)
  {
    var n := k - 1 - j;
    assert Min(v, 0) + k - 1 - n == j;
    var t := Tokens(e, v, k)[n];
    assert t == Token(e, v, j);
    assert IntToString(Digit(e, j)) + "" == IntToString(Digit(e, j));
    ParseIntOfInt(Digit(e, j), "");
  }

  lemma {:induction false} NoDot(cs: seq<string>)
    requires forall i :: 0 <= i < |cs| ==> '.' !in cs[i]
    ensures DotIndex(cs) == 0
  {
    if cs != [] {
      NoDot(cs[..|cs| - 1]);
    }
  }

  //------------------
  // Rational reconstruction (Padic.convertToRatio)
  //------------------

  /**
   * The cell of exponent j does not hold val. A cell outside the buffer reads
   * as JavaScript's undefined, which is no number, so it differs from every val.
   */
  predicate Differs(e: seq<int>, j: int, val: int)
  {
    !(0 <= j + MAX_EXP < |e|) || e[j + MAX_EXP] != val
  }

  /**
   * The downward scan of convertToRatio: from exponent j down to lo, the first
   * exponent whose cell differs from val; lo - 1 when there is none, and j
   * itself when j < lo.
   */
  function TopDiffer(e: seq<int>, lo: int, j: int, val: int): (r: int)
    ensures r <= j && (r >= lo ==> Differs(e, r, val))
    ensures j >= lo ==> r >= lo - 1
    ensures forall m :: r < m <= j ==> !Differs(e, m, val)
    decreases j - lo + 1
  {
    if j < lo || Differs(e, j, val) then j else TopDiffer(e, lo, j - 1, val)
  }

  /** The receiver looks like a nonnegative integer: its nonzero digits fill less than half the window. */
  predicate IntegerLike(e: seq<int>, v: int, k: int)
  {
    (TopDiffer(e, v, k - 1 + v, 0) - v) * 2 < k
  }

  /** The accumulator looks like a negative integer: its digits other than p-1 fill less than half the window. */
  predicate NegativeLike(e: seq<int>, v: int, k: int, p: int)
  {
    (TopDiffer(e, v, k - 1 + v, p - 1) - v) * 2 < k
  }

  /** One scan of convertToRatio over a buffer. */
  method ScanDown(a: array<int>, lo: int, from: int, val: int) returns (j: int)
    ensures j == TopDiffer(a[..], lo, from, val)
  {
    j := from;
    while j >= lo
      invariant j <= from && (j >= lo - 1 || j == from)
      invariant TopDiffer(a[..], lo, j, val) == TopDiffer(a[..], lo, from, val)
    {
      if j + MAX_EXP < 0 || j + MAX_EXP >= a.Length || a[j + MAX_EXP] != val {
        break;
      }
      j := j - 1;
    }
  }

  /**
   * One test of convertToRatio: scan the window v .. v+k-1 of a down for the
   * top digit other than val, and report whether it lies in the lower half.
   */
  method Sparse(a: array<int>, v: int, k: int, val: int) returns (b: bool)
    ensures b == ((TopDiffer(a[..], v, k - 1 + v, val) - v) * 2 < k)
    ensures val == 0 ==> (b <==> IntegerLike(a[..], v, k))
    ensures b <==> NegativeLike(a[..], v, k, val + 1)
  {
    var j := ScanDown(a, v, k - 1 + v, val);
    b := (j - v) * 2 < k;
  }

  /** The accumulator of convertToRatio once n summands of e are added, window lo .. hi-1. */
  function Multiple(e: seq<int>, p: int, lo: int, hi: int, n: int): seq<int>
    decreases n
  {
    if n <= 1 then e else Added(Multiple(e, p, lo, hi, n - 1), e, p, lo, hi)
  }

  lemma ModAddLeft(a: int, b: int, m: int)
    requires m >= 1
    ensures (a % m + b) % m == (a + b) % m
  {
    var qa, ra := a / m, a % m;
    var q, r := (ra + b) / m, (ra + b) % m;
    DivModUnique(a + b, m, qa + q, r);
  }

  /**
   * After n summands the accumulator holds n times the receiver modulo
   * p^(hi - lo), with digits in [0, p), when the receiver's digits are in [0, p).
   */
  lemma {:induction false} MultipleValue(e: seq<int>, p: int, lo: int, hi: int, n: int)
    requires p >= 2 && -MAX_EXP <= lo <= hi <= MAX_EXP && n >= 1 && DigitsIn(e, p, lo, hi)
    ensures DigitsIn(Multiple(e, p, lo, hi, n), p, lo, hi)
    ensures WinVal(Multiple(e, p, lo, hi, n), p, lo, hi) == (n * WinVal(e, p, lo, hi)) % Pow(p, hi - lo)
    decreases n
  {
    var w := WinVal(e, p, lo, hi);
    if n == 1 {
      WinValBound(e, p, lo, hi);
      DivModUnique(w, Pow(p, hi - lo), 0, w);
    } else {
      MultipleValue(e, p, lo, hi, n - 1);
      var acc := Multiple(e, p, lo, hi, n - 1);
      AddedMod(acc, e, p, lo, hi);
      ModAddLeft((n - 1) * w, w, Pow(p, hi - lo));
      assert (n - 1) * w + w == n * w;
    }
  }

  lemma PowNonZero(p: int, e: nat)
    requires p != 0
    ensures Pow(p, e) != 0
  {
    if e > 0 {
      PowNonZero(p, e - 1);
      MulNonZero(p, Pow(p, e - 1));
    }
  }

  lemma MulNonZero(a: int, b: int)
    requires a != 0 && b != 0
    ensures a * b != 0
  {
    var aa, ab := if a < 0 then -a else a, if b < 0 then -b else b;
    MulAtLeast(aa, ab, 1, 1);
    assert aa * ab == (if a * b < 0 then -(a * b) else a * b);
  }

  /** The accumulator of convertToRatio with `count` summands of the number with buffer e, valuation v and precision k. */
  function Summed(e: seq<int>, p: int, v: int, k: int, count: int): seq<int>
  {
    Multiple(e, p, v, v + Max0(k + 1), count)
  }

  /** None of the accumulators with fewer than count summands looks like a negative integer. */
  predicate NoNegativeBefore(e: seq<int>, p: int, v: int, k: int, count: int)
  {
    forall j :: 1 <= j < count ==> !NegativeLike(Summed(e, p, v, k, j), v, k, p)
  }

  /**
   * Where convertToRatio's search loop stops with at most maxApprox passes:
   * at the first count whose receiver looks like an integer (only count 1 can)
   * or whose accumulator looks like a negative integer (negative), else after
   * maxApprox passes.
   */
  ghost predicate FirstStop(e: seq<int>, p: int, v: int, k: int, maxApprox: int, count: int, negative: bool)
  {
    1 <= count && (count <= maxApprox + 1 || count == 1) &&
    (negative ==> count <= maxApprox) &&
    (IntegerLike(e, v, k) ==> count == 1 && !negative) &&
    (!negative && count <= maxApprox ==> IntegerLike(e, v, k)) &&
    (negative ==> NegativeLike(Summed(e, p, v, k, count), v, k, p)) &&
    NoNegativeBefore(e, p, v, k, count)
  }

  /** The stop of the search loop is determined by the receiver: two stops that both qualify are the same. */
  lemma FirstStopUnique(e: seq<int>, p: int, v: int, k: int, maxApprox: int, c1: int, n1: bool, c2: int, n2: bool)
    requires FirstStop(e, p, v, k, maxApprox, c1, n1) && FirstStop(e, p, v, k, maxApprox, c2, n2)
    ensures c1 == c2 && n1 == n2
  {
  }

  lemma NoNegativeStep(e: seq<int>, p: int, v: int, k: int, i: int)
    requires NoNegativeBefore(e, p, v, k, i) && !NegativeLike(Summed(e, p, v, k, i), v, k, p)
    ensures NoNegativeBefore(e, p, v, k, i + 1)
  {
  }

  /** The buffer convertToRatio sums: the accumulator, complemented when `negative`. */
  function Final(e: seq<int>, p: int, v: int, k: int, count: int, negative: bool): seq<int>
  {
    var acc := Summed(e, p, v, k, count);
    if negative then Complemented(acc, p, v, v + Max0(k + 1)) else acc
  }

  /** The digit sum convertToRatio divides: dsum of the final buffer. */
  function Numerator(e: seq<int>, p: int, v: int, k: int, count: int, negative: bool): int
  {
    WinVal(Final(e, p, v, k, count, negative), p, Min(v, 0), Min(v, 0) + k)
  }

  /**
   * When the top exponent v+k-1 of the window has no cell, neither test of
   * convertToRatio can pass: the scan stops at that cell.
   */
  lemma PastTheBuffer(e: seq<int>, p: int, v: int, k: int, n: int)
    requires |e| >= SIZE && k >= 2 && v + k - 1 + MAX_EXP >= |e|
    ensures !IntegerLike(e, v, k)
    ensures !NegativeLike(Summed(e, p, v, k, n), v, k, p)
  {
    var acc := Summed(e, p, v, k, n);
    assert |acc| <= |e| by {
      if n > 1 {
        assert acc == Added(Multiple(e, p, v, v + Max0(k + 1), n - 1), e, p, v, v + Max0(k + 1));
      }
    }
    assert TopDiffer(e, v, k - 1 + v, 0) == k - 1 + v;
    assert TopDiffer(acc, v, k - 1 + v, p - 1) == k - 1 + v;
  }

  /**
   * The second half of convertToRatio: dsum of the final buffer over
   * count * p^max(0, -valuation), negated when fl; it fails when dsum gives
   * the sentinel or a negative sum, or when count passed maxApprox.
   */
  method Quotient(padic: Padic, count: int, fl: bool, maxApprox: int, ghost e: seq<int>) returns (r: Result<Ratio>)
    requires padic.expansion.Length >= SIZE && Fits(padic.Low(), padic.precision - 1) && count >= 1
    requires padic.expansion[..] == Final(e, padic.prime, padic.valuation, padic.precision, count, fl)
    ensures r.Failure? ==> r.error == ReconstructionFailed || (r.error == DivisionByZero && padic.prime == 0)
    ensures count > maxApprox ==> r == Failure(ReconstructionFailed)
    ensures r.Success? ==>
      var x := Numerator(e, padic.prime, padic.valuation, padic.precision, count, fl);
      var y := count * Pow(padic.prime, Max0(-padic.valuation));
      count <= maxApprox && x >= 0 && y != 0 && r.value == Make(if fl then -x else x, y, 1)
    ensures (count <= maxApprox && padic.prime >= 1 &&
      NonNeg(Final(e, padic.prime, padic.valuation, padic.precision, count, fl), padic.Low(), padic.Low() + padic.precision) &&
      Numerator(e, padic.prime, padic.valuation, padic.precision, count, fl) <= MAX_SAFE) ==> r.Success?
  {
    ghost var fin := padic.expansion[..];
    assert padic.Horner() == Numerator(e, padic.prime, padic.valuation, padic.precision, count, fl);
    // the numerator is the accumulator's digit sum
    var x := padic.Dsum();
    var y := count;
    if x < 0 || y > maxApprox {
      if padic.prime >= 1 && NonNeg(fin, padic.Low(), padic.Low() + padic.precision) {
        WinValNonNeg(fin, padic.prime, padic.Low(), padic.Low() + padic.precision);
      }
      return Failure(ReconstructionFailed);
    }
    y := Denominator(y, padic.prime, padic.valuation);
    // a complemented accumulator stands for a negative ratio
    if fl {
      x := -x;
    }
    r := New(x, y, 1);
  }

  /** The loop of convertToRatio that multiplies the count by p once per negative exponent. */
  method Denominator(count: int, prime: int, valuation: int) returns (y: int)
    ensures y == count * Pow(prime, Max0(-valuation))
    ensures count != 0 && prime != 0 ==> y != 0
  {
    y := count;
    var n := valuation;
    while n <= -1
      invariant valuation <= n && (n <= 0 || n == valuation)
      invariant y == count * Pow(prime, n - valuation)
    {
      PowStepMul(count, prime, n - valuation);
      y := y * prime;
      n := n + 1;
    }
    assert n - valuation == Max0(-valuation);
    if count != 0 && prime != 0 {
      PowNonZero(prime, Max0(-valuation));
      MulNonZero(count, Pow(prime, Max0(-valuation)));
    }
  }

  lemma PowStepMul(i: int, p: int, e: nat)
    ensures i * Pow(p, e) * p == i * Pow(p, e + 1)
  {
    assert Pow(p, e + 1) == p * Pow(p, e);
  }

  //------------------
  // Hensel expansion (Ratio.toPadic)
  //------------------

  /** Every argument check of toPadic passes on the reduced ratio a/b. */
  predicate Admissible(x: Ratio, prime: int, precision: int, maxArg: int)
  {
    x.Valid() &&
    var red := x.Reduce();
    Abs(red.Num()) <= maxArg && red.d <= maxArg && prime >= 2 && precision >= 1 && red.n != 0
  }

  /** Every digit is in [0, p), and the nonzero ones sit at exponents lo .. hi. */
  predicate Placed(e: seq<int>, p: int, lo: int, hi: int)
  {
    forall m :: 0 <= m < |e| ==> 0 <= e[m] < p && (e[m] != 0 ==> lo <= m - MAX_EXP <= hi)
  }

  /** The buffer toPadic fills: digits in [0, p), nonzero only at exponents v .. v+k. */
  predicate HenselDigits(e: seq<int>, p: int, v: int, k: int)
  {
    |e| == SIZE && Placed(e, p, v, v + k)
  }

  /**
   * The digits are the p-adic expansion of a0/b0 below exponent top: with
   * b0 == p^o * u and p not dividing u, a0 - u * (the digits from exponent -o
   * upward, read in base p) is a multiple of p^(top + o).
   */
  ghost predicate Approximates(e: seq<int>, p: int, a0: int, b0: int, top: int)
  {
    p >= 2 && b0 != 0 && top + Ord(p, b0) >= 0 &&
    Remainder(a0, PFree(p, b0), e, p, -(Ord(p, b0) as int), top + Ord(p, b0))
  }

  /**
   * toPadic: the reduced ratio a/b is checked, prime and precision are clipped
   * to maxPrime and MAX_EXP - 1, and the digits of a/b are produced from the
   * valuation upward, one per exponent, until the clipped precision, the end
   * of the buffer or a zero remainder.
   */
  method ToPadic(x: Ratio, prime: int, precision: int, maxArg: int, maxPrime: int) returns (r: Result<Padic>)
    requires x.Valid() && maxPrime >= 2 && maxArg < Pow(2, MAX_EXP)
    ensures var red := x.Reduce();
      (Abs(red.Num()) > maxArg || red.d > maxArg) ==> r == Failure(ValueOutOfRange)
    ensures var red := x.Reduce();
      Abs(red.Num()) <= maxArg && red.d <= maxArg && (prime < 2 || precision < 1) ==> r == Failure(InvalidParameter)
    ensures var red := x.Reduce();
      Abs(red.Num()) <= maxArg && red.d <= maxArg && prime >= 2 && precision >= 1 && red.n == 0 ==> r == Failure(ZeroOperand)
    ensures r.Failure? && Admissible(x, prime, precision, maxArg) ==>
      r.error == ImpossibleModInverse && !Prime(Min(prime, maxPrime))
    ensures r.Success? ==> fresh(r.value) && fresh(r.value.expansion)
    ensures r.Success? ==> (Admissible(x, prime, precision, maxArg) &&
      var red, p, pad := x.Reduce(), Min(prime, maxPrime), r.value;
      pad.prime == p && pad.precision == Min(precision, MAX_EXP - 1) &&
      pad.valuation == Mult(p, red.Num()) - Mult(p, red.d) &&
      HenselDigits(pad.expansion[..], p, pad.valuation, pad.precision) &&
      Approximates(pad.expansion[..], p, red.Num(), red.d, Min(pad.valuation + pad.precision + 1, MAX_EXP)))
  {
    var ratio := x.Reduce();
    var a := ratio.Num();
    var b := ratio.d as int;
    NumParts(ratio);
    if Abs(a) > maxArg || b > maxArg {
      return Failure(ValueOutOfRange);
    }
    if prime < 2 || precision < 1 {
      return Failure(InvalidParameter);
    }
    if a == 0 {
      return Failure(ZeroOperand);
    }
    var p := Min(prime, maxPrime);
    var k := Min(precision, MAX_EXP - 1);
    OrdBelow(p, a);
    OrdBelow(p, b);
    assert Admissible(x, prime, precision, maxArg);
    r := ExpandRatio(a, b, p, k);
  }
  /** Where Array.prototype.slice(0, end) stops on an array of length n. */
  function SliceEnd(n: nat, end: int): nat
  {
    if end < 0 then Max0(n + end) else Min(end, n)
  }

  /** A prefix of a chain is a chain from the same start. */
  lemma ChainPrefix(steps: seq<Step>, start: Ratio, p: int, m: nat)
    requires Chain(steps, start, p) && m <= |steps|
    ensures Chain(steps[..m], start, p)
  {
    var pre := steps[..m];
    forall k | 0 <= k < m ensures StepHolds(pre[k], p) {
      assert pre[k] == steps[k];
      assert StepHolds(steps[k], p);
    }
    forall k | 0 < k < m ensures pre[k].orig == pre[k - 1].next {
      assert pre[k] == steps[k];
    }
  }

  /** One turn of toPadicSteps' loop: next = (orig - digit) / prime, reduced, and the step pushed. */
  method PushStep(steps: seq<Step>, x: Ratio, prime: int, orig: Ratio, digit: int) returns (steps': seq<Step>, next: Ratio)
    requires orig.Valid() && Chain(steps, x, prime) && 0 <= digit < prime
    requires steps == [] ==> orig == x
    requires steps != [] ==> orig == steps[|steps| - 1].next
    ensures next == orig.Sub(Make(digit, 1, 1)).Div(Make(prime, 1, 1)).value.Reduce()
    ensures steps' == steps + [Step(digit, next, orig)]
    ensures next.Valid() && Gcd(next.n, next.d) == 1 && Chain(steps', x, prime)
  {
    ghost var next' := StepOfDivision(orig, digit, prime);
    next := orig.Sub(Make(digit, 1, 1)).Div(Make(prime, 1, 1)).value.Reduce();
    ChainExtend(steps, x, prime, Step(digit, next, orig));
    steps' := steps + [Step(digit, next, orig)];
  }

  /**
   * The loop of toPadicSteps: from orig = x, each digit d turns orig into
   * (orig - d) / prime, reduced, and records the step.
   */
  method StepsOf(x: Ratio, digits: seq<int>, prime: int) returns (steps: seq<Step>)
    requires x.Valid() && forall k :: 0 <= k < |digits| ==> 0 <= digits[k] < prime
    ensures |steps| == |digits| && Chain(steps, x, prime)
    ensures forall k :: 0 <= k < |steps| ==> steps[k].digit == digits[k] && Gcd(steps[k].next.n, steps[k].next.d) == 1
  {
    steps := [];
    var orig := x;
    var i := 0;
    while i < |digits|
      invariant 0 <= i <= |digits| && |steps| == i
      invariant orig.Valid() && Chain(steps, x, prime)
      invariant steps == [] ==> orig == x
      invariant steps != [] ==> orig == steps[|steps| - 1].next
      invariant forall k :: 0 <= k < i ==> steps[k].digit == digits[k] && Gcd(steps[k].next.n, steps[k].next.d) == 1
    {
      var next;
      steps, next := PushStep(steps, x, prime, orig, digits[i]);
      orig := next;
      i := i + 1;
    }
  }

  /**
   * toPadicSteps: the digits of toPadic(prime) at its default precision of
   * 64, each turned into the step orig -> (orig - digit) / prime, reduced,
   * starting from x itself, then the first precision steps as slice(0,
   * precision) keeps them. toPadic's errors pass through.
   */
  method ToPadicSteps(x: Ratio, prime: int, precision: int, maxArg: int, maxPrime: int) returns (r: Result<seq<Step>>)
    requires x.Valid() && maxPrime >= 2 && maxArg < Pow(2, MAX_EXP)
    ensures var red := x.Reduce();
      (Abs(red.Num()) > maxArg || red.d > maxArg) ==> r == Failure(ValueOutOfRange)
    ensures var red := x.Reduce();
      Abs(red.Num()) <= maxArg && red.d <= maxArg && prime < 2 ==> r == Failure(InvalidParameter)
    ensures var red := x.Reduce();
      Abs(red.Num()) <= maxArg && red.d <= maxArg && prime >= 2 && red.n == 0 ==> r == Failure(ZeroOperand)
    ensures r.Failure? && Admissible(x, prime, DEFAULT_PRECISION, maxArg) ==>
      r.error == ImpossibleModInverse && !Prime(Min(prime, maxPrime))
    ensures r.Success? ==>
      Admissible(x, prime, DEFAULT_PRECISION, maxArg) &&
      |r.value| == SliceEnd(MAX_EXP - 1, precision) && Chain(r.value, x, prime)
    ensures r.Success? ==> forall k :: 0 <= k < |r.value| ==> r.value[k].digit < Min(prime, maxPrime)
  {
    var padic := ToPadic(x, prime, DEFAULT_PRECISION, maxArg, maxPrime);
    if padic.Failure? {
      return Failure(padic.error);
    }
    var pad := padic.value;
    var digits := Digits(pad, x, prime, maxArg, maxPrime);
    var steps := StepsOf(x, digits, prime);
    var end := SliceEnd(|steps|, precision);
    ChainPrefix(steps, x, prime, end);
    r := Success(steps[..end]);
  }

  /** The valuation toPadic computes leaves room for 63 digits from min(valuation, 0). */
  lemma ValuationFits(p: int, num: int, d: int, v: int)
    requires p >= 2 && num != 0 && d >= 1 && Abs(num) < Pow(2, MAX_EXP) && d < Pow(2, MAX_EXP)
    requires v == Mult(p, num) - Mult(p, d)
    ensures Fits(Min(v, 0), MAX_EXP - 2)
  {
    OrdBelow(p, Abs(num));
    OrdBelow(p, d);
  }

  /** toPadic(prime).toArray() for a p-adic toPadic returned: 63 digits, each below the clipped prime. */
  method Digits(pad: Padic, ghost x: Ratio, ghost prime: int, ghost maxArg: int, ghost maxPrime: int) returns (digits: seq<int>)
    requires x.Valid() && maxPrime >= 2 && maxArg < Pow(2, MAX_EXP) && Admissible(x, prime, DEFAULT_PRECISION, maxArg)
    requires var red, p := x.Reduce(), Min(prime, maxPrime);
      pad.prime == p && pad.precision == MAX_EXP - 1 &&
      pad.valuation == Mult(p, red.Num()) - Mult(p, red.d) &&
      HenselDigits(pad.expansion[..], p, pad.valuation, pad.precision)
    ensures |digits| == MAX_EXP - 1
    ensures forall k :: 0 <= k < |digits| ==> 0 <= digits[k] < Min(prime, maxPrime)
  {
    ghost var red := x.Reduce();
    NumParts(red);
    ValuationFits(Min(prime, maxPrime), red.Num(), red.d, pad.valuation);
    digits := pad.ToArray();
    forall k | 0 <= k < |digits| ensures 0 <= digits[k] < Min(prime, maxPrime) {
      assert digits[k] == Digit(pad.expansion[..], pad.Low() + k);
    }
  }



  /**
   * toPadic past its argument checks, for a/b with the clipped prime and
   * precision: p is divided out of b, b is inverted modulo p and the digits
   * are expanded.
   */
  method ExpandRatio(a: int, b: int, p: int, k: int) returns (r: Result<Padic>)
    requires 2 <= p && 1 <= k < MAX_EXP && a != 0 && b >= 1
    requires Ord(p, a) < MAX_EXP && Ord(p, b) < MAX_EXP
    ensures r.Failure? ==> r.error == ImpossibleModInverse && !Prime(p)
    ensures r.Success? ==> fresh(r.value) && fresh(r.value.expansion)
    ensures r.Success? ==>
      var pad := r.value;
      pad.prime == p && pad.precision == k &&
      pad.valuation == Mult(p, a) - Mult(p, b) &&
      HenselDigits(pad.expansion[..], p, pad.valuation, k) &&
      Approximates(pad.expansion[..], p, a, b, Min(pad.valuation + k + 1, MAX_EXP))
  {
    // strip p from b; i is minus the exponent taken out
    var b', o := Strip(b, p);
    var i: int := -(o as int);

    // an inverse of the stripped b modulo p
    var rem := b' % p;
    DivModUnique(rem, p, 0, rem);
    var inv := ModInv(rem, p);
    if inv.Failure? {
      assert !Prime(p) by {
        if Prime(p) {
          GcdWithPrime(rem, p);
          var y := InverseExists(rem, p);
          assert false;
        }
      }
      return Failure(inv.error);
    }
    var valuation, expansion := Expand(a, b', inv.value, p, k, i);
    if a < 0 {
      OrdNeg(p, a);
    }
    assert valuation == Mult(p, a) - Mult(p, b);
    assert Approximates(expansion[..], p, a, b, Min(valuation + k + 1, MAX_EXP));
    var pad := new Padic(p, k, valuation, expansion);
    r := Success(pad);
  }

  /**
   * The digit loop of toPadic for a0 / (p^-s * b), b prime to p and b1 its
   * inverse modulo p, run until a pass breaks out.
   */
  method Expand(a0: int, b: int, b1: int, p: int, k: int, s: int) returns (valuation: int, expansion: array<int>)
    requires 2 <= p && 1 <= k < MAX_EXP && -MAX_EXP < s <= 0
    requires a0 != 0 && Ord(p, a0) < MAX_EXP && b % p != 0 && ((b % p) * b1) % p == 1
    ensures fresh(expansion)
    ensures valuation == s + Ord(p, a0)
    ensures HenselDigits(expansion[..], p, valuation, k)
    ensures valuation >= s && Remainder(a0, b, expansion[..], p, s, Min(valuation + k + 1, MAX_EXP) - s)
  {
    var a, i := a0, s;
    valuation := MAX_EXP;
    expansion := new int[SIZE](_ => 0);
    ExpandingStart(expansion[..], a0, b, b1, p, k, s);
    while true
      invariant expansion.Length == SIZE
      invariant Expanding(expansion[..], a0, b, b1, p, k, s, a, i, valuation)
      decreases MAX_EXP - i + (if valuation == MAX_EXP then 1 else 0)
    {
      var stop;
      a, i, valuation, stop := ExpandStep(expansion, a, i, valuation, b, b1, p, k, a0, s);
      if stop {
        break;
      }
    }
  }

  /**
   * What holds at the head of toPadic's digit loop: the digits written so far
   * (from exponent s) and the remainder a, owed at exponent i, make up a0;
   * before the first pass the valuation is the sentinel MAX_EXP, afterwards it
   * is fixed and p divides the remainder.
   */
  ghost predicate Expanding(e: seq<int>, a0: int, b: int, b1: int, p: int, k: int, s: int, a: int, i: int, v: int)
  {
    |e| == SIZE && 2 <= p && 1 <= k < MAX_EXP && -MAX_EXP < s <= 0 && s <= i < MAX_EXP && a != 0 && a0 != 0 &&
    Ord(p, a0) < MAX_EXP && b % p != 0 && ((b % p) * b1) % p == 1 &&
    a0 == b * WinVal(e, p, s, MAX_EXP) + a * Pow(p, i - s) &&
    (v == MAX_EXP ==> i == s && a == a0) &&
    (v != MAX_EXP ==> v == s + Ord(p, a0) && v <= i && a % p == 0) &&
    Placed(e, p, v, Min(i, v + k))
  }

  /** Before the first pass: an all-zero buffer, the whole of a0 owed at exponent s. */
  lemma ExpandingStart(e: seq<int>, a0: int, b: int, b1: int, p: int, k: int, s: int)
    requires |e| == SIZE && forall m :: 0 <= m < |e| ==> e[m] == 0
    requires 2 <= p && 1 <= k < MAX_EXP && -MAX_EXP < s <= 0
    requires a0 != 0 && Ord(p, a0) < MAX_EXP && b % p != 0 && ((b % p) * b1) % p == 1
    ensures Expanding(e, a0, b, b1, p, k, s, a0, s, MAX_EXP)
  {
    WinValZero(e, p, s, MAX_EXP);
  }

  /**
   * One pass of toPadic's digit loop: strip p from the remainder, fix the
   * valuation on the first pass, stop at the end of the buffer or past the
   * precision, write the digit and take digit * b off the remainder, stop
   * when it is zero. A pass that goes on moves i up (or fixes the valuation).
   */
  method ExpandStep(expansion: array<int>, a: int, i: int, valuation: int, b: int, b1: int, p: int, k: int,
                    ghost a0: int, ghost s: int)
    returns (a': int, i': int, valuation': int, stop: bool)
    requires Expanding(expansion[..], a0, b, b1, p, k, s, a, i, valuation)
    modifies expansion
    ensures stop ==> (valuation' == s + Ord(p, a0) && HenselDigits(expansion[..], p, valuation', k) &&
      valuation' >= s && Remainder(a0, b, expansion[..], p, s, Min(valuation' + k + 1, MAX_EXP) - s))
    ensures !stop ==> Expanding(expansion[..], a0, b, b1, p, k, s, a', i', valuation') && valuation' != MAX_EXP
    ensures !stop ==> i' > i || (i' >= i && valuation == MAX_EXP)
  {
    // strip p from the remainder
    var e;
    a', e := Strip(a, p);
    StripValue(a0, b * WinVal(expansion[..], p, s, MAX_EXP), a, a', p, e, i - s);
    i' := i + e;

    valuation' := valuation;
    if valuation' == MAX_EXP {
      assert a == a0 && i == s;
      valuation' := i';
    }
    assert valuation' <= valuation && Min(i, valuation + k) <= valuation' + k;
    ghost var n: nat := Min(valuation' + k + 1, MAX_EXP) - s;
    PlacedWiden(expansion[..], p, valuation, Min(i, valuation + k), valuation', valuation' + k);

    // stop at the end of the buffer, or past the precision
    if i' >= MAX_EXP || i' - valuation' > k {
      Settled(a0, b, expansion[..], p, s, n, a', i' - s);
      return a', i', valuation', true;
    }

    // write the next digit, and take digit * b off the remainder
    ghost var before := expansion[..];
    PlacedZero(before, p, valuation, Min(i, valuation + k), i');
    PlacedWiden(before, p, valuation, Min(i, valuation + k), valuation', i');
    a' := NextDigit(expansion, i', a', b, b1, p, a0, s);
    PlacedUpdate(before, p, valuation', i', i', expansion[i' + MAX_EXP]);
    if a' == 0 {
      Settled(a0, b, expansion[..], p, s, n, a', i' - s);
      PlacedWiden(expansion[..], p, valuation', i', valuation', valuation' + k);
      return a', i', valuation', true;
    }
    stop := false;
  }

  lemma PlacedWiden(e: seq<int>, p: int, lo: int, hi: int, lo': int, hi': int)
    requires Placed(e, p, lo, hi) && lo' <= lo && hi <= hi'
    ensures Placed(e, p, lo', hi')
  {
  }

  /** A digit outside the placed exponents is zero. */
  lemma PlacedZero(e: seq<int>, p: int, lo: int, hi: int, j: int)
    requires Placed(e, p, lo, hi) && (j < lo || hi < j)
    ensures Digit(e, j) == 0
  {
  }

  lemma PlacedUpdate(e: seq<int>, p: int, lo: int, hi: int, j: int, d: int)
    requires Placed(e, p, lo, hi) && lo <= j <= hi && 0 <= d < p && 0 <= j + MAX_EXP < |e|
    ensures Placed(e[j + MAX_EXP := d], p, lo, hi)
  {
  }

  /** a0 - b * (the digits from exponent s upward) is a multiple of p^n. */
  ghost predicate Remainder(a0: int, b: int, e: seq<int>, p: int, s: int, n: nat)
  {
    Divides(Pow(p, n), a0 - b * WinVal(e, p, s, MAX_EXP))
  }

  /** When the loop stops, the remainder a * p^t still owed is a multiple of p^n. */
  lemma Settled(a0: int, b: int, e: seq<int>, p: int, s: int, n: nat, a: int, t: nat)
    requires a0 == b * WinVal(e, p, s, MAX_EXP) + a * Pow(p, t) && (n <= t || a == 0)
    ensures Remainder(a0, b, e, p, s, n)
  {
    if n <= t {
      PowDivides(p, n, t, a);
    } else {
      DividesMul(Pow(p, n), 0);
    }
  }

  /**
   * One digit of toPadic: d = a * b1 mod p (plus p when the JavaScript
   * remainder is negative) goes to exponent i, and d * b comes off the
   * remainder, which p then divides.
   */
  method NextDigit(expansion: array<int>, i: int, a: int, b: int, b1: int, p: int, ghost a0: int, ghost s: int)
    returns (a': int)
    requires 2 <= p && s <= i && -MAX_EXP <= i < MAX_EXP && expansion.Length == SIZE
    requires ((b % p) * b1) % p == 1 && Digit(expansion[..], i) == 0
    requires a0 == b * WinVal(expansion[..], p, s, MAX_EXP) + a * Pow(p, i - s)
    modifies expansion
    ensures expansion[..] == old(expansion[..])[i + MAX_EXP := (a * b1) % p]
    ensures a' == a - ((a * b1) % p) * b && a' % p == 0
    ensures a0 == b * WinVal(expansion[..], p, s, MAX_EXP) + a' * Pow(p, i - s)
  {
    ghost var before := expansion[..];
    expansion[i + MAX_EXP] := JsRem(a * b1, p);
    if expansion[i + MAX_EXP] < 0 {
      expansion[i + MAX_EXP] := expansion[i + MAX_EXP] + p;
    }
    JsRemNormalised(a * b1, p);
    var digit := expansion[i + MAX_EXP];
    assert expansion[..] == before[i + MAX_EXP := digit];
    WinValUpdate(before, p, s, MAX_EXP, i, digit);
    WriteValue(a0, b, WinVal(before, p, s, MAX_EXP), a, digit, Pow(p, i - s));
    HenselStep(a, b, b1, p);
    a' := a - expansion[i + MAX_EXP] * b;
  }

  /** A number below 2^64 in magnitude has fewer than 64 factors p. */
  lemma OrdBelow(p: int, x: int)
    requires p >= 2 && x != 0 && Abs(x) < Pow(2, MAX_EXP)
    ensures Ord(p, x) < MAX_EXP
  {
    OrdBound(p, x);
    PowBaseMonotone(2, p, MAX_EXP);
    if Ord(p, x) >= MAX_EXP {
      PowMonotone(p, MAX_EXP, Ord(p, x));
    }
  }

  lemma {:induction false} WinValZero(e: seq<int>, p: int, lo: int, hi: int)
    requires forall m :: 0 <= m < |e| ==> e[m] == 0
    ensures WinVal(e, p, lo, hi) == 0
    decreases hi - lo
  {
    if lo < hi {
      WinValZero(e, p, lo + 1, hi);
    }
  }

  /** Dividing p^e out of the remainder moves it e exponents up. */
  lemma StripValue(a0: int, bw: int, a: int, y: int, p: int, e: nat, n: nat)
    requires a0 == bw + a * Pow(p, n) && a == Pow(p, e) * y
    ensures a0 == bw + y * Pow(p, n + e)
  {
    var pe, pn := Pow(p, e), Pow(p, n);
    PowAdd(p, e, n);
    assert Pow(p, n + e) == pe * pn;
    assert a * pn == (pe * y) * pn;
    assert (pe * y) * pn == y * (pe * pn);
  }

  /** Writing digit d at weight q and taking d * b off the remainder keeps the total. */
  lemma WriteValue(a0: int, b: int, w: int, a: int, d: int, q: int)
    requires a0 == b * w + a * q
    ensures a0 == b * (w + d * q) + (a - d * b) * q
  {
    assert b * (w + d * q) == b * w + (d * b) * q;
    assert (a - d * b) * q == a * q - (d * b) * q;
  }

  /**
   * The digit d = a * b1 mod p, with b1 the inverse of b modulo p, makes
   * a - d * b divisible by p.
   */
  lemma HenselStep(a: int, b: int, b1: int, p: int)
    requires p >= 2 && ((b % p) * b1) % p == 1
    ensures (a - ((a * b1) % p) * b) % p == 0
  {
    var d := (a * b1) % p;
    var q1 := (a * b1) / p;
    var r, q3 := b % p, b / p;
    var q2 := (r * b1) / p;
    assert a * b1 == p * q1 + d;
    assert r * b1 == p * q2 + 1;
    assert b == p * q3 + r;
    assert d * b == p * (d * q3) + d * r;
    assert d * r == a * (r * b1) - p * (q1 * r) by {
      assert d == a * b1 - p * q1;
      assert (a * b1 - p * q1) * r == a * (r * b1) - p * (q1 * r);
    }
    assert a * (r * b1) == p * (a * q2) + a;
    var c := q1 * r - d * q3 - a * q2;
    assert a - d * b == p * c;
    DivModUnique(a - d * b, p, c, 0);
  }

  /** a * p^m is a multiple of p^n when n <= m. */
  lemma PowDivides(p: int, n: nat, m: nat, a: int)
    requires n <= m
    ensures Divides(Pow(p, n), a * Pow(p, m))
  {
    var pn, pd := Pow(p, n), Pow(p, m - n);
    PowAdd(p, n, m - n);
    assert Pow(p, m) == pn * pd;
    MulRegroup(a, pn, pd);
    DividesMul(pn, pd * a);
  }

  lemma MulRegroup(a: int, x: int, y: int)
    ensures a * (x * y) == x * (y * a)
  {
  }
}

=== FILE: ratio.dfy ===
/**
 * The Ratio class of the engine (src/engine/Ratio.ts): an immutable signed
 * rational sign * n / d with n, d >= 0. Every operation builds a new Ratio
 * through the constructor, which folds the signs of its three arguments into
 * `sign` and keeps n and d unreduced.
 */
module Ratios {
  import opened NumberTheory
  import opened Text
  import opened Wrappers
  import opened Helpers

  datatype Ratio = Ratio(n: nat, d: nat, sign: int)
  {
    /** What the constructor guarantees: a nonzero denominator, a unit sign, zero positive. */
    predicate Valid()
    {
      d >= 1 && (sign == 1 || sign == -1) && (n == 0 ==> sign == 1)
    }

    /** The rational number the ratio stands for. */
    function Value(): real
      requires d != 0
    {
      (sign * n) as real / d as real
    }

    /** sign * n, the signed numerator. */
    function Num(): int
    {
      sign * n
    }

    //------------------
    // Operations on one ratio
    //------------------

    /** neg: the same n and d with the sign flipped. */
    function Neg(): (r: Ratio)
      requires Valid()
      ensures r.Valid() && r.n == n && r.d == d
      ensures r.Value() == -Value()
    {
      Make(n, d, -sign)
    }

    /** abs: the same n and d with sign +1. */
    function Abs(): (r: Ratio)
      requires Valid()
      ensures r.Valid() && r.n == n && r.d == d && r.sign == 1
      ensures r.Value() == if Value() < 0.0 then -Value() else Value()
    {
      Make(n, d, 1)
    }

    /** inverse: d / n with the sign kept; "Can't divide by 0." when n is 0. */
    function Inverse(): (r: Result<Ratio>)
      requires Valid()
      ensures r.Failure? <==> n == 0
      ensures r.Failure? ==> r.error == DivisionByZero
      ensures r.Success? ==> r.value.Valid() && r.value.n == d && r.value.d == n && r.value.sign == sign
      ensures r.Success? ==> r.value.Value() * Value() == 1.0
    {
      var r := New(sign * d, n, 1);
      if r.Success? then
        FracProduct(sign * d, n, sign * n, d);
        r
      else r
    }

    /** reduce: n and d divided by their gcd. */
    function Reduce(): (r: Ratio)
      requires Valid()
      ensures r.Valid() && r.Value() == Value() && Gcd(r.n, r.d) == 1
      ensures r.sign == sign
    {
      var c := Gcd(n, d);
      ReducedCoprime(n, d);
      ReducedValue(n, d, sign);
      Make(n / c, d / c, sign)
    }

    /** clone: a copy with the same fields. */
    function Clone(): (r: Ratio)
      requires Valid()
      ensures r == this
    {
      Make(n, d, sign)
    }

    //------------------
    // Operations on two ratios
    //------------------

    /** add: cross-multiplied, not reduced. */
    function Add(b: Ratio): (r: Ratio)
      requires Valid() && b.Valid()
      ensures r.Valid() && r.d == d * b.d
      ensures r.Value() == Value() + b.Value()
    {
      MulAtLeast(d, b.d, 1, 1);
      FracSum(Num(), d, b.Num(), b.d);
      assert sign * n * b.d + b.sign * d * b.n == Num() * b.d + d * b.Num();
      Make(sign * n * b.d + b.sign * d * b.n, d * b.d, 1)
    }

    /** sub: cross-multiplied, not reduced. */
    function Sub(b: Ratio): (r: Ratio)
      requires Valid() && b.Valid()
      ensures r.Valid() && r.d == d * b.d
      ensures r.Value() == Value() - b.Value()
    {
      MulAtLeast(d, b.d, 1, 1);
      FracDiff(Num(), d, b.Num(), b.d);
      assert sign * n * b.d - b.sign * d * b.n == Num() * b.d - d * b.Num();
      Make(sign * n * b.d - b.sign * d * b.n, d * b.d, 1)
    }

    /** mul: numerators and denominators multiplied, not reduced. */
    function Mul(b: Ratio): (r: Ratio)
      requires Valid() && b.Valid()
      ensures r.Valid() && r.n == n * b.n && r.d == d * b.d
      ensures r.Value() == Value() * b.Value()
    {
      MulAtLeast(d, b.d, 1, 1);
      FracProduct(Num(), d, b.Num(), b.d);
      assert sign * b.sign * n * b.n == Num() * b.Num();
      Make(sign * b.sign * n * b.n, d * b.d, 1)
    }

    /** div: multiplication by the inverse, not reduced; fails when b is zero. */
    function Div(b: Ratio): (r: Result<Ratio>)
      requires Valid() && b.Valid()
      ensures r.Failure? <==> b.n == 0
      ensures r.Failure? ==> r.error == DivisionByZero
      ensures r.Success? ==> r.value.Valid() && r.value.n == n * b.d && r.value.d == d * b.n
      ensures r.Success? ==> r.value.Value() * b.Value() == Value()
    {
      if b.n == 0 then New(sign * b.sign * n * b.d, d * b.n, 1)
      else
        QuotientParts(n, d, sign, b.n, b.d, b.sign);
        New(sign * b.sign * n * b.d, d * b.n, 1)
    }

    /** distance: |this - b| in lowest terms. */
    function Distance(b: Ratio): (r: Ratio)
      requires Valid() && b.Valid()
      ensures r.Valid() && Gcd(r.n, r.d) == 1
      ensures r.Value() == if Value() - b.Value() < 0.0 then b.Value() - Value() else Value() - b.Value()
    {
      Sub(b).Reduce().Abs()
    }

    /** equals: the reduced forms print the same, which happens exactly when the two ratios denote the same rational number. */
    function Equals(b: Ratio): (r: bool)
      requires Valid() && b.Valid()
      ensures r <==> Value() == b.Value()
    {
      ReducedTextIffSameValue(this, b);
      Reduce().ToString() == b.Reduce().ToString()
    }

    //------------------
    // Factors and p-adic operations
    //------------------

    /** generateFactors: the exponent map of n/d, which the constructor stores as `factors`. */
    method GenerateFactors() returns (r: map<int, int>)
      ensures forall q :: q in r ==> Prime(q) && r[q] != 0
      ensures forall q :: Prime(q) ==> Exp(r, q) == RatioExp(q, n, d)
    {
      r := RatioFactors(n, d);
    }

    /** factorsArray: the factor pairs in ascending order of the prime. */
    method FactorsArray() returns (r: seq<(int, int)>)
      ensures Ascending(r)
      ensures forall i :: 0 <= i < |r| ==> Prime(r[i].0) && r[i].1 == RatioExp(r[i].0, n, d) != 0
      ensures forall q :: Prime(q) && RatioExp(q, n, d) != 0 ==> q in PairKeys(r)
    {
      r := RatioFactorsArray(n, d);
    }

    /**
     * reconstructWithoutPrime: the positive ratio left once every factor of the
     * prime is removed from n/d: every other prime keeps its exponent, on the
     * side its sign says. Multiplying p^e back in for the exponent e of p gives
     * |n/d|; for a non-prime argument nothing is removed, and for n == 0 the
     * result is 1 over d without the prime.
     */
    method ReconstructWithoutPrime(prime: int) returns (r: Ratio)
      ensures r.Valid() && r.n >= 1 && r.sign == 1 && Gcd(r.n, r.d) == 1
      ensures Prime(prime) ==> Ord(prime, r.n) == 0 && Ord(prime, r.d) == 0
      ensures Prime(prime) && n != 0 && d != 0 ==>
        n * r.d * Pow(prime, Max0(-RatioExp(prime, n, d))) == r.n * Pow(prime, Max0(RatioExp(prime, n, d))) * d
      ensures !Prime(prime) && n != 0 && d != 0 ==> n * r.d == r.n * d
      ensures n == 0 ==> r.n == 1
      ensures forall q :: Prime(q) ==> Ord(q, r.n) == if q == prime then 0 else Max0(RatioExp(q, n, d))
      ensures forall q :: Prime(q) ==> Ord(q, r.d) == if q == prime then 0 else Max0(-RatioExp(q, n, d))
    {
      var num, denum := RatioNormReconstruct(n, d, prime);
      r := Make(num, denum, 1);
      CoprimeByOrders(num, denum);
      if n != 0 && d != 0 {
        if Prime(prime) {
          NormReconstructValue(n, d, prime, num, denum);
        } else {
          NormReconstructWhole(n, d, prime, num, denum);
        }
      }
      if n == 0 {
        NormReconstructZero(d, prime, num);
      }
    }

    /** isFactor: whether the prime is a key of the factor map. */
    method IsFactor(prime: int) returns (b: bool)
      ensures b <==> Prime(prime) && RatioExp(prime, n, d) != 0
    {
      var facs := GenerateFactors();
      b := prime in facs;
    }

    /** factor: [prime, its exponent in n/d], with 0 when it is not a factor. */
    method Factor(prime: int) returns (pair: (int, int))
      ensures pair.0 == prime
      ensures pair.1 == if Prime(prime) then RatioExp(prime, n, d) else 0
    {
      var facs := GenerateFactors();
      if prime in facs {
        return (prime, facs[prime]);
      }
      return (prime, 0);
    }

    /** padicValuation: ord_p(n) - ord_p(d). */
    method PadicValuation(prime: int) returns (v: int)
      ensures v == if Prime(prime) then RatioExp(prime, n, d) else 0
    {
      var f := Factor(prime);
      v := f.1;
    }

    /** padicAbs: |n/d|_p, that is 0 for zero and p^-v otherwise. */
    method PadicAbs(prime: int) returns (r: Ratio)
      requires Valid()
      ensures r.Valid() && Gcd(r.n, r.d) == 1
      ensures Prime(prime) ==> r.Value() == NormP(this, prime)
      ensures !Prime(prime) ==> r.Value() == if n == 0 then 0.0 else 1.0
    {
      var pValuation := PadicValuation(prime);
      var res := Pow(prime, Helpers.Abs(pValuation));
      if n == 0 {
        r := Make(0, 1, 1);
      } else if pValuation > 0 {
        r := Make(1, res, 1);
        GcdOfOne(res);
      } else {
        r := Make(res, 1, 1);
        GcdWithOne(res);
      }
    }

    /** padicDistance: |this - b|_p, computed on the reduced distance. */
    method PadicDistance(b: Ratio, p: int) returns (r: Ratio)
      requires Valid() && b.Valid()
      ensures r.Valid()
      ensures Prime(p) ==> r.Value() == NormP(Sub(b), p)
    {
      var dist := Distance(b);
      r := dist.PadicAbs(p);
      if Prime(p) {
        var diff := Sub(b);
        var red := diff.Reduce();
        ValuationOfValue(red, diff, p);
        assert dist.n == red.n && dist.d == red.d;
      }
    }

    /**
     * nextPadicRatio: the first digit i in [0, p) and k in [0, d] with
     * i + p * (-k/d) equal to this; "Can't compute next digit" when there is none.
     */
    method NextPadicRatio(prime: int) returns (r: Result<Step>)
      requires Valid()
      ensures r.Success? ==> r.value.orig == this && StepHolds(r.value, prime)
      ensures r.Failure? ==> r.error == NoNextDigit
      ensures r.Failure? ==> forall i, k :: 0 <= i < prime && 0 <= k <= d ==> Candidate(i, k, prime, d) != Value()
    {
      var i := 0;
      while i < prime
        invariant 0 <= i && (i <= prime || prime < 0)
        invariant forall i', k :: 0 <= i' < i && 0 <= k <= d ==> Candidate(i', k, prime, d) != Value()
      {
        var digit := Make(i, 1, 1);
        for k := 0 to d + 1
          invariant forall k' :: 0 <= k' < k ==> Candidate(i, k', prime, d) != Value()
        {
          var newRatio := Make(k, d, -1);
          if Matches(i, k, prime) {
            StepFound(i, k, prime);
            return Success(Step(digit.n, newRatio, this));
          }
        }
        i := i + 1;
      }
      return Failure(NoNextDigit);
    }

    /** The test of nextPadicRatio, digit.add(pRatio.mul(newRatio)).equals(this), which compares values. */
    function Matches(i: int, k: nat, prime: int): (b: bool)
      requires Valid()
      ensures b <==> Candidate(i, k, prime, d) == Value()
    {
      var candidate := Make(i, 1, 1).Add(Make(prime, 1, 1).Mul(Make(k, d, -1)));
      CandidateValue(i, k, prime, d);
      candidate.Equals(this)
    }

    lemma StepFound(i: nat, k: nat, prime: int)
      requires Valid() && i < prime && Candidate(i, k, prime, d) == Value()
      ensures StepHolds(Step(Make(i, 1, 1).n, Make(k, d, -1), this), prime)
    {
      StepValue(i, k, prime, d);
    }

    /** toPadicExpansion: precision steps of nextPadicRatio, each from the previous next. */
    method ToPadicExpansion(prime: int, precision: int) returns (r: Result<seq<Step>>)
      requires Valid()
      ensures r.Success? ==> |r.value| == Max0(precision) && Chain(r.value, this, prime)
      ensures r.Failure? ==> r.error == NoNextDigit
    {
      var result: seq<Step> := [];
      var ratio := Clone();
      var i := 0;
      while i < precision
        invariant 0 <= i <= Max0(precision) && i == |result|
        invariant ratio.Valid() && Chain(result, this, prime)
        invariant result != [] ==> ratio == result[|result| - 1].next
        invariant result == [] ==> ratio == this
      {
        var nextDigit := ratio.NextPadicRatio(prime);
        if nextDigit.Failure? {
          return Failure(nextDigit.error);
        }
        ChainExtend(result, this, prime, nextDigit.value);
        result := result + [nextDigit.value];
        ratio := nextDigit.value.next;
        i := i + 1;
      }
      return Success(result);
    }

    //------------------
    // Printing
    //------------------

    /** toString: "0", or an optional "-", n, and "/d" when d is not 1. */
    function ToString(): (s: string)
      ensures |s| >= 1
      ensures s == "0" <==> n == 0
      ensures s[0] == '-' <==> n != 0 && sign < 0
    {
      if n == 0 then "0" else
        NatToStringOfPositive(n);
        (if sign < 0 then "-" else "") + Fraction(n, d)
    }
  }

  /** One line of an expansion: orig = digit + p * next, with the digit in [0, p). */
  datatype Step = Step(digit: int, next: Ratio, orig: Ratio)

  predicate StepHolds(s: Step, p: int)
  {
    s.orig.Valid() && s.next.Valid() && 0 <= s.digit < p &&
    SplitsAs(s.orig, s.digit as real, p as real, s.next)
  }

  /** orig == d + p * next, as rational numbers. */
  predicate SplitsAs(orig: Ratio, d: real, p: real, next: Ratio)
    requires orig.d != 0 && next.d != 0
  {
    orig.Value() == d + p * next.Value()
  }

  /** Steps that each hold and start where the previous one ended, from start. */
  predicate Chain(steps: seq<Step>, start: Ratio, p: int)
  {
    (forall k {:trigger StepHolds(steps[k], p)} :: 0 <= k < |steps| ==> StepHolds(steps[k], p)) &&
    (steps != [] ==> steps[0].orig == start) &&
    (forall k {:trigger steps[k].orig} :: 0 < k < |steps| ==> steps[k].orig == steps[k - 1].next)
  }

  lemma ChainExtend(steps: seq<Step>, start: Ratio, p: int, s: Step)
    requires Chain(steps, start, p) && StepHolds(s, p)
    requires steps == [] ==> s.orig == start
    requires steps != [] ==> s.orig == steps[|steps| - 1].next
    ensures Chain(steps + [s], start, p)
  {
    var steps' := steps + [s];
    assert forall k :: 0 <= k < |steps| ==> steps'[k] == steps[k];
  }

  /** Digits read in base p, the first one lowest. */
  function BaseValue(ds: seq<int>, p: int): int
  {
    if ds == [] then 0 else ds[0] + p * BaseValue(ds[1..], p)
  }

  function Digits(steps: seq<Step>): (ds: seq<int>)
    ensures |ds| == |steps| && forall k {:trigger ds[k]} :: 0 <= k < |steps| ==> ds[k] == steps[k].digit
  {
    if steps == [] then [] else [steps[0].digit] + Digits(steps[1..])
  }

  /** A chain without its first step is a chain from where that step ends. */
  lemma ChainTail(steps: seq<Step>, start: Ratio, p: int)
    requires Chain(steps, start, p) && |steps| >= 1
    ensures Chain(steps[1..], steps[0].next, p)
  {
    var rest := steps[1..];
    forall k | 0 < k < |rest| ensures rest[k].orig == rest[k - 1].next {
      assert rest[k] == steps[k + 1];
    }
  }

  /** The first step of a chain, read over the reals. */
  lemma FirstStep(steps: seq<Step>, start: Ratio, p: int)
    requires Chain(steps, start, p) && |steps| >= 1
    ensures start.Valid() && steps[0].next.Valid()
    ensures start.Value() == steps[0].digit as real + p as real * steps[0].next.Value()
  {
    assert StepHolds(steps[0], p);
  }

  /** Where a chain from start ends: the ratio its last step leaves, or start when it has none. */
  function End(steps: seq<Step>, start: Ratio): Ratio
  {
    if steps == [] then start else End(steps[1..], steps[0].next)
  }

  lemma {:induction false} EndIsLast(steps: seq<Step>, start: Ratio)
    requires steps != []
    ensures End(steps, start) == steps[|steps| - 1].next
  {
    if |steps| > 1 {
      EndIsLast(steps[1..], steps[0].next);
    }
  }

  /** BaseValue and Pow over the reals, where the telescoping argument is made. */
  ghost function BaseReal(ds: seq<int>, p: real): real
  {
    if ds == [] then 0.0 else ds[0] as real + p * BaseReal(ds[1..], p)
  }

  ghost function PowReal(p: real, n: nat): real
  {
    if n == 0 then 1.0 else p * PowReal(p, n - 1)
  }

  lemma {:induction false} BaseCast(ds: seq<int>, p: int)
    ensures BaseReal(ds, p as real) == BaseValue(ds, p) as real
  {
    if ds != [] {
      BaseCast(ds[1..], p);
      CastLinear(ds[0], p, BaseValue(ds[1..], p));
    }
  }

  lemma {:induction false} PowCast(p: int, n: nat)
    ensures PowReal(p as real, n) == Pow(p, n) as real
  {
    if n > 0 {
      PowCast(p, n - 1);
      CastLinear(0, p, Pow(p, n - 1));
    }
  }

  lemma CastLinear(d: int, p: int, h: int)
    ensures (d + p * h) as real == d as real + p as real * h as real
  {
  }

  lemma DigitsTail(steps: seq<Step>)
    requires steps != []
    ensures Digits(steps)[0] == steps[0].digit && Digits(steps)[1..] == Digits(steps[1..])
  {
  }

  /** v0 = d + p * v1 and v1 = h + P * vn give v0 = (d + p * h) + (p * P) * vn. */
  lemma RealUnroll(v0: real, d: real, p: real, h: real, big: real, v1: real, vn: real, whole: real, pn: real)
    requires v0 == d + p * v1 && v1 == h + big * vn && whole == d + p * h && pn == p * big
    ensures v0 == whole + pn * vn
  {
    assert p * (h + big * vn) == p * h + (p * big) * vn;
  }

  /** ChainValue over the reals. */
  lemma {:induction false} ChainValueReal(steps: seq<Step>, start: Ratio, p: int)
    requires Chain(steps, start, p) && start.Valid()
    ensures End(steps, start).Valid()
    ensures start.Value() == BaseReal(Digits(steps), p as real) + PowReal(p as real, |steps|) * End(steps, start).Value()
  {
    if steps != [] {
      FirstStep(steps, start, p);
      ChainTail(steps, start, p);
      ChainValueReal(steps[1..], steps[0].next, p);
      DigitsTail(steps);
      assert End(steps, start) == End(steps[1..], steps[0].next);
      RealUnroll(start.Value(), steps[0].digit as real, p as real, BaseReal(Digits(steps[1..]), p as real), PowReal(p as real, |steps[1..]|),
        steps[0].next.Value(), End(steps, start).Value(), BaseReal(Digits(steps), p as real), PowReal(p as real, |steps|));
    }
  }

  /**
   * What a chain of n steps from start means: start is the digits read in base
   * p plus p^n times the ratio where the chain ends.
   */
  lemma ChainValue(steps: seq<Step>, start: Ratio, p: int)
    requires Chain(steps, start, p) && start.Valid()
    ensures End(steps, start).Valid()
    ensures start.Value() == BaseValue(Digits(steps), p) as real + Pow(p, |steps|) as real * End(steps, start).Value()
  {
    ChainValueReal(steps, start, p);
    BaseCast(Digits(steps), p);
    PowCast(p, |steps|);
  }

  /** (orig - d) / p, reduced, for ratios d and p of values dv and pv != 0, is the next of a step. */
  lemma DivStep(orig: Ratio, d: Ratio, p: Ratio, dv: real, pv: real) returns (next: Ratio)
    requires orig.Valid() && d.Valid() && p.Valid() && p.n != 0 && d.Value() == dv && p.Value() == pv
    ensures orig.Sub(d).Div(p).Success? && next == orig.Sub(d).Div(p).value.Reduce()
    ensures next.Valid() && Gcd(next.n, next.d) == 1 && SplitsAs(orig, dv, pv, next)
  {
    next := orig.Sub(d).Div(p).value.Reduce();
  }

  /**
   * One step of the expansion: (orig - digit) / p, reduced, is a reduced ratio
   * whose value v satisfies digit + p * v == orig.
   */
  lemma StepOfDivision(orig: Ratio, digit: int, p: int) returns (next: Ratio)
    requires orig.Valid() && 0 <= digit < p
    ensures orig.Sub(Make(digit, 1, 1)).Div(Make(p, 1, 1)).Success?
    ensures next == orig.Sub(Make(digit, 1, 1)).Div(Make(p, 1, 1)).value.Reduce()
    ensures Gcd(next.n, next.d) == 1 && StepHolds(Step(digit, next, orig), p)
  {
    WholeValue(digit);
    WholeValue(p);
    next := DivStep(orig, Make(digit, 1, 1), Make(p, 1, 1), digit as real, p as real);
  }

  /** The value i - p * (k/d) that nextPadicRatio compares with the ratio. */
  function Candidate(i: int, k: int, p: int, d: int): real
    requires d != 0
  {
    i as real - p as real * (k as real / d as real)
  }

  /** digit.add(pRatio.mul(newRatio)) for digit i/1, pRatio p/1 and newRatio -k/d has the candidate value. */
  lemma CandidateValue(i: int, k: int, p: int, d: int)
    requires 0 <= k && d >= 1
    ensures Make(i, 1, 1).Add(Make(p, 1, 1).Mul(Make(k, d, -1))).Value() == Candidate(i, k, p, d)
  {
    NextValue(k, d);
    WholeValue(p);
    WholeValue(i);
    SumOfProduct(Make(i, 1, 1), Make(p, 1, 1), Make(k, d, -1), i as real, p as real, k as real / d as real);
  }

  /** The step i + p * (-k/d) of a found digit has the candidate value. */
  lemma StepValue(i: int, k: int, p: int, d: int)
    requires 0 <= k && d >= 1
    ensures i >= 0 ==> Make(i, 1, 1).n == i
    ensures i as real + p as real * Make(k, d, -1).Value() == Candidate(i, k, p, d)
  {
    NextValue(k, d);
    Combine(i as real, p as real, Make(k, d, -1).Value(), i as real, p as real, k as real / d as real);
  }

  lemma WholeValue(i: int)
    ensures Make(i, 1, 1).Value() == i as real
  {
    assert Make(i, 1, 1).Value() == i as real / 1 as real;
  }

  lemma SumOfProduct(whole: Ratio, scale: Ratio, next: Ratio, i: real, p: real, q: real)
    requires whole.Valid() && scale.Valid() && next.Valid()
    requires whole.Value() == i && scale.Value() == p && next.Value() == -q
    ensures whole.Add(scale.Mul(next)).Value() == i - p * q
  {
    Combine(whole.Value(), scale.Value(), next.Value(), i, p, q);
  }

  lemma NextValue(k: int, d: int)
    requires 0 <= k && d >= 1
    ensures Make(k, d, -1).Value() == -(k as real / d as real)
  {
    assert Make(k, d, -1).Value() == (-1 * k) as real / d as real;
  }

  /** The real arithmetic of the candidate: i + p * (-q) == i - p * q. */
  lemma Combine(whole: real, scale: real, next: real, i: real, p: real, q: real)
    requires whole == i && scale == p && next == -q
    ensures whole + scale * next == i - p * q
  {
    NegMul(p, q);
  }

  lemma NegMul(x: real, y: real)
    ensures x * -y == -(x * y)
  {
  }

  /** |x|_p for prime p: 0 for zero, p^-v for the valuation v otherwise. */
  ghost function NormP(x: Ratio, p: int): real
    requires Prime(p) && x.d != 0
  {
    if x.n == 0 then 0.0
    else
      var v := RatioExp(p, x.n, x.d);
      if v > 0 then 1.0 / Pow(p, v) as real else Pow(p, -v) as real
  }

  /** The valuation depends only on the value: equal ratios have equal valuations. */
  lemma ValuationOfValue(x: Ratio, y: Ratio, p: int)
    requires x.Valid() && y.Valid() && Prime(p) && x.Value() == y.Value()
    ensures x.n == 0 <==> y.n == 0
    ensures x.n != 0 ==> RatioExp(p, x.n, x.d) == RatioExp(p, y.n, y.d)
  {
    FracEq(x.Num(), x.d, y.Num(), y.d);
    SameSign(x, y);
    if x.n != 0 {
      assert x.n * y.d == y.n * x.d;
      OrdMul(p, x.n, y.d);
      OrdMul(p, y.n, x.d);
    }
  }

  lemma GcdOfOne(m: nat)
    ensures Gcd(1, m) == 1
  {
    assert m % 1 == 0;
  }

  lemma GcdWithOne(m: nat)
    ensures Gcd(m, 1) == 1
  {
    if m > 1 {
      DivModUnique(1, m, 0, 1);
      GcdOfOne(m);
    }
  }

  /** "n" when d is 1, "n/d" otherwise. */
  function Fraction(n: nat, d: nat): (s: string)
    ensures |s| >= 1 && IsDigit(s[0])
  {
    if d == 1 then NatToString(n) else NatToString(n) + "/" + NatToString(d)
  }

  //------------------
  // Equality of values
  //------------------

  lemma FractionHasSlash(n: nat, d: nat)
    ensures ('/' in Fraction(n, d)) <==> d != 1
  {
    var s := NatToString(n);
    if d == 1 {
      assert forall i :: 0 <= i < |s| ==> IsDigit(s[i]);
    } else {
      assert Fraction(n, d)[|s|] == '/';
    }
  }

  lemma FractionInjective(n1: nat, d1: nat, n2: nat, d2: nat)
    requires Fraction(n1, d1) == Fraction(n2, d2)
    ensures n1 == n2 && d1 == d2
  {
    FractionHasSlash(n1, d1);
    FractionHasSlash(n2, d2);
    if d1 == 1 {
      NatToStringInjective(n1, n2);
    } else {
      SlashedInjective(n1, d1, n2, d2);
    }
  }

  /** "n/d" printing is injective. */
  lemma SlashedInjective(n1: nat, d1: nat, n2: nat, d2: nat)
    requires d1 != 1 && d2 != 1 && Fraction(n1, d1) == Fraction(n2, d2)
    ensures n1 == n2 && d1 == d2
  {
    SplitAtSlash(NatToString(n1), NatToString(d1), NatToString(n2), NatToString(d2));
    NatToStringInjective(n1, n2);
    NatToStringInjective(d1, d2);
  }

  /** Digits, a '/', and a tail: the digits and the tail are determined. */
  lemma SplitAtSlash(s1: string, t1: string, s2: string, t2: string)
    requires AllDigits(s1) && AllDigits(s2) && s1 + "/" + t1 == s2 + "/" + t2
    ensures s1 == s2 && t1 == t2
  {
    var r1, r2 := "/" + t1, "/" + t2;
    assert s1 + "/" + t1 == s1 + r1 && s2 + "/" + t2 == s2 + r2;
    LeadingDigitsOf(s1, r1);
    LeadingDigitsOf(s2, r2);
    assert r1 == (s1 + r1)[|s1|..];
    assert t1 == r1[1..] && t2 == r2[1..];
  }

  /** The text of a reduced ratio determines it. */
  lemma ToStringInjective(x: Ratio, y: Ratio)
    requires x.Valid() && y.Valid() && Gcd(x.n, x.d) == 1 && Gcd(y.n, y.d) == 1
    requires x.ToString() == y.ToString()
    ensures x == y
  {
    if x.n == 0 {
      assert Gcd(0, x.d) == x.d && Gcd(0, y.d) == y.d;
    } else {
      var s := x.ToString();
      assert (s[0] == '-') == (x.sign < 0) && (s[0] == '-') == (y.sign < 0);
      var fx, fy := Fraction(x.n, x.d), Fraction(y.n, y.d);
      assert fx == (if x.sign < 0 then s[1..] else s);
      assert fy == (if y.sign < 0 then s[1..] else s);
      FractionInjective(x.n, x.d, y.n, y.d);
    }
  }

  /** Two equal fractions with positive denominators cross-multiply equally. */
  lemma FracEq(a: int, b: int, c: int, e: int)
    requires b > 0 && e > 0 && a as real / b as real == c as real / e as real
    ensures a * e == c * b
  {
    var q := a as real / b as real;
    assert a as real == q * b as real;
    assert c as real == q * e as real;
    assert (a * e) as real == a as real * e as real == q * b as real * e as real;
    assert (c * b) as real == c as real * b as real == q * e as real * b as real;
  }

  /** A value has one reduced form. */
  lemma ReducedUnique(x: Ratio, y: Ratio)
    requires x.Valid() && y.Valid() && Gcd(x.n, x.d) == 1 && Gcd(y.n, y.d) == 1
    requires x.Value() == y.Value()
    ensures x == y
  {
    FracEq(x.Num(), x.d, y.Num(), y.d);
    SameSign(x, y);
    if x.n == 0 {
      assert Gcd(0, x.d) == x.d && Gcd(0, y.d) == y.d;
    } else {
      assert x.n * y.d == y.n * x.d;
      DividesMul(x.n, y.d);
      DividesMul(y.n, x.d);
      CoprimeDivides(x.n, x.d, y.n);
      CoprimeDivides(y.n, y.d, x.n);
      DividesLe(x.n, y.n);
      DividesLe(y.n, x.n);
      MulCancel(x.n, y.d, x.d);
    }
  }

  /** Cross-multiplied equality fixes the sign, and zero on one side means zero on both. */
  lemma SameSign(x: Ratio, y: Ratio)
    requires x.Valid() && y.Valid() && x.Num() * y.d == y.Num() * x.d
    ensures (x.n == 0 <==> y.n == 0) && x.sign == y.sign
    ensures x.sign * x.n * y.d == x.sign * y.n * x.d
  {
    var a, b := x.n * y.d, y.n * x.d;
    assert x.Num() * y.d == x.sign * a;
    assert y.Num() * x.d == y.sign * b;
    if x.n > 0 {
      MulAtLeast(x.n, y.d, 1, 1);
    }
    if y.n > 0 {
      MulAtLeast(y.n, x.d, 1, 1);
    }
  }

  lemma MulCancel(k: int, a: int, b: int)
    requires k != 0 && k * a == k * b
    ensures a == b
  {
    MulBelowMagnitude(k, a - b);
  }

  /** The reduced forms of two ratios print the same exactly when the ratios denote the same rational number. */
  lemma ReducedTextIffSameValue(x: Ratio, y: Ratio)
    requires x.Valid() && y.Valid()
    ensures x.Reduce().ToString() == y.Reduce().ToString() <==> x.Value() == y.Value()
  {
    var rx, ry := x.Reduce(), y.Reduce();
    if x.Value() == y.Value() {
      ReducedUnique(rx, ry);
    }
    if rx.ToString() == ry.ToString() {
      ToStringInjective(rx, ry);
    }
  }

  /** The sign folding of the constructor, for a nonzero denominator. */
  function Make(n: int, d: int, sign: int): (r: Ratio)
    requires d != 0
    ensures r.Valid() && r.n == Helpers.Abs(n) && r.d == Helpers.Abs(d)
    ensures (sign == 1 || sign == -1) ==> r.Value() == (sign * n) as real / d as real
  {
    var r := Ratio(Helpers.Abs(n), Helpers.Abs(d), if n * d * sign >= 0 then 1 else -1);
    SignFolding(n, d, sign);
    r
  }

  /**
   * The constructor: "Can't divide by 0." for d == 0; otherwise |n| and |d|
   * with sign +1 when n * d * sign >= 0 and -1 otherwise.
   */
  function New(n: int, d: int, sign: int): (r: Result<Ratio>)
    ensures r.Failure? <==> d == 0
    ensures r.Failure? ==> r.error == DivisionByZero
    ensures r.Success? ==> r.value.Valid() && r.value.n == Helpers.Abs(n) && r.value.d == Helpers.Abs(d)
    ensures r.Success? && (sign == 1 || sign == -1) ==> r.value.Value() == (sign * n) as real / d as real
  {
    if d == 0 then Failure(DivisionByZero) else Success(Make(n, d, sign))
  }

  //------------------
  // Arithmetic of fractions
  //------------------

  lemma SignFolding(n: int, d: int, sign: int)
    requires d != 0
    ensures var s := if n * d * sign >= 0 then 1 else -1;
      (sign == 1 || sign == -1) ==> (s * Helpers.Abs(n)) as real / Helpers.Abs(d) as real == (sign * n) as real / d as real
    ensures n == 0 ==> n * d * sign >= 0
  {
    if sign == 1 || sign == -1 {
      var s := if n * d * sign >= 0 then 1 else -1;
      if d > 0 {
        if n >= 0 {
          assert n * d >= 0;
        } else {
          assert n * d < 0;
        }
      } else {
        if n >= 0 {
          assert n * d <= 0;
        } else {
          assert n * d > 0;
        }
      }
      FracScale(s * Helpers.Abs(n), Helpers.Abs(d), if d > 0 then 1 else -1);
      assert (s * Helpers.Abs(n)) * (if d > 0 then 1 else -1) == sign * n;
    }
  }

  /** Multiplying numerator and denominator by the same nonzero c keeps the value. */
  lemma FracScale(a: int, b: int, c: int)
    requires b != 0 && c != 0
    ensures (a * c) as real / (b * c) as real == a as real / b as real
  {
    assert (a * c) as real == a as real * c as real;
    assert (b * c) as real == b as real * c as real;
  }

  lemma FracSum(a: int, b: int, c: int, e: int)
    requires b != 0 && e != 0
    ensures (a * e + b * c) as real / (b * e) as real == a as real / b as real + c as real / e as real
  {
    assert (a * e + b * c) as real == a as real * e as real + b as real * c as real;
    assert (b * e) as real == b as real * e as real;
  }

  lemma FracDiff(a: int, b: int, c: int, e: int)
    requires b != 0 && e != 0
    ensures (a * e - b * c) as real / (b * e) as real == a as real / b as real - c as real / e as real
  {
    FracSum(a, b, -c, e);
    assert (-c) as real / e as real == -(c as real / e as real);
    assert a * e + b * -c == a * e - b * c;
  }

  /** Dividing n and d by their gcd keeps the value of sign * n / d. */
  lemma ReducedValue(n: nat, d: nat, sign: int)
    requires d >= 1
    ensures Gcd(n, d) >= 1 && (n / Gcd(n, d)) * Gcd(n, d) == n && (d / Gcd(n, d)) * Gcd(n, d) == d
    ensures (sign * (n / Gcd(n, d))) as real / (d / Gcd(n, d)) as real == (sign * n) as real / d as real
  {
    var c := Gcd(n, d);
    DividesExact(c, n);
    DividesExact(c, d);
    var n', d' := n / c, d / c;
    FracScale(sign * n', d', c);
    assert (sign * n') * c == sign * (n' * c);
  }

  lemma FracProduct(a: int, b: int, c: int, e: int)
    requires b != 0 && e != 0
    ensures (a * c) as real / (b * e) as real == (a as real / b as real) * (c as real / e as real)
  {
    assert (a * c) as real == a as real * c as real;
    assert (b * e) as real == b as real * e as real;
  }

  /** The signed numerator of a valid ratio has magnitude n, so it is zero exactly when n is. */
  lemma NumParts(r: Ratio)
    requires r.Valid()
    ensures Helpers.Abs(r.Num()) == r.n && (r.Num() == 0 <==> r.n == 0)
  {
  }

  /** The parts of the quotient (sign * n / d) / (bs * bn / bd) that div builds. */
  lemma QuotientParts(n: nat, d: nat, sign: int, bn: nat, bd: nat, bs: int)
    requires d >= 1 && bn >= 1 && bd >= 1 && (sign == 1 || sign == -1) && (bs == 1 || bs == -1)
    ensures d * bn >= 1 && Helpers.Abs(sign * bs * n * bd) == n * bd
    ensures ((sign * bs * n * bd) as real / (d * bn) as real) * ((bs * bn) as real / bd as real)
      == (sign * n) as real / d as real
  {
    MulAtLeast(d, bn, 1, 1);
    var x := sign * n;
    FracProduct(sign * bs * n * bd, d * bn, bs * bn, bd);
    SignSquare(bs, x, bd, bn);
    assert (d * bn) * bd == d * (bd * bn);
    FracScale(x, d, bd * bn);
  }

  lemma SignSquare(bs: int, x: int, bd: int, bn: int)
    requires bs == 1 || bs == -1
    ensures (bs * x * bd) * (bs * bn) == x * (bd * bn)
  {
    assert bs * bs == 1;
    calc {
      (bs * x * bd) * (bs * bn);
      (bs * bs) * (x * bd * bn);
      x * (bd * bn);
    }
  }

  /** Dividing n and d by their gcd leaves a coprime pair. */
  lemma ReducedCoprime(n: nat, d: nat)
    requires d >= 1
    ensures Gcd(n, d) >= 1 && Gcd(n / Gcd(n, d), d / Gcd(n, d)) == 1
  {
    var c := Gcd(n, d);
    DividesExact(c, n);
    DividesExact(c, d);
    var n', d' := n / c, d / c;
    MulPositiveRight(c, d');
    var g := Gcd(n', d');
    CommonFactor(c, g, n');
    CommonFactor(c, g, d');
    GcdGreatest(n, d, c * g);
    MulAtLeast(c, g, 1, 1);
    DividesLe(c * g, c);
    MulLeSelf(c, g);
  }

  /** A positive c times g >= 1 stays at most c only for g == 1. */
  lemma MulLeSelf(c: int, g: int)
    requires c >= 1 && g >= 1 && c * g <= c
    ensures g == 1
  {
    MulAtLeast(c, g - 1, 1, g - 1);
    assert c * g == c * (g - 1) + c;
  }

  lemma CommonFactor(c: int, g: int, m: int)
    requires Divides(g, m) && g != 0
    ensures Divides(c * g, c * m)
  {
    DividesExact(g, m);
    assert c * m == (c * g) * (m / g);
    DividesMul(c * g, m / g);
  }
}

=== FILE: text.dfy ===
/**
 * The string operations the engine's printers and parser use: decimal
 * rendering of numbers, parseInt on a digit token, split on ' ', the
 * space-joined rendering built by appending "token " and trimming.
 */
module Text {

  predicate IsDigit(c: char)
  {
    '0' <= c <= '9'
  }

  predicate AllDigits(s: string)
  {
    forall i :: 0 <= i < |s| ==> IsDigit(s[i])
  }

  function DigitChar(d: nat): (c: char)
    requires d < 10
    ensures IsDigit(c)
  {
    ('0' as int + d) as char
  }

  /** Decimal rendering of a natural number, most significant digit first. */
  function NatToString(n: nat): (s: string)
    ensures |s| >= 1 && AllDigits(s)
  {
    if n < 10 then [DigitChar(n)] else NatToString(n / 10) + [DigitChar(n % 10)]
  }

  /** The number a string of decimal digits denotes. */
  function DigitsValue(s: string): nat
    requires AllDigits(s)
  {
    if s == [] then 0 else 10 * DigitsValue(s[..|s| - 1]) + (s[|s| - 1] as int - '0' as int)
  }

  /** The longest prefix of s made of decimal digits. */
  function LeadingDigits(s: string): (r: string)
    ensures AllDigits(r) && |r| <= |s| && r == s[..|r|]
  {
    if s == [] || !IsDigit(s[0]) then [] else [s[0]] + LeadingDigits(s[1..])
  }

  /**
   * parseInt on a token: the value of the digits that follow an optional
   * leading '-'. A token without such digits, where parseInt gives NaN, reads
   * as 0; leading white space, a '+' sign and a "0x" prefix are not read.
   */
  function ParseInt(s: string): (r: int)
    ensures AllDigits(s) ==> r == DigitsValue(s)
    ensures |s| >= 1 && s[0] == '-' ==> r <= 0
    ensures !(|s| >= 1 && s[0] == '-') ==> r >= 0
  {
    LeadingDigitsOfDigits(s);
    if |s| >= 1 && s[0] == '-' then -(DigitsValue(LeadingDigits(s[1..])) as int) else DigitsValue(LeadingDigits(s))
  }

  /** A string of digits is its own longest digit prefix. */
  lemma {:induction false} LeadingDigitsOfDigits(s: string)
    ensures AllDigits(s) ==> LeadingDigits(s) == s
  {
    if s != [] && AllDigits(s) {
      LeadingDigitsOfDigits(s[1..]);
    }
  }

  /** How a JavaScript number that holds an integer prints: an optional '-' and the decimal digits. */
  function IntToString(x: int): (s: string)
    ensures |s| >= 1 && ' ' !in s && '.' !in s
  {
    var digits := NatToString(if x < 0 then -x else x);
    assert forall i :: 0 <= i < |digits| ==> digits[i] != ' ' && digits[i] != '.';
    if x < 0 then "-" + digits else digits
  }

  lemma {:induction false} DigitsValueOfNat(n: nat)
    ensures DigitsValue(NatToString(n)) == n
  {
    if n >= 10 {
      DigitsValueOfNat(n / 10);
      var s := NatToString(n);
      assert s[..|s| - 1] == NatToString(n / 10);
    }
  }

  lemma {:induction false} LeadingDigitsOf(digits: string, rest: string)
    requires AllDigits(digits) && (rest == [] || !IsDigit(rest[0]))
    ensures LeadingDigits(digits + rest) == digits
    decreases |digits|
  {
    if digits != [] {
      assert (digits + rest)[1..] == digits[1..] + rest;
      LeadingDigitsOf(digits[1..], rest);
    }
  }

  /** Text that ends the digits of x for parseInt: nothing, or a non-digit that is not a hexadecimal 'x' after 0. */
  predicate EndsNumber(x: int, rest: string)
  {
    rest == [] || (!IsDigit(rest[0]) && !(x == 0 && (rest[0] == 'x' || rest[0] == 'X')))
  }

  /**
   * parseInt reads back what NatToString printed when a non-digit follows it,
   * except 'x' or 'X' after a lone 0, which parseInt takes as a hexadecimal prefix.
   */
  lemma ParseIntOfNat(n: nat, rest: string)
    requires EndsNumber(n, rest)
    ensures ParseInt(NatToString(n) + rest) == n
  {
    LeadingDigitsOf(NatToString(n), rest);
    DigitsValueOfNat(n);
  }

  /**
   * parseInt reads back every integer IntToString printed when a non-digit
   * follows it, except 'x' or 'X' after a lone 0 (a hexadecimal prefix).
   */
  lemma ParseIntOfInt(x: int, rest: string)
    requires EndsNumber(x, rest)
    ensures ParseInt(IntToString(x) + rest) == x
  {
    if x < 0 {
      var digits := NatToString(-x);
      assert IntToString(x) == "-" + digits;
      assert ("-" + digits) + rest == "-" + (digits + rest);
      ParseIntOfNeg(-x, rest);
    } else {
      assert IntToString(x) == NatToString(x);
      ParseIntOfNat(x, rest);
    }
  }

  /** parseInt reads "-" and the digits of m as -m. */
  lemma ParseIntOfNeg(m: nat, rest: string)
    requires m >= 1 && EndsNumber(m, rest)
    ensures ParseInt("-" + (NatToString(m) + rest)) == -(m as int)
  {
    var u := NatToString(m) + rest;
    var t := "-" + u;
    assert t[1..] == u;
    ParseIntOfNat(m, rest);
  }

  /** Only 0 prints as "0". */
  lemma NatToStringOfPositive(n: nat)
    requires n >= 1
    ensures NatToString(n) != "0"
  {
    if n >= 10 {
      assert |NatToString(n)| >= 2;
    }
  }

  /** Decimal rendering is injective. */
  lemma NatToStringInjective(a: nat, b: nat)
    requires NatToString(a) == NatToString(b)
    ensures a == b
  {
    DigitsValueOfNat(a);
    DigitsValueOfNat(b);
  }

  /** Tokens joined by single spaces. */
  function Join(ts: seq<string>): string
    requires |ts| >= 1
  {
    if |ts| == 1 then ts[0] else Join(ts[..|ts| - 1]) + " " + ts[|ts| - 1]
  }

  /** Each token followed by one space, as a loop that appends "token " produces it. */
  function Spaced(ts: seq<string>): string
  {
    if ts == [] then "" else Spaced(ts[..|ts| - 1]) + ts[|ts| - 1] + " "
  }

  /** s without its trailing spaces. */
  function TrimEnd(s: string): (r: string)
    ensures |r| <= |s| && r == s[..|r|] && (r == [] || r[|r| - 1] != ' ')
    ensures forall i :: |r| <= i < |s| ==> s[i] == ' '
  {
    if s != [] && s[|s| - 1] == ' ' then TrimEnd(s[..|s| - 1]) else s
  }

  /** s without its leading spaces. */
  function TrimStart(s: string): (r: string)
    ensures |r| <= |s| && r == s[|s| - |r|..] && (r == [] || r[0] != ' ')
    ensures forall i :: 0 <= i < |s| - |r| ==> s[i] == ' '
  {
    if s != [] && s[0] == ' ' then TrimStart(s[1..]) else s
  }

  /** String.prototype.trim, for the only white space the engine prints. */
  function Trim(s: string): string
  {
    TrimStart(TrimEnd(s))
  }

  /** trim leaves neither a leading nor a trailing space. */
  lemma TrimEnds(s: string)
    ensures var r := Trim(s); r == [] || (r[0] != ' ' && r[|r| - 1] != ' ')
  {
    var e := TrimEnd(s);
    var r := TrimStart(e);
    if r != [] {
      assert r[|r| - 1] == e[|e| - 1];
    }
  }

  /** trim cuts only spaces: the result sits in s with only spaces before and after it. */
  lemma TrimPadded(s: string)
    ensures PaddedAt(s, |TrimEnd(s)| - |Trim(s)|, Trim(s))
  {
    var e := TrimEnd(s);
    Padded(s, e, TrimStart(e));
  }

  /** Cutting trailing spaces from s to get e, then leading spaces from e to get r, leaves r padded in s. */
  lemma Padded(s: string, e: string, r: string)
    requires |e| <= |s| && e == s[..|e|] && forall i :: |e| <= i < |s| ==> s[i] == ' '
    requires |r| <= |e| && r == e[|e| - |r|..] && forall i :: 0 <= i < |e| - |r| ==> e[i] == ' '
    ensures PaddedAt(s, |e| - |r|, r)
  {
    var i := |e| - |r|;
    assert s[i..i + |r|] == e[i..];
    forall m | 0 <= m < i
      ensures s[m] == ' '
    {
      assert s[m] == e[m];
    }
  }

  /** trim gives "" exactly for a text of spaces only. */
  lemma TrimEmpty(s: string)
    ensures Trim(s) == [] <==> AllSpaces(s)
  {
    var e := TrimEnd(s);
    var r := TrimStart(e);
    if r == [] {
      forall m | 0 <= m < |s|
        ensures s[m] == ' '
      {
        if m < |e| {
          assert s[m] == e[m];
        }
      }
    } else {
      assert s[|e| - |r|] == r[0];
    }
  }

  predicate AllSpaces(s: string)
  {
    forall i :: 0 <= i < |s| ==> s[i] == ' '
  }

  /** s is r with only spaces before it (i of them) and only spaces after it. */
  predicate PaddedAt(s: string, i: int, r: string)
  {
    0 <= i <= |s| - |r| && s[i..i + |r|] == r &&
    (forall m :: 0 <= m < i ==> s[m] == ' ') && (forall m :: i + |r| <= m < |s| ==> s[m] == ' ')
  }

  /** The index of the last space of s. */
  function LastSpace(s: string): (k: nat)
    requires ' ' in s
    ensures k < |s| && s[k] == ' ' && ' ' !in s[k + 1..]
  {
    if s[|s| - 1] == ' ' then |s| - 1 else
      assert ' ' in s[..|s| - 1] by {
        var i :| 0 <= i < |s| && s[i] == ' ';
        assert s[..|s| - 1][i] == ' ';
      }
      var k := LastSpace(s[..|s| - 1]);
      assert s[k + 1..] == s[..|s| - 1][k + 1..] + [s[|s| - 1]];
      k
  }

  /**
   * String.prototype.split(' '): the pieces between single spaces, empty ones
   * included. No piece holds a space, and joining them back gives s.
   */
  function Split(s: string): (r: seq<string>)
    ensures |r| >= 1 && forall i :: 0 <= i < |r| ==> ' ' !in r[i]
    ensures Join(r) == s
    decreases |s|
  {
    if ' ' !in s then [s] else
      var k := LastSpace(s);
      var init := Split(s[..k]);
      var r := init + [s[k + 1..]];
      assert r[..|r| - 1] == init;
      assert s == s[..k] + " " + s[k + 1..];
      r
  }

  predicate IsToken(t: string)
  {
    |t| >= 1 && ' ' !in t
  }

  lemma {:induction false} JoinEnds(ts: seq<string>)
    requires |ts| >= 1 && forall i :: 0 <= i < |ts| ==> IsToken(ts[i])
    ensures IsToken(ts[0]) && |Join(ts)| >= 1 && Join(ts)[0] == ts[0][0] && Join(ts)[|Join(ts)| - 1] != ' '
  {
    if |ts| > 1 {
      JoinEnds(ts[..|ts| - 1]);
    }
  }

  lemma {:induction false} LastSpaceOf(pre: string, last: string)
    requires ' ' !in last
    ensures ' ' in pre + " " + last && LastSpace(pre + " " + last) == |pre|
    decreases |last|
  {
    var s := pre + " " + last;
    assert s[|pre|] == ' ';
    if last != [] {
      var init := last[..|last| - 1];
      assert s[..|s| - 1] == pre + " " + init;
      assert ' ' !in init by {
        forall i | 0 <= i < |init| ensures init[i] != ' ' {
          assert init[i] == last[i];
        }
      }
      LastSpaceOf(pre, init);
    }
  }

  /** Splitting on ' ' recovers the tokens Join put together. */
  lemma {:induction false} SplitJoin(ts: seq<string>)
    requires |ts| >= 1 && forall i :: 0 <= i < |ts| ==> IsToken(ts[i])
    ensures Split(Join(ts)) == ts
  {
    var last := ts[|ts| - 1];
    if |ts| == 1 {
      assert Join(ts) == last;
    } else {
      var init := ts[..|ts| - 1];
      var s := Join(ts);
      var pre := Join(init);
      assert s == pre + " " + last;
      LastSpaceOf(pre, last);
      var k := LastSpace(s);
      assert s[..k] == pre;
      assert s[k + 1..] == last;
      SplitJoin(init);
      InitLast(ts);
    }
  }

  lemma InitLast(ts: seq<string>)
    requires |ts| >= 1
    ensures ts == ts[..|ts| - 1] + [ts[|ts| - 1]]
  {
  }

  lemma {:induction false} SpacedJoin(ts: seq<string>)
    requires |ts| >= 1
    ensures Spaced(ts) == Join(ts) + " "
  {
    if |ts| > 1 {
      SpacedJoin(ts[..|ts| - 1]);
    } else {
      assert Spaced(ts[..0]) == "";
    }
  }

  lemma TrimEndOfLastNonSpace(s: string)
    requires s != [] && s[|s| - 1] != ' '
    ensures TrimEnd(s + " ") == s
  {
    assert (s + " ")[..|s|] == s;
  }

  lemma TrimStartOfFirstNonSpace(s: string)
    requires s != [] && s[0] != ' '
    ensures TrimStart(s) == s
  {
  }

  /** Trimming "t1 t2 ... tn " gives "t1 t2 ... tn". */
  lemma TrimSpaced(ts: seq<string>)
    requires |ts| >= 1 && forall i :: 0 <= i < |ts| ==> IsToken(ts[i])
    ensures Trim(Spaced(ts)) == Join(ts)
  {
    SpacedJoin(ts);
    JoinEnds(ts);
    TrimEndOfLastNonSpace(Join(ts));
    TrimStartOfFirstNonSpace(Join(ts));
  }

  /** The sequence in reverse order, as Array.prototype.reverse leaves it. */
  function Reversed<T>(s: seq<T>): seq<T>
  {
    seq(|s|, i requires 0 <= i < |s| => s[|s| - 1 - i])
  }
}

=== FILE: wrappers.dfy ===
/** The engine's failures and the result type that carries them. */
module Wrappers {

  /** One constructor per exception the engine throws. */
  datatype Error =
    | DivisionByZero        // "Can't divide by 0."
    | ValueOutOfRange       // "a and b shouldn't be > to MAX_ARG"
    | InvalidParameter      // "prime should be >= 2"
    | ZeroOperand           // "a shouldn't be zero."
    | ImpossibleModInverse  // "Impossible mod inv"
    | ReconstructionFailed  // "Rational reconstruction failed"
    | NoNextDigit           // "Can't compute next digit"

  datatype Result<+T> = Success(value: T) | Failure(error: Error)
}
